=== FILE: README.md ===
# Emoji Match, word grids and the contact form, in Dafny

This project models the interactive cores of a React portfolio site that carries a handful of browser games. Each screen is treated as a state machine: its state is an immutable record, and every user action or timer firing is one pure step function.

- **Emoji Match session** (`src/games/EmojiGame/Game.jsx`, module `MatchSession`). A three-second countdown, the playing clock, and guarded card clicks that count one move per pair. A one-second resolve event turns the cards back. The module also covers pause and resume, the exit confirmation and completion.
- **Score store** (`GameStorageService.jsx`, module `ScoreStore`).
  - `localStorage` is a record holding one slot per key, and a slot can be missing, stored or malformed.
  - Storage can be unavailable, or full for writes.
  - Each difficulty keeps a leaderboard that is appended to, stably sorted by (moves, time) and cut to ten.
  - Preferences are saved by a partial merge.
  - Clear-all removes both keys.
- **Timed Emoji game** (`emoji-game.jsx`, module `TimedGame`). The integer-exact score formula, the bonus-time cap, the second-by-second clock with power-up cooldowns, three power-ups and their revert timers, the best score per difficulty and the achievement flags.
- **Screens** (`src/App.jsx`, module `App`). Splash, lobby and game screens, plus the top-ten list kept sorted by moves.
- **Lobby** (`GameLobby.jsx`, module `Lobby`).
  - The name, difficulty and theme pickers are written through to the score store.
  - The start check trims the name and slices the theme's symbols to the pair count.
  - The score reset and the Escape key are covered.
  - `Achievements.jsx` repeats lines 1-95 of `GameLobby.jsx` character for character. It differs in markup and in two attributes of the name input. The 20-character cap is modelled by `Lobby.SetNameCapped`. The `required` attribute makes the browser refuse to submit an empty name, so `handleStartGame` never runs for one and no alert appears; this browser check is not modelled.
- **The self-contained game** (`src/Game.jsx`, module `SimpleGame`). A screen switch, a board shuffled by sorting on random keys, and immediate match resolution.
- **Word puzzle** (`WordPuzzle.jsx`, module `WordPuzzle`, with the grid vocabulary in `WordGrid`).
  - Neighbour enumeration, walk-based word placement and grid generation with its random fill.
  - Touch selection of adjacent, distinct cells whose letters form the current word.
  - The two-phase word check, with its half-second pause as an event.
- **Word connect** (`WordConnectMobile.jsx`, module `WordConnect`). The fixed 4×4 grid, the adjacency test, touch selection, the length-bucketed word list, scoring and streaks.
- **Contact form** (`src/components/ContactForm.jsx`, module `ContactForm`). The three-field validator, with its email regular expression restated as a string scan and proved equal to it. Also the per-field error clearing and the submit guard with its reset.

`Common` holds the JavaScript notions the modules share:
- `String.prototype.trim` and the `\s` class.
- `Array.prototype.slice(0, n)`.
- The stable `Array.prototype.sort` with a numeric comparator, modelled as insertion by rank.

`Board` holds the card deck of the two Emoji Match engines. A comparator sort driven by `Math.random` is modelled as an arbitrary sequence of swaps, so the model allows every permutation. A random-key sort is modelled as a stable sort on caller-supplied keys. The random start cells and fill letters of the word puzzle are functions passed in as parameters.

Three facts about the code shape the model:
- The default score table has a `high` key, not `hard`, so a first `hard` save starts from an empty list.
- Only levels 1 and 2 of the word puzzle have word lists. Once its level check is corrected, the puzzle can move past level 2, and the corrected check then keeps the grid it has rather than crashing.
- Lookups in object literals read through to `Object.prototype`. A difficulty named `toString` or `constructor` finds an inherited function rather than nothing, both in the lobby and in the pair-count and score tables.

## Model

| member | source | states |
|---|---|---|
| Common.Take | src/games/EmojiGame/GameLobby.jsx:82 | `slice(0, n)`: the first min(n, length) elements, as a prefix of the input |
| Common.Trim | src/components/ContactForm.jsx:18-20 | the trimmed string is the input with a whitespace-only prefix and suffix removed; it is empty exactly when the input is all whitespace, and otherwise neither starts nor ends with whitespace |
| Common.SortByRank | src/games/EmojiGame/GameStorageService.jsx:44-49 | the comparator sort returns a permutation of its input, ordered by (moves, time) |
| Common.SortedInsert | src/games/EmojiGame/GameStorageService.jsx:38-49 | sorting a sorted list with one entry appended puts that entry right after every entry that does not rank after it, so ties keep their order |
| Common.SortSortedIsIdentity | src/games/EmojiGame/GameStorageService.jsx:44-49 | the stable sort leaves an already sorted list unchanged |
| Common.TakeSorted | src/games/EmojiGame/GameStorageService.jsx:52 | keeping the first ten entries of a sorted list keeps it sorted |
| Board.Selection | src/games/EmojiGame/Game.jsx:61 | `emojiSet.slice(0, numPairs)`: the whole set when the count is `undefined`, otherwise its first min(count, size) symbols |
| Board.Shuffle | src/games/EmojiGame/Game.jsx:64-65 | the random-comparator sort yields a permutation of the doubled symbols |
| Board.ToCards | src/games/EmojiGame/Game.jsx:66-71 | cards are numbered by position, carry their symbol, and start face down and unmatched |
| Board.Deal | src/games/EmojiGame/Game.jsx:61-71 | the deck holds twice the selection, numbered 0..n-1, all face down and unmatched, and contains each selected symbol twice |
| Board.DealPairsTwice | src/games/EmojiGame/Game.jsx:61-62 | with distinct selected symbols, each selected symbol appears on exactly two cards and every other symbol on none |
| Board.MatchedCountFull | src/games/EmojiGame/Game.jsx:109-118 | the matched count equals the deck size exactly when every card is matched |
| MatchSession.PairsFor | src/games/EmojiGame/Game.jsx:55-59 | easy, medium and hard give 6, 8 or 10 pairs; a name inherited from `Object.prototype` gives a function, which `slice` reads as 0; any other name gives `undefined` |
| MatchSession.Start | src/games/EmojiGame/Game.jsx:53-84 | `initializeGame` and `startCountdown` (also what `handleRestart` runs): a new deck from the settings, moves, clock, matches and picks reset, countdown at 3; an inherited difficulty name deals no cards |
| MatchSession.CountdownTick | src/games/EmojiGame/Game.jsx:31-41 | only in COUNTDOWN: the counter drops by one, and the session enters PLAYING exactly when it reaches 0 |
| MatchSession.ClockTick | src/games/EmojiGame/Game.jsx:43-51 | elapsed seconds rise by one in PLAYING only; nothing else changes |
| MatchSession.Click | src/games/EmojiGame/Game.jsx:86-119 | refused clicks change nothing; an accepted one is appended to the picks; only the second pick counts a move and starts processing; on equal symbols both cards are matched and the symbol recorded, and the session completes exactly when the recorded pairs cover the deck |
| MatchSession.MarkMatched | src/games/EmojiGame/Game.jsx:114-118 | exactly the two picked cards become matched; every other card is unchanged |
| MatchSession.Resolve | src/games/EmojiGame/Game.jsx:121-124 | after the delay the picks are cleared and processing ends, whether or not they matched; nothing else changes |
| MatchSession.PauseResume | src/games/EmojiGame/Game.jsx:140-146 | PLAYING and PAUSED swap; every other state is left alone |
| MatchSession.Exit | src/games/EmojiGame/Game.jsx:153-159 | exiting while PLAYING asks for confirmation; in any other state it goes straight back to the lobby |
| MatchSession.CancelExit | src/games/EmojiGame/Game.jsx:336 | cancelling closes the confirmation and changes nothing else |
| MatchSession.Finish | src/games/EmojiGame/Game.jsx:313 | a completed session reports its moves and elapsed seconds |
| MatchSession.StartValid | src/games/EmojiGame/Game.jsx:53-84 | a newly started session satisfies the session invariant, for every symbol set and difficulty, including an empty deck |
| MatchSession.StepValid | src/games/EmojiGame/Game.jsx:26-146 | every event keeps the invariant: at most two distinct picks, unmatched until the second, processing exactly with two picks, two matched cards per recorded pair, at least one move per pair, COMPLETED exactly when all pairs are recorded |
| MatchSession.ClickValid | src/games/EmojiGame/Game.jsx:86-126 | a click keeps the session invariant |
| MatchSession.FirstFlipValid | src/games/EmojiGame/Game.jsx:97-98 | a first pick keeps the session invariant |
| MatchSession.SecondFlipValid | src/games/EmojiGame/Game.jsx:100-119 | a second pick, matching or not, keeps the session invariant |
| MatchSession.MarkMatchedCount | src/games/EmojiGame/Game.jsx:114-118 | matching two unmatched cards raises the matched count by exactly two and keeps the numbering |
| MatchSession.RepeatedClickIsNoOp | src/games/EmojiGame/Game.jsx:87-95 | clicking a matched or already picked card changes nothing |
| MatchSession.DoubleClickCountsNoMove | src/games/EmojiGame/Game.jsx:90-102 | clicking the same card twice counts no move: the second click is ignored |
| MatchSession.CompletedIffAllMatched | src/games/EmojiGame/Game.jsx:109-118 | in a valid session, COMPLETED holds exactly when the deck is non-empty and every card is matched; an empty deck never completes, since no click is possible |
| MatchSession.StepKeepsPairs | src/games/EmojiGame/Game.jsx:102-107 | apart from a restart, no event forgets a recorded pair or lowers the move count |
| ScoreStore.GetHighScores | src/games/EmojiGame/GameStorageService.jsx:22-30 | the stored table, or the default table when nothing is stored, the stored text is malformed or storage is unavailable |
| ScoreStore.GetPlayerPreferences | src/games/EmojiGame/GameStorageService.jsx:62-70 | the stored preferences, or the defaults (no name, animals, medium) on a miss or a failed read |
| ScoreStore.Ranked | src/games/EmojiGame/GameStorageService.jsx:38-52 | after appending one entry the list holds min(10, n+1) entries, is sorted by (moves, time), draws only on the old list and the new entry, and every kept entry ranks no later than every dropped one, whether or not the stored list was sorted |
| ScoreStore.SaveHighScore | src/games/EmojiGame/GameStorageService.jsx:32-60 | a writable store gets the difficulty's list replaced by its old list (empty when missing, `hard` included) with the new entry added, sorted and cut to ten, and every other list untouched; a failed write, or an inherited difficulty name whose `.push` throws, leaves storage alone and returns what is readable |
| ScoreStore.InheritedNameSavesNothing | src/games/EmojiGame/GameStorageService.jsx:33-59 | a score saved under `toString` is lost, while the same score under `easy` is stored |
| ScoreStore.SaveHighScoreKeepsNewEntry | src/games/EmojiGame/GameStorageService.jsx:38-52 | the new entry lands after every entry that does not rank after it and stays on the board when fewer than ten rank before it |
| ScoreStore.SavePreservesLeaderboard | src/games/EmojiGame/GameStorageService.jsx:44-52 | when every list holds at most ten entries in (moves, time) order, a save keeps it so |
| ScoreStore.Merge | src/games/EmojiGame/GameStorageService.jsx:74-78 | given fields override and missing fields keep their current value |
| ScoreStore.SavePlayerPreferences | src/games/EmojiGame/GameStorageService.jsx:72-85 | a writable store stores and returns the merge with the readable preferences, leaving the scores alone; a failed write changes nothing and returns what is readable |
| ScoreStore.MergeNameOnly | src/games/EmojiGame/GameStorageService.jsx:72-80 | saving only a name keeps the stored theme and difficulty |
| ScoreStore.ClearAllData | src/games/EmojiGame/GameStorageService.jsx:87-96 | returns true and removes both keys exactly when storage is available; otherwise returns false and changes nothing |
| ScoreStore.ClearIdempotent | src/games/EmojiGame/GameStorageService.jsx:87-96 | clearing twice is the same as clearing once |
| TimedGame.HalfSteps | src/games/EmojiGame/emoji-game.jsx:80 | the difficulty multiplier (1, 1.5, 2) is half an integer |
| TimedGame.CalculateScore | src/games/EmojiGame/emoji-game.jsx:77-84 | the natural-number score equals the real product (100·matches + 10·timeLeft) × difficulty multiplier × score multiplier, so the rounding never acts |
| TimedGame.ScoreStep | src/games/EmojiGame/emoji-game.jsx:77-84 | one more match adds 100 × difficulty multiplier × score multiplier points |
| TimedGame.CreateBoard | src/games/EmojiGame/emoji-game.jsx:229-241 | 2×pairs cards numbered by position, face down, unmatched, holding the first `pairs` symbols twice |
| TimedGame.CreateBoardPairs | src/games/EmojiGame/emoji-game.jsx:229-241 | each of the first `pairs` symbols appears exactly twice and no other symbol appears |
| TimedGame.SymbolsDistinct | src/games/EmojiGame/emoji-game.jsx:75 | the ten symbols are distinct |
| TimedGame.NewGame | src/games/EmojiGame/emoji-game.jsx:288-304 | a new board, full time, no matches, score 0, multiplier 1, every power-up ready; level, best scores and achievements carried over |
| TimedGame.ChooseLevel | src/games/EmojiGame/emoji-game.jsx:558-565 | every pick starts a new game at the picked level (directly, or through the difficulty effect at lines 389-391): new board, full time, nothing matched or scored, power-ups ready; best scores and achievements kept |
| TimedGame.ChooseSameLevelRestarts | src/games/EmojiGame/emoji-game.jsx:561-565 | picking the level already in play restarts it, exactly as a new game does |
| TimedGame.ChooseLevelValid | src/games/EmojiGame/emoji-game.jsx:558-565 | a picked level starts a game that satisfies the game invariant |
| TimedGame.CheckAchievements | src/games/EmojiGame/emoji-game.jsx:270-286 | first win is always set; speed master when over half the time remains; perfect game when the score beats the best; hard-mode win on hard with a positive score; no flag is cleared |
| TimedGame.EndGame | src/games/EmojiGame/emoji-game.jsx:306-323 | the game ends with the computed score; that level's best becomes the larger of old best and score, other levels untouched; achievements only grow |
| TimedGame.SetFlipped | src/games/EmojiGame/emoji-game.jsx:333-337 | only the card with the clicked id changes its face |
| TimedGame.SetMatched | src/games/EmojiGame/emoji-game.jsx:349-355 | only the two cards with the picked ids become matched |
| TimedGame.Click | src/games/EmojiGame/emoji-game.jsx:325-387 | refused clicks change nothing; an accepted one turns the card up and appends it; the second schedules a match resolution exactly when the symbols are equal, otherwise a mismatch; no other card changes, and everything but the board, the picks and the pending resolution stays |
| TimedGame.SettleMatch | src/games/EmojiGame/emoji-game.jsx:347-372 | a match adds one to matches, adds bonus time capped at the level's time, ends the game on reaching `pairs`, marks both cards and clears the picks |
| TimedGame.SettleMismatch | src/games/EmojiGame/emoji-game.jsx:374-384 | a mismatch turns both cards back down and clears the picks and the pending resolution; every other part of the game stays |
| TimedGame.ResolveAsWritten | src/games/EmojiGame/emoji-game.jsx:356-363 | as written, the winning match scores with the match count, time and multiplier captured at the second click |
| TimedGame.Resolve | src/games/EmojiGame/emoji-game.jsx:347-384 | a pending match counts, earns capped bonus time and, on the last pair, ends the game scoring all pairs with the current time and multiplier; a mismatch changes neither; both clear the picks |
| TimedGame.WinScoreCountsAllPairs | src/games/EmojiGame/emoji-game.jsx:306-363 | the corrected win scores all pairs; the code as written scores one match fewer, 100 × multipliers below that |
| TimedGame.WinScoreUndercounts | src/games/EmojiGame/emoji-game.jsx:356-363 | medium, winning with 12 s left: the code as written scores 1230, the corrected model 1380 |
| TimedGame.CoolDownOne | src/games/EmojiGame/emoji-game.jsx:407-412 | a positive cooldown drops by one and the power-up turns active when it reaches 0; a zero cooldown is left alone |
| TimedGame.CoolDown | src/games/EmojiGame/emoji-game.jsx:404-415 | every power-up cools down independently |
| TimedGame.TickWith | src/games/EmojiGame/emoji-game.jsx:393-420 | when neither over nor frozen: time becomes max(time − 1, 0), cooldowns tick, the game ends exactly at 0 and scores with the time `endGame` sees; board, picks, matches, level, multiplier and freeze always stay, and score, best and achievements stay while time remains |
| TimedGame.TickAsWritten | src/games/EmojiGame/emoji-game.jsx:396-402 | as written, the timeout scores with the time before the last tick (1 second) |
| TimedGame.Tick | src/games/EmojiGame/emoji-game.jsx:396-402 | the corrected tick: a game that runs out of time scores with 0 seconds left; otherwise time drops by one; cooldowns tick; board, picks, matches and level always stay, and score, best and achievements stay while time remains |
| TimedGame.TimeoutScoreOverstated | src/games/EmojiGame/emoji-game.jsx:396-402 | easy, three matches, timing out: the code as written scores 310, the corrected model 300 |
| TimedGame.UsePowerUp | src/games/EmojiGame/emoji-game.jsx:169-197 | inactive power-ups or a finished game change nothing; otherwise the power-up goes inactive with cooldown 30, others untouched, and freezes time, doubles points or turns every card up keeping its symbol and matched flag; each kind changes only its own part of the game, and nothing else changes |
| TimedGame.Thaw | src/games/EmojiGame/emoji-game.jsx:175 | the freeze timer unfreezes the clock and nothing else |
| TimedGame.Conceal | src/games/EmojiGame/emoji-game.jsx:179-185 | the reveal timer turns every unmatched card back down and leaves matched cards as they are |
| TimedGame.EndDoublePoints | src/games/EmojiGame/emoji-game.jsx:189 | the double-points timer resets the multiplier to 1 and nothing else |
| TimedGame.NewGameValid | src/games/EmojiGame/emoji-game.jsx:288-304 | a new game satisfies the game invariant |
| TimedGame.ClickValid | src/games/EmojiGame/emoji-game.jsx:325-345 | a click keeps the game invariant |
| TimedGame.ResolveValid | src/games/EmojiGame/emoji-game.jsx:347-384 | a resolution keeps the game invariant |
| TimedGame.MatchSettledValid | src/games/EmojiGame/emoji-game.jsx:347-372 | settling a match keeps the game invariant |
| TimedGame.MismatchSettledValid | src/games/EmojiGame/emoji-game.jsx:374-384 | settling a mismatch keeps the game invariant |
| TimedGame.SetMatchedCount | src/games/EmojiGame/emoji-game.jsx:349-355 | matching two unmatched cards adds exactly two to the matched count |
| TimedGame.TickValid | src/games/EmojiGame/emoji-game.jsx:393-415 | a tick keeps the game invariant |
| TimedGame.PowerValid | src/games/EmojiGame/emoji-game.jsx:169-197 | using a power-up keeps the game invariant |
| TimedGame.StepValid | src/games/EmojiGame/emoji-game.jsx:169-420 | every event keeps the invariant: numbered deck of 2×pairs, at most two distinct unmatched picks, a resolution pending exactly while two are picked, two matched cards per match, time within the level's limit, multiplier 1 or 2, coherent cooldowns |
| TimedGame.MatchesBounded | src/games/EmojiGame/emoji-game.jsx:356-363 | the match count never exceeds the level's pairs |
| TimedGame.StepKeepsSymbols | src/games/EmojiGame/emoji-game.jsx:169-420 | every event but a restart keeps each card's symbol at its place on the board |
| TimedGame.BestNeverDecreases | src/games/EmojiGame/emoji-game.jsx:311-319 | no event lowers any level's best score |
| TimedGame.AchievementsOnlyGrow | src/games/EmojiGame/emoji-game.jsx:270-279 | no event clears an achievement flag |
| App.ShowLobby | src/App.jsx:12-18 | the end of the splash and a return from the game both show the lobby; settings and scores stay |
| App.StartGame | src/App.jsx:20-23 | the settings are stored and the game screen shown |
| App.GameEnd | src/App.jsx:25-43 | the lobby is shown and the list grows by the one entry built from settings and results, is sorted by moves and keeps at most ten |
| App.GameEndPlacesEntry | src/App.jsx:35-39 | the new entry lands after every entry with no more moves and before those with more, and stays when fewer than ten rank before it |
| App.StepInvariant | src/App.jsx:35-39 | the list always holds at most ten entries sorted by moves |
| App.GameScreenHasSettings | src/App.jsx:20-23 | the game screen is only ever shown with settings stored |
| Lobby.ThemeSymbols | src/games/EmojiGame/GameLobby.jsx:50-55 | exactly the four themes have symbol lists, of ten symbols each |
| Lobby.ThemesHoldTenDistinct | src/games/EmojiGame/GameLobby.jsx:50-55 | each theme has ten distinct symbols, enough for hard's ten pairs |
| Lobby.DifficultyPairs | src/games/EmojiGame/GameLobby.jsx:57-61 | `difficultySettings[name].pairs` is a count (at most 10) exactly for the three difficulties, `undefined` exactly for an inherited property name, and throws otherwise |
| Lobby.WriteThrough | src/games/EmojiGame/GameLobby.jsx:27-35 | the save effect writes all three values through when any is non-empty and touches only storage |
| Lobby.Mount | src/games/EmojiGame/GameLobby.jsx:16-35 | after mounting, the lobby shows the stored preferences and scores, leaves the stored scores alone, and storage agrees with the screen |
| Lobby.SetName | src/games/EmojiGame/GameLobby.jsx:211 | typing sets the name only; a changed value is saved so storage then agrees with the screen |
| Lobby.SetDifficulty | src/games/EmojiGame/GameLobby.jsx:227 | picking sets the difficulty only; a change is saved |
| Lobby.SetTheme | src/games/EmojiGame/GameLobby.jsx:250 | picking sets the theme only; a change is saved |
| Lobby.SettersKeepPrefsSynced | src/games/EmojiGame/GameLobby.jsx:27-35 | each picker preserves "stored preferences equal the shown ones" |
| Lobby.StartGame | src/games/EmojiGame/GameLobby.jsx:71-84 | refused exactly when the name trims to empty; otherwise starts exactly when both lookups succeed, with the trimmed name, difficulty, theme and the theme's first `pairs` symbols |
| Lobby.StartedSymbols | src/games/EmojiGame/GameLobby.jsx:82 | a started game gets 6, 8 or 10 distinct symbols |
| Lobby.ResetScores | src/games/EmojiGame/GameLobby.jsx:86-90 | everything stored is cleared, the default table is shown, the confirmation closes and the pickers keep their values |
| Lobby.Escape | src/games/EmojiGame/GameLobby.jsx:38-48 | Escape closes all three dialogs and changes nothing else |
| Lobby.SetNameCapped | src/games/EmojiGame/Achievements.jsx:215 | the capped input keeps the name within 20 characters; the name takes the value, the other pickers stay, and a change is saved |
| Lobby.CappedNameStartsCapped | src/games/EmojiGame/Achievements.jsx:71-84 | a game started from the capped lobby carries a name of at most 20 characters |
| SimpleGame.ShowLobby | src/Game.jsx:15-28 | the end of the splash and a return from play both show the lobby and keep the settings |
| SimpleGame.GameStart | src/Game.jsx:20-23 | the settings are stored and play begins |
| SimpleGame.PlayingHasSettings | src/Game.jsx:31-51 | only starting a game enters the playing screen, and it always has settings |
| SimpleGame.PairsFor | src/Game.jsx:79-80 | 6 pairs for easy, 10 for hard, 8 for anything else |
| SimpleGame.Tag | src/Game.jsx:84 | each symbol is paired with its random key |
| SimpleGame.Untag | src/Game.jsx:86 | the keys are dropped, keeping the order |
| SimpleGame.UntagSort | src/Game.jsx:83-86 | sorting by key keeps the symbols, counted with repetition |
| SimpleGame.Shuffled | src/Game.jsx:82-86 | the shuffle is the doubled selection, each card paired with its own random key, sorted stably by key: twice the length, each symbol twice as often |
| SimpleGame.NewBoard | src/Game.jsx:78-93 | a board of 2 × min(pairs, set size) cards holding the selection twice; picks, matches and moves reset |
| SimpleGame.Click | src/Game.jsx:95-116 | refused with two cards up or a matched or picked index; the second pick counts a move; a match moves both to `matched` at once and ends the game exactly when that covers the board; a mismatch leaves both up |
| SimpleGame.ClearMismatch | src/Game.jsx:113 | the delay turns a mismatched pair back down and leaves `matched` as it is |
| SimpleGame.NewBoardValid | src/Game.jsx:78-93 | a new board satisfies the game invariant |
| SimpleGame.ClickValid | src/Game.jsx:95-116 | a click keeps the invariant: distinct in-range indices, matched indices in equal-symbol pairs, game over exactly when a non-empty board is all matched |
| SimpleGame.ClearMismatchValid | src/Game.jsx:113 | the mismatch timer keeps the invariant |
| SimpleGame.Occupancy | src/Game.jsx:96-97 | matched and face-up cards together never outnumber the board |
| SimpleGame.GameOverIgnoresClicks | src/Game.jsx:109-111 | once the game is over every click is refused, since all cards are matched |
| SimpleGame.MovesCountSecondFlips | src/Game.jsx:99-103 | moves rise by one exactly on an accepted second pick |
| WordGrid.SetCell | src/games/WordConnect/WordPuzzle.jsx:62 | one cell is written and every other cell keeps its content |
| WordGrid.ExtendPath | src/games/WordConnect/WordPuzzle.jsx:174-176 | appending a near cell not yet selected keeps the selection a path of distinct neighbouring cells |
| WordGrid.SpellSnoc | src/games/WordConnect/WordPuzzle.jsx:176-177 | appending a cell appends its letter to the spelled word |
| WordGrid.SumLengthsSnoc | src/games/WordConnect/WordPuzzle.jsx:206-207 | recording a word adds its length to the letter total |
| WordPuzzle.Around | src/games/WordConnect/WordPuzzle.jsx:27-36 | the two loops visit eight distinct cells, each at Chebyshev distance 1 |
| WordPuzzle.AroundComplete | src/games/WordConnect/WordPuzzle.jsx:27-36 | every cell at distance 1 is visited |
| WordPuzzle.KeepInBounds | src/games/WordConnect/WordPuzzle.jsx:32-34 | exactly the in-bounds candidates are kept, as a subsequence of the candidates, so in their order |
| WordPuzzle.Neighbors | src/games/WordConnect/WordPuzzle.jsx:25-38 | at most eight distinct in-bounds cells at distance exactly 1, never the cell itself, and every such cell |
| WordPuzzle.FirstFit | src/games/WordConnect/WordPuzzle.jsx:43 | `find`: the first candidate that fits, or none when none does |
| WordPuzzle.FindEmptyNeighbor | src/games/WordConnect/WordPuzzle.jsx:41-44 | the first empty neighbour in enumeration order, or nothing exactly when every neighbour is filled |
| WordPuzzle.WalkAsWritten | src/games/WordConnect/WordPuzzle.jsx:52-58 | the walk as written: k steps, each to an empty neighbour of the previous cell, with no record of cells already taken |
| WordPuzzle.WriteLetters | src/games/WordConnect/WordPuzzle.jsx:61-63 | only the listed cells are written, and a cell listed twice keeps its last letter |
| WordPuzzle.PlaceWordAsWritten | src/games/WordConnect/WordPuzzle.jsx:47-66 | a failure leaves the grid unchanged; a success returns max(1, length) positions from the start cell, stepping through empty neighbours, writing only there, last write winning |
| WordPuzzle.PlaceWordRevisits | src/games/WordConnect/WordPuzzle.jsx:47-66 | on a blank 4×4 grid a three-letter word from the corner is placed on corner, neighbour, corner, and reads back wrong whenever its first and last letters differ |
| WordPuzzle.WalkFree | src/games/WordConnect/WordPuzzle.jsx:52-58 | the corrected walk also avoids cells it has taken: k distinct empty cells, each next to the one before |
| WordPuzzle.PathKeepsLetters | src/games/WordConnect/WordPuzzle.jsx:61-63 | writing a word along distinct cells leaves each letter in its cell and spells the word |
| WordPuzzle.PlaceWord | src/games/WordConnect/WordPuzzle.jsx:47-66 | the corrected placement: on success the positions form a path from the start through empty cells, only they are written, and they spell the word |
| WordPuzzle.GridSize | src/games/WordConnect/WordPuzzle.jsx:70 | the least size of at least 4 whose square holds the master word's length plus 4 |
| WordPuzzle.CeilSqrtFrom | src/games/WordConnect/WordPuzzle.jsx:70 | `Math.ceil(Math.sqrt(n))` over integers: the least root whose square reaches n |
| WordPuzzle.ShortMasterFourByFour | src/games/WordConnect/WordPuzzle.jsx:70 | master words of up to 12 letters give a 4×4 grid |
| WordPuzzle.EmptyGrid | src/games/WordConnect/WordPuzzle.jsx:71 | the new grid is square and every cell is empty |
| WordPuzzle.EmptyCells | src/games/WordConnect/WordPuzzle.jsx:84-91 | the candidate start cells are exactly the empty ones |
| WordPuzzle.TryPlaceAsWritten | src/games/WordConnect/WordPuzzle.jsx:77-104 | as written: up to 50 attempts from random empty cells; a success writes only into empty cells along the walk, last write winning, and only letters of the word; after 50 failures or with no empty cell the grid is unchanged |
| WordPuzzle.PlaceAllAsWritten | src/games/WordConnect/WordPuzzle.jsx:77-104 | as written: placing the words in turn only fills empty cells, and only with letters of the words |
| WordPuzzle.TryPlace | src/games/WordConnect/WordPuzzle.jsx:77-104 | corrected: up to 50 attempts from random empty cells; a success writes the word along a path of empty cells and nothing else; after 50 failures or with no empty cell the grid is unchanged |
| WordPuzzle.PlaceAll | src/games/WordConnect/WordPuzzle.jsx:77-104 | corrected: placing the words in turn only fills empty cells, only with their letters, and every placed word still reads along its path at the end |
| WordPuzzle.SortedChars | src/games/WordConnect/WordPuzzle.jsx:74 | sorting longest first brings in no new word or letter |
| WordPuzzle.LevelWordsKeepOrder | src/games/WordConnect/WordPuzzle.jsx:74 | both levels' lists are already longest first, so the stable sort keeps them |
| WordPuzzle.Fill | src/games/WordConnect/WordPuzzle.jsx:106-114 | the fill keeps filled cells and leaves none empty, writing single capital letters |
| WordPuzzle.GenerateAsWritten | src/games/WordConnect/WordPuzzle.jsx:68-117 | as written: the generated grid is square of the computed size and every cell holds one letter from the words or the alphabet |
| WordPuzzle.Generate | src/games/WordConnect/WordPuzzle.jsx:68-117 | corrected: the generated grid is square of the computed size, every cell holds one letter from the words or the alphabet, and every placed word reads along its path |
| WordPuzzle.InitializeGrid | src/games/WordConnect/WordPuzzle.jsx:68-117 | as written: a grid exists exactly for the levels with a word list, square of the computed size, one letter from the words or the alphabet in each cell |
| WordPuzzle.LevelGrids | src/games/WordConnect/WordPuzzle.jsx:68-121 | as written, levels 1 and 2 give 4×4 grids of capital letters |
| WordPuzzle.Mount | src/games/WordConnect/WordPuzzle.jsx:119-121 | the first render shows a level-1 4×4 grid with one capital letter in every cell, with nothing selected, found or scored |
| WordPuzzle.TouchStart | src/games/WordConnect/WordPuzzle.jsx:151-161 | ignored while checking; otherwise selects one cell and its letter |
| WordPuzzle.TouchMove | src/games/WordConnect/WordPuzzle.jsx:163-180 | appends a cell and its letter exactly when ready, something is selected, and the cell is near the last and not yet selected; otherwise nothing changes |
| WordPuzzle.BeginValidate | src/games/WordConnect/WordPuzzle.jsx:182-191 | ending a touch freezes input and fixes the verdict: in the level list and not found yet |
| WordPuzzle.FinishValidateAsWritten | src/games/WordConnect/WordPuzzle.jsx:204-233 | as written: a valid word is recorded and scores ten a letter; the level advances exactly when the captured found list already held every word; the selection clears |
| WordPuzzle.FinishValidate | src/games/WordConnect/WordPuzzle.jsx:204-233 | corrected: the level advances exactly when the word completes the list, and a new level brings a new grid |
| WordPuzzle.MountValid | src/games/WordConnect/WordPuzzle.jsx:119-121 | the mounted puzzle satisfies the puzzle invariant |
| WordPuzzle.TouchValid | src/games/WordConnect/WordPuzzle.jsx:151-180 | touches keep the selection a path that spells the current word |
| WordPuzzle.RecordKeeps | src/games/WordConnect/WordPuzzle.jsx:206-207 | recording an unfound word keeps the found words distinct and the score at ten per letter |
| WordPuzzle.StepAsWrittenValid | src/games/WordConnect/WordPuzzle.jsx:151-233 | as written, every event keeps the invariant: a path spelling the word, distinct found words, score ten per letter found, verdict matching the state |
| WordPuzzle.StepValid | src/games/WordConnect/WordPuzzle.jsx:151-233 | with the corrected check, every event keeps the same invariant |
| WordPuzzle.LevelNeverAdvances | src/games/WordConnect/WordPuzzle.jsx:209-211 | as written, the level never advances |
| WordPuzzle.LastWordOfLevelOne | src/games/WordConnect/WordPuzzle.jsx:209-211 | finding "TAR" last on level 1 stays on level 1 as written and reaches level 2 when corrected |
| WordPuzzle.FoundWordScoresOnce | src/games/WordConnect/WordPuzzle.jsx:189 | a word already found is judged invalid |
| WordConnect.LettersSquare | src/games/WordConnect/WordConnectMobile.jsx:24-32 | the fixed grid is 4×4 |
| WordConnect.IsAdjacent | src/games/WordConnect/WordConnectMobile.jsx:62-70 | with no previous cell anything is adjacent; otherwise exactly the cells within one row and one column of it that are not yet selected, so never the previous cell itself |
| WordConnect.TouchStart | src/games/WordConnect/WordConnectMobile.jsx:72-82 | a touch records its start and selects one cell and its letter, keeping found words, score and streak |
| WordConnect.TouchMove | src/games/WordConnect/WordConnectMobile.jsx:84-98 | during a touch, a cell near the last one and not yet selected is appended with its letter; anything else changes nothing |
| WordConnect.ValidIffListed | src/games/WordConnect/WordConnectMobile.jsx:105-108 | a word is valid exactly when it is one of the eight listed and not yet found |
| WordConnect.ValidateWord | src/games/WordConnect/WordConnectMobile.jsx:105-130 | a valid word scores ten a letter, extends the streak and is recorded; word and selection always clear |
| WordConnect.FoundWordScoresOnce | src/games/WordConnect/WordConnectMobile.jsx:105-108 | a found word never scores again |
| WordConnect.FreshValid | src/games/WordConnect/WordConnectMobile.jsx:4-11 | the initial state satisfies the invariant |
| WordConnect.TouchEnd | src/games/WordConnect/WordConnectMobile.jsx:100-103 | ending a touch clears the touch, the word and the selection; a valid word is recorded, scores ten a letter and extends the streak, anything else leaves them |
| WordConnect.StartValid | src/games/WordConnect/WordConnectMobile.jsx:72-82 | starting a touch keeps the invariant |
| WordConnect.MoveValid | src/games/WordConnect/WordConnectMobile.jsx:84-98 | moving keeps the selection a path spelling the word |
| WordConnect.EndValid | src/games/WordConnect/WordConnectMobile.jsx:100-130 | ending a touch keeps found words distinct, score ten per letter found, streak equal to their number |
| WordConnect.StepValid | src/games/WordConnect/WordConnectMobile.jsx:72-130 | every touch event keeps the invariant |
| ContactForm.Set | src/components/ContactForm.jsx:39-44 | the named field takes the value; the other two keep theirs |
| ContactForm.EmailIffPattern | src/components/ContactForm.jsx:26 | the scan accepts exactly what `/^[^\s@]+@[^\s@]+\.[^\s@]+$/` matches |
| ContactForm.AcceptedAddresses | src/components/ContactForm.jsx:26 | `a@b.c` and `a@b.c.d` pass |
| ContactForm.RejectedAddresses | src/components/ContactForm.jsx:26 | `a@b`, `@b.c`, `a@.c` and `a@b.` fail |
| ContactForm.RejectedCharacters | src/components/ContactForm.jsx:26 | a space or a second `@` fails |
| ContactForm.NameError | src/components/ContactForm.jsx:18-22 | an error exactly when the trimmed name is under 2 characters: "required" when empty, "at least 2" otherwise |
| ContactForm.EmailError | src/components/ContactForm.jsx:24-28 | an error exactly when the pattern fails: "required" when empty, "invalid" otherwise |
| ContactForm.MessageError | src/components/ContactForm.jsx:30-34 | an error exactly when the trimmed message is under 10 characters: "required" when empty, "at least 10" otherwise |
| ContactForm.Collect | src/components/ContactForm.jsx:15-37 | one key per failing rule, carrying its message, and empty exactly when none fails |
| ContactForm.Validate | src/components/ContactForm.jsx:15-37 | keys only for failing fields, each with its message; empty exactly when all three rules pass |
| ContactForm.ValidateMessagesShown | src/components/ContactForm.jsx:15-37 | every message `validate` produces is non-empty |
| ContactForm.EmptyFieldsRequired | src/components/ContactForm.jsx:15-37 | blank fields are each reported missing, and nothing else is |
| ContactForm.BlankFormRequiresAll | src/components/ContactForm.jsx:5-9 | submitting the initial blank form reports all three fields missing |
| ContactForm.Change | src/components/ContactForm.jsx:39-52 | the edited field takes the value and its shown error is blanked; other fields and errors are untouched |
| ContactForm.ChangeClearsOnlyThatField | src/components/ContactForm.jsx:39-52 | editing one field changes neither another field nor whether its error shows |
| ContactForm.Submit | src/components/ContactForm.jsx:54-65 | ignored while sending; otherwise the fresh errors replace the old, and sending starts (status cleared) exactly when there are none |
| ContactForm.SendDone | src/components/ContactForm.jsx:67-77 | when the request completes, the fields reset, the status is success and the button returns |
| ContactForm.SubmitOnlyValid | src/components/ContactForm.jsx:57-65 | a request starts only for data passing every rule, with no errors left |
| ContactForm.StepValid | src/components/ContactForm.jsx:54-78 | while a request runs no error is on show |

## Left out

- Wall-clock time: `Date.now()` and `new Date().toISOString()` become a `now` parameter, and game start and end stamps are not kept.
- Rendering: the DOM, CSS animations, Web Audio (`playSound`), `alert`, JSON serialisation and the markup of every screen.
- The pixel-to-cell mapping `getCellFromTouch` of both word games: touches arrive as grid positions, and a touch outside every cell is not an event.
- Touch handling in `src/games/EmojiGame/Game.jsx`: it turns a touch shorter than 500 ms into a click. Only clicks are modelled.
- The button that confirms an exit, in `src/games/EmojiGame/Game.jsx`: it only calls the lobby callback, which `App.ShowLobby` models.
- ScoreStore.GetHighScores: a stored value that parses to something other than a table is not modelled. For example, the stored text `"null"` is non-empty, so `JSON.parse` runs and `getHighScores` returns `null` rather than the default table. A slot is missing, malformed or a table.
- Score-store aliasing. `getHighScores` can return the shared default object, and `saveHighScore` then mutates it. The model uses value semantics.
- Lobby.ResetScores: shows the default table, which has empty lists. With the aliasing above, an earlier save in the same page can have filled that shared object.
- Timer objects. Each `setTimeout`/`setInterval` is an event, and cancelling one on unmount or restart is not modelled: a restart drops a pending resolution.
- TimedGame: the settings dialog, tutorial, hint button, sound toggle, and the `localStorage` copies of best scores and achievements. Best scores and achievements are carried in the game state instead.
- MatchSession.Start: a difficulty that is neither easy, medium, hard nor an inherited name gives an `undefined` pair count, so the whole set is dealt. The first render then throws at `src/games/EmojiGame/Game.jsx:178`, because `layouts[difficulty]` is `undefined`. The model keeps the dealt session and leaves the throw out. The lobby never starts such a game, since `Lobby.DifficultyPairs` throws first.
- Lobby: the dialog openers and closers other than Escape and the reset confirmation only toggle visibility flags.
- Lobby.SetNameCapped: `maxLength` counts UTF-16 code units, but the model counts characters.
- Lobby.StartGame: in `Achievements.jsx` the name input is `required` (line 214), so the browser blocks an empty name before `handleStartGame` and no alert is shown. This browser check is not modelled. The model alerts for an empty name in both lobbies. A name of spaces alone gets past `required` and reaches the alert in both.
- Lobby: the reset sets storage to "missing" while the pickers keep their values, so the stored preferences no longer match the screen until the next change. `Lobby.PrefsSynced` is therefore not claimed across a reset.
- WordPuzzle.CeilSqrtFrom: `Math.ceil(Math.sqrt(n))` is modelled as the exact integer ceiling of the square root. Floating point does not differ from that for these sizes.
- WordPuzzle: `Math.random()` picks become the functions `pickStart` and `pickLetter`, each result reduced modulo the number of choices.
- WordPuzzle: React state. Each handler sees the state after the previous render, so the queued updates inside one handler are applied together.
- WordPuzzle.FinishValidate: past level 2 there is no word list. The code as written never gets there, and the corrected model keeps the old grid instead of throwing.
- ContactForm: the `'error'` status is unreachable, because the simulated request never rejects.
- ContactForm.NameError and ContactForm.MessageError count characters, while `.trim().length` counts UTF-16 code units. A name of one character outside the Basic Multilingual Plane passes the 2-unit minimum in the browser but fails it in the model.
- ContactForm.Submit: the email input has `type="email"` and the form is not `noValidate`, so the browser blocks an empty or malformed address before `handleSubmit` runs. That browser check is not modelled. The model lets such a submission reach `validate`, which reports the address.
- WordPuzzle.TryPlace, WordPuzzle.PlaceAll and WordPuzzle.Generate use the corrected placement, and only they promise that each placed word reads back along its path. `InitializeGrid` and `Mount` use the as-written chain, which promises only the grid's size and letters.
- The source's `src/Game.jsx` does not run as written. `useEffect` is not imported, and `SplashScreen` and `LobbyScreen` are undefined there. Only its logic is modelled.

## Findings

| source | as written | input that shows it | evidently intended | confidence | as-written member | corrected member |
|---|---|---|---|---|---|---|
| src/games/EmojiGame/emoji-game.jsx:356-363 | the last match calls `endGame` through the closure captured at the second click, which still sees the old `matches` | medium, 7 of 8 pairs matched, 12 s left, multiplier 1: the win scores 1230 | the win scores all 8 pairs: 1380 | not executed | TimedGame.WinScoreUndercounts | TimedGame.WinScoreCountsAllPairs |
| src/games/EmojiGame/emoji-game.jsx:396-402 | the timeout calls `endGame` from the tick's updater, and that closure still sees `timeLeft == 1` | easy, 3 matches, 1 s left, multiplier 1: the timeout scores 310 | a game that ran out of time has no time bonus: 300 | not executed | TimedGame.TimeoutScoreOverstated | TimedGame.Tick |
| src/games/WordConnect/WordPuzzle.jsx:47-58 | `findEmptyNeighbor` ignores cells the walk has already taken, because letters are written only after the walk | blank 4×4 grid, "SEA" from the top-left corner: positions corner, right, corner; the grid reads "AEA" along them | the placed word reads back along a path of distinct cells | not executed | WordPuzzle.PlaceWordRevisits | WordPuzzle.PlaceWord |
| src/games/WordConnect/WordPuzzle.jsx:209-211 | the all-found test reads `foundWords` from before the current word is added | level 1 with every word but "TAR" found, then "TAR": stays on level 1 forever | finding the last word moves to level 2 | not executed | WordPuzzle.LastWordOfLevelOne | WordPuzzle.FinishValidate |

=== FILE: app.dfy ===
/**
 * The screen controller of src/App.jsx: splash, lobby and game screens, the
 * settings handed from the lobby to the game, and the in-memory top-ten
 * list the game's end feeds. The entry's date (`new Date().toISOString()`)
 * is an input.
 */
module App {
  import opened Common

  datatype Screen = Splash | Lobby | GameScreen

  datatype AppScore = AppScore(playerName: string, difficulty: string, moves: int, time: int, date: string)

  datatype AppState = AppState(screen: Screen, settings: Option<GameSettings>, highScores: seq<AppScore>)

  const MaxScores: nat := 10

  /** The list is ordered by moves alone (`a.moves - b.moves`); ties keep their order. */
  function MovesRank(e: AppScore): Rank { Rank(e.moves, 0) }

  const Start := AppState(Splash, None, [])

  /** `handleSplashComplete` and `handleReturnToLobby`, which do the same: show the lobby. */
  function ShowLobby(s: AppState): (r: AppState)
    ensures r.screen == Lobby && r.settings == s.settings && r.highScores == s.highScores
  {
    s.(screen := Lobby)
  }

  function StartGame(s: AppState, settings: GameSettings): (r: AppState)
    ensures r.screen == GameScreen && r.settings == Some(settings) && r.highScores == s.highScores
  {
    s.(settings := Some(settings), screen := GameScreen)
  }

  /** The entry `handleGameEnd` builds from the current settings and the results. */
  function EntryFor(settings: GameSettings, results: GameResults, now: string): AppScore {
    AppScore(settings.playerName, settings.difficulty, results.moves, results.time, now)
  }

  /**
   * `handleGameEnd(results)`: one entry built from the settings and the
   * results joins the list, which is stably sorted by moves and cut to ten;
   * the lobby is shown. Only the game screen calls it, and that screen is
   * only reached with settings stored.
   */
  function GameEnd(s: AppState, results: GameResults, now: string): (r: AppState)
    requires s.settings.Some?
    ensures r.screen == Lobby && r.settings == s.settings
    ensures |r.highScores| == Min(MaxScores, |s.highScores| + 1)
    ensures SortedBy(r.highScores, MovesRank)
    ensures multiset(r.highScores) <= multiset(s.highScores) + multiset{EntryFor(s.settings.value, results, now)}
  {
    var entry := EntryFor(s.settings.value, results, now);
    var sorted := SortByRank(s.highScores + [entry], MovesRank);
    TakeSorted(sorted, MaxScores, MovesRank);
    TakeSubMultiset(sorted, MaxScores);
    s.(highScores := Take(sorted, MaxScores), screen := Lobby)
  }

  /**
   * On a list that is already in order the new entry goes behind every
   * entry with no more moves than it, ahead of every entry with more, and is
   * kept exactly when fewer than ten entries precede it.
   */
  lemma GameEndPlacesEntry(s: AppState, results: GameResults, now: string) returns (k: nat)
    requires s.settings.Some? && SortedBy(s.highScores, MovesRank)
    ensures k <= |s.highScores|
    ensures forall i :: 0 <= i < k ==> s.highScores[i].moves <= results.moves
    ensures forall i :: k <= i < |s.highScores| ==> s.highScores[i].moves > results.moves
    ensures GameEnd(s, results, now).highScores
         == Take(s.highScores[..k] + [EntryFor(s.settings.value, results, now)] + s.highScores[k..], MaxScores)
    ensures k < MaxScores ==> GameEnd(s, results, now).highScores[k] == EntryFor(s.settings.value, results, now)
  {
    var entry := EntryFor(s.settings.value, results, now);
    var h := s.highScores;
    assert GameEnd(s, results, now).highScores == Take(SortByRank(h + [entry], MovesRank), MaxScores);
    k := SortedInsert(h, entry, MovesRank);
    MovesSplit(h, entry, k);
    var full := h[..k] + [entry] + h[k..];
    assert full[k] == entry;
  }

  /** Splitting by moves rank is splitting by moves. */
  lemma MovesSplit(h: seq<AppScore>, entry: AppScore, k: nat)
    requires SplitsAt(h, entry, k, MovesRank)
    ensures forall i :: 0 <= i < k ==> h[i].moves <= entry.moves
    ensures forall i :: k <= i < |h| ==> h[i].moves > entry.moves
  {
    forall i | 0 <= i < k ensures h[i].moves <= entry.moves {
      assert RankLe(MovesRank(h[i]), MovesRank(entry));
    }
    forall i | k <= i < |h| ensures h[i].moves > entry.moves {
      assert !RankLe(MovesRank(h[i]), MovesRank(entry));
    }
  }

  /** The list shown in the lobby is always in order and at most ten long. */
  predicate Invariant(s: AppState) {
    |s.highScores| <= MaxScores && SortedBy(s.highScores, MovesRank)
  }

  datatype Event =
    | SplashDone
    | BackToLobby
    | Begin(settings: GameSettings)
    | Finished(results: GameResults, now: string)

  /** The game-end callback exists only while the game screen is shown with settings. */
  predicate Applicable(s: AppState, e: Event) {
    e.Finished? ==> s.screen == GameScreen && s.settings.Some?
  }

  function Step(s: AppState, e: Event): AppState
    requires Applicable(s, e)
  {
    match e
    case SplashDone => ShowLobby(s)
    case BackToLobby => ShowLobby(s)
    case Begin(settings) => StartGame(s, settings)
    case Finished(results, now) => GameEnd(s, results, now)
  }

  lemma StepInvariant(s: AppState, e: Event)
    requires Invariant(s) && Applicable(s, e)
    ensures Invariant(Step(s, e))
  {
  }

  /** A game can only be on screen with settings stored. */
  lemma GameScreenHasSettings(s: AppState, e: Event)
    requires (s.screen == GameScreen ==> s.settings.Some?) && Applicable(s, e)
    ensures Step(s, e).screen == GameScreen ==> Step(s, e).settings.Some?
  {
  }
}

=== FILE: board.dfy ===
/**
 * The card deck shared by the two emoji-matching engines
 * (src/games/EmojiGame/Game.jsx `initializeGame` and
 * src/games/EmojiGame/emoji-game.jsx `createGameBoard`): take the first
 * `pairs` symbols, lay them out twice, shuffle, and number the cards.
 *
 * Both engines shuffle with `sort(() => Math.random() - 0.5)`, whose outcome
 * is some permutation of its input. That permutation is an input here: a
 * sequence of random swaps (each index reduced modulo the deck size), which
 * can express every permutation.
 */
module Board {
  import opened Common

  datatype Card = Card(id: nat, emoji: string, isFlipped: bool, isMatched: bool)

  /** The symbols on the cards, in board order. */
  function Emojis(cards: seq<Card>): (r: seq<string>)
    ensures |r| == |cards|
    ensures forall i :: 0 <= i < |cards| ==> r[i] == cards[i].emoji
  {
    seq(|cards|, i requires 0 <= i < |cards| => cards[i].emoji)
  }

  /** Every card's `id` is its position: the numbering `map((emoji, index) => ({ id: index, ... }))` gives. */
  predicate IdsAreIndices(cards: seq<Card>) {
    forall i :: 0 <= i < |cards| ==> cards[i].id == i
  }

  /** Number of cards flagged as matched. */
  function MatchedCount(cards: seq<Card>): (n: nat)
    ensures n <= |cards|
  {
    if |cards| == 0 then 0
    else MatchedCount(cards[..|cards| - 1]) + (if cards[|cards| - 1].isMatched then 1 else 0)
  }

  /** Replacing one card changes the matched count only by that card's flag. */
  lemma {:induction false} MatchedCountUpdate(cards: seq<Card>, i: nat, c: Card)
    requires i < |cards|
    ensures MatchedCount(cards[i := c]) + (if cards[i].isMatched then 1 else 0)
         == MatchedCount(cards) + (if c.isMatched then 1 else 0)
    decreases |cards|
  {
    var n := |cards|;
    var u := cards[i := c];
    assert u[..n - 1] == if i == n - 1 then cards[..n - 1] else cards[..n - 1][i := c];
    if i < n - 1 {
      MatchedCountUpdate(cards[..n - 1], i, c);
    }
  }

  /** Flagging two unmatched cards as matched adds two to the matched count. */
  lemma MatchTwoCount(cards: seq<Card>, a: nat, b: nat)
    requires a < |cards| && b < |cards| && a != b
    requires !cards[a].isMatched && !cards[b].isMatched
    ensures MatchedCount(cards[a := cards[a].(isMatched := true)][b := cards[b].(isMatched := true)])
         == MatchedCount(cards) + 2
  {
    var c1 := cards[a := cards[a].(isMatched := true)];
    MatchedCountUpdate(cards, a, cards[a].(isMatched := true));
    assert c1[b] == cards[b];
    MatchedCountUpdate(c1, b, cards[b].(isMatched := true));
  }

  /** A deck with no matched card has matched count zero. */
  lemma {:induction false} NoneMatched(cards: seq<Card>)
    requires forall i :: 0 <= i < |cards| ==> !cards[i].isMatched
    ensures MatchedCount(cards) == 0
    decreases |cards|
  {
    if |cards| > 0 {
      NoneMatched(cards[..|cards| - 1]);
    }
  }

  /** A board on which every card is matched has a matched count equal to its size, and conversely. */
  lemma {:induction false} MatchedCountFull(cards: seq<Card>)
    ensures MatchedCount(cards) == |cards| <==> forall i :: 0 <= i < |cards| ==> cards[i].isMatched
    decreases |cards|
  {
    if |cards| > 0 {
      var init := cards[..|cards| - 1];
      MatchedCountFull(init);
      if MatchedCount(cards) == |cards| {
        forall i | 0 <= i < |cards| ensures cards[i].isMatched {
          if i < |cards| - 1 {
            assert cards[i] == init[i];
          }
        }
      }
      if forall i :: 0 <= i < |cards| ==> cards[i].isMatched {
        assert forall i :: 0 <= i < |init| ==> init[i] == cards[i];
      }
    }
  }

  /** The symbols the board is built from: `emojiSet.slice(0, pairs)`, the whole set when `pairs` is undefined. */
  function Selection(emojiSet: seq<string>, pairs: Option<nat>): (r: seq<string>)
    ensures pairs.None? ==> r == emojiSet
    ensures pairs.Some? ==> |r| == Min(pairs.value, |emojiSet|)
    ensures r == emojiSet[..|r|]
  {
    match pairs
    case None => emojiSet
    case Some(n) => Take(emojiSet, n)
  }

  /** Exchanges the elements at two positions (reduced modulo the length). */
  function SwapAt<T>(xs: seq<T>, i: nat, j: nat): (r: seq<T>)
    ensures |r| == |xs|
    ensures multiset(r) == multiset(xs)
  {
    if |xs| == 0 then xs
    else
      var a := i % |xs|;
      var b := j % |xs|;
      xs[a := xs[b]][b := xs[a]]
  }

  /** The shuffle: the random swaps applied from first to last. */
  function Shuffle<T>(xs: seq<T>, swaps: seq<(nat, nat)>): (r: seq<T>)
    ensures |r| == |xs|
    ensures multiset(r) == multiset(xs)
    decreases |swaps|
  {
    if |swaps| == 0 then xs
    else Shuffle(SwapAt(xs, swaps[0].0, swaps[0].1), swaps[1..])
  }

  /** Numbers the symbols 0..n-1 as face-down, unmatched cards. */
  function ToCards(symbols: seq<string>): (r: seq<Card>)
    ensures |r| == |symbols|
    ensures IdsAreIndices(r)
    ensures Emojis(r) == symbols
    ensures forall i :: 0 <= i < |r| ==> !r[i].isFlipped && !r[i].isMatched
  {
    seq(|symbols|, i requires 0 <= i < |symbols| => Card(i, symbols[i], false, false))
  }

  /** A fresh board: the selection laid out twice, shuffled, numbered. */
  function Deal(emojiSet: seq<string>, pairs: Option<nat>, swaps: seq<(nat, nat)>): (r: seq<Card>)
    ensures |r| == 2 * |Selection(emojiSet, pairs)|
    ensures IdsAreIndices(r)
    ensures forall i :: 0 <= i < |r| ==> !r[i].isFlipped && !r[i].isMatched
    ensures multiset(Emojis(r)) == multiset(Selection(emojiSet, pairs)) + multiset(Selection(emojiSet, pairs))
  {
    var selected := Selection(emojiSet, pairs);
    ToCards(Shuffle(selected + selected, swaps))
  }

  /** With distinct symbols, every selected symbol lies on exactly two cards and no other symbol appears. */
  lemma DealPairsTwice(emojiSet: seq<string>, pairs: Option<nat>, swaps: seq<(nat, nat)>, e: string)
    requires Distinct(Selection(emojiSet, pairs))
    ensures e in Selection(emojiSet, pairs) ==> multiset(Emojis(Deal(emojiSet, pairs, swaps)))[e] == 2
    ensures e !in Selection(emojiSet, pairs) ==> multiset(Emojis(Deal(emojiSet, pairs, swaps)))[e] == 0
  {
    var s := Selection(emojiSet, pairs);
    DistinctCountAtMostOne(s, e);
  }

  lemma {:induction false} DistinctCountAtMostOne(s: seq<string>, e: string)
    requires Distinct(s)
    ensures multiset(s)[e] == if e in s then 1 else 0
    decreases |s|
  {
    if |s| > 0 {
      var init := s[..|s| - 1];
      assert s == init + [s[|s| - 1]];
      assert Distinct(init);
      DistinctCountAtMostOne(init, e);
      assert s[|s| - 1] !in init by {
        forall k | 0 <= k < |init| ensures init[k] != s[|s| - 1] {
          assert init[k] == s[k];
        }
      }
      assert e in s <==> e in init || e == s[|s| - 1];
    }
  }
}

=== FILE: common.dfy ===
/**
 * Shared vocabulary for the game models: an optional value, the property
 * names every JavaScript object inherits, the JavaScript
 * notion of whitespace (what `String.prototype.trim` strips and what the
 * regular-expression class `\s` matches), and the stable sort that
 * `Array.prototype.sort` performs when given a comparator over one or two
 * integer keys.
 */
module Common {

  datatype Option<T> = None | Some(value: T)

  /** Settings handed from a lobby screen to a game screen. */
  datatype GameSettings = GameSettings(playerName: string, difficulty: string, theme: string, emojiSet: seq<string>)

  /** What a finished game reports back to the screen controller. */
  datatype GameResults = GameResults(moves: int, time: int)

  /**
   * Property names every JavaScript object inherits from `Object.prototype`.
   * Indexing an object literal with one of them finds a function (or, for
   * `__proto__`, the prototype object) rather than `undefined`.
   */
  const InheritedKeys: set<string> := {
    "constructor", "__proto__", "hasOwnProperty", "isPrototypeOf", "propertyIsEnumerable",
    "toString", "toLocaleString", "valueOf",
    "__defineGetter__", "__defineSetter__", "__lookupGetter__", "__lookupSetter__"}

  function Min(a: int, b: int): int { if a <= b then a else b }

  function Max(a: int, b: int): int { if a <= b then b else a }

  /** The first `n` elements of `xs`, or all of them when there are fewer (`Array.prototype.slice(0, n)`). */
  function Take<T>(xs: seq<T>, n: nat): (r: seq<T>)
    ensures |r| == Min(n, |xs|)
    ensures r == xs[..|r|]
  {
    if n <= |xs| then xs[..n] else xs
  }

  /** A prefix holds no element more often than the whole. */
  lemma TakeSubMultiset<T>(xs: seq<T>, n: nat)
    ensures multiset(Take(xs, n)) <= multiset(xs)
  {
    if n <= |xs| {
      assert xs == xs[..n] + xs[n..];
    }
  }

  predicate Distinct<T(==)>(xs: seq<T>) {
    forall i, j :: 0 <= i < j < |xs| ==> xs[i] != xs[j]
  }

  lemma DistinctPrefix<T>(xs: seq<T>, n: nat)
    requires Distinct(xs) && n <= |xs|
    ensures Distinct(xs[..n])
  {
  }

  /** Distinct naturals all below `n` number at most `n` (the pigeonhole principle). */
  lemma {:induction false} DistinctBelowBound(xs: seq<nat>, n: nat)
    requires Distinct(xs)
    requires forall i :: 0 <= i < |xs| ==> xs[i] < n
    ensures |xs| <= n
    decreases n
  {
    if |xs| == 0 {
    } else if k :| 0 <= k < |xs| && xs[k] == n - 1 {
      var ys := xs[..k] + xs[k + 1..];
      forall i | 0 <= i < |ys| ensures ys[i] < n - 1 {
        var j := if i < k then i else i + 1;
        assert ys[i] == xs[j] && j != k;
      }
      forall i, j | 0 <= i < j < |ys| ensures ys[i] != ys[j] {
        var i' := if i < k then i else i + 1;
        var j' := if j < k then j else j + 1;
        assert ys[i] == xs[i'] && ys[j] == xs[j'] && i' < j';
      }
      DistinctBelowBound(ys, n - 1);
    } else {
      assert 0 <= xs[0] < n;
      forall i | 0 <= i < |xs| ensures xs[i] < n - 1 {
        assert xs[i] != n - 1;
      }
      DistinctBelowBound(xs, n - 1);
    }
  }

  // ---------------------------------------------------------------------------
  // Whitespace and trimming
  // ---------------------------------------------------------------------------

  /** ECMAScript WhiteSpace and LineTerminator code points. */
  predicate IsSpace(c: char) {
    || c == ' ' || c == '\t' || c == '\n' || c == '\r'
    || c == '\U{000B}' || c == '\U{000C}' || c == '\U{00A0}' || c == '\U{1680}'
    || ('\U{2000}' <= c && c <= '\U{200A}')
    || c == '\U{2028}' || c == '\U{2029}' || c == '\U{202F}' || c == '\U{205F}'
    || c == '\U{3000}' || c == '\U{FEFF}'
  }

  predicate AllSpace(s: string) {
    forall i :: 0 <= i < |s| ==> IsSpace(s[i])
  }

  /** `s` with its leading whitespace removed. */
  function TrimStart(s: string): (r: string)
    ensures |r| <= |s| && r == s[|s| - |r|..]
    ensures AllSpace(s[..|s| - |r|])
    ensures r == [] || !IsSpace(r[0])
  {
    if |s| > 0 && IsSpace(s[0]) then
      var r := TrimStart(s[1..]);
      SpaceBefore(s, r);
      r
    else s
  }

  /** A whitespace character in front of a whitespace-only prefix extends it. */
  lemma SpaceBefore(s: string, r: string)
    requires |s| > 0 && IsSpace(s[0]) && |r| < |s|
    requires r == s[1..][|s| - 1 - |r|..] && AllSpace(s[1..][..|s| - 1 - |r|])
    ensures r == s[|s| - |r|..] && AllSpace(s[..|s| - |r|])
  {
    var t := s[1..];
    forall i | 0 < i < |s| - |r| ensures IsSpace(s[i]) {
      assert s[i] == t[..|t| - |r|][i - 1];
    }
  }

  /** `s` with its trailing whitespace removed. */
  function TrimEnd(s: string): (r: string)
    ensures |r| <= |s| && r == s[..|r|]
    ensures AllSpace(s[|r|..])
    ensures r == [] || !IsSpace(r[|r| - 1])
  {
    if |s| > 0 && IsSpace(s[|s| - 1]) then
      var r := TrimEnd(s[..|s| - 1]);
      SpaceAfter(s, r);
      r
    else s
  }

  /** A whitespace character behind a whitespace-only suffix extends it. */
  lemma SpaceAfter(s: string, r: string)
    requires |s| > 0 && IsSpace(s[|s| - 1]) && |r| < |s|
    requires r == s[..|s| - 1][..|r|] && AllSpace(s[..|s| - 1][|r|..])
    ensures r == s[..|r|] && AllSpace(s[|r|..])
  {
    var t := s[..|s| - 1];
    forall i | |r| <= i < |s| - 1 ensures IsSpace(s[i]) {
      assert s[i] == t[|r|..][i - |r|];
    }
  }

  /** `String.prototype.trim`: the longest infix of `s` that neither starts nor ends with whitespace. */
  function Trim(s: string): (r: string)
    ensures |r| <= |s|
    ensures r == [] <==> AllSpace(s)
    ensures r != [] ==> !IsSpace(r[0]) && !IsSpace(r[|r| - 1])
    ensures exists k :: 0 <= k <= |s| - |r| && r == s[k..k + |r|] && AllSpace(s[..k]) && AllSpace(s[k + |r|..])
  {
    var t := TrimStart(s);
    var r := TrimEnd(t);
    TrimInfix(s, |s| - |t|, t, r);
    r
  }

  /** Stripping a whitespace prefix and then a whitespace suffix leaves an infix with whitespace on both sides. */
  lemma TrimInfix(s: string, k: nat, t: string, r: string)
    requires k <= |s| && t == s[k..] && AllSpace(s[..k])
    requires |r| <= |t| && r == t[..|r|] && AllSpace(t[|r|..])
    ensures r == s[k..k + |r|] && AllSpace(s[k + |r|..])
    ensures r == [] ==> AllSpace(s)
  {
    assert s[k + |r|..] == t[|r|..];
    if r == [] {
      forall i | 0 <= i < |s| ensures IsSpace(s[i]) {
        if i >= k { assert s[i] == t[i - k]; } else { assert s[i] == s[..k][i]; }
      }
    }
  }

  // ---------------------------------------------------------------------------
  // Stable sorting by a (primary, secondary) integer rank
  // ---------------------------------------------------------------------------

  /** A sort key compared lexicographically, as the comparators `a.moves - b.moves || a.time - b.time` do. */
  datatype Rank = Rank(primary: int, secondary: int)

  predicate RankLe(a: Rank, b: Rank) {
    a.primary < b.primary || (a.primary == b.primary && a.secondary <= b.secondary)
  }

  predicate SortedBy<T>(xs: seq<T>, key: T -> Rank) {
    forall i, j :: 0 <= i < j < |xs| ==> RankLe(key(xs[i]), key(xs[j]))
  }

  /**
   * Inserts `x` into `xs` behind every trailing element that does not rank
   * after it: the position a stable sort gives an element appended last.
   */
  function InsertByRank<T>(xs: seq<T>, x: T, key: T -> Rank): (r: seq<T>)
    ensures |r| == |xs| + 1
    ensures multiset(r) == multiset(xs) + multiset{x}
    decreases |xs|
  {
    if |xs| == 0 || RankLe(key(xs[|xs| - 1]), key(x)) then
      xs + [x]
    else
      var init := xs[..|xs| - 1];
      assert xs == init + [xs[|xs| - 1]];
      InsertByRank(init, x, key) + [xs[|xs| - 1]]
  }

  /** Every element of `xs` ranks no later than `y`. */
  predicate AllNotAfter<T>(xs: seq<T>, y: T, key: T -> Rank) {
    forall i :: 0 <= i < |xs| ==> RankLe(key(xs[i]), key(y))
  }

  lemma {:induction false} InsertAllNotAfter<T>(xs: seq<T>, x: T, y: T, key: T -> Rank)
    requires AllNotAfter(xs, y, key) && RankLe(key(x), key(y))
    ensures AllNotAfter(InsertByRank(xs, x, key), y, key)
  {
    var r := InsertByRank(xs, x, key);
    forall i | 0 <= i < |r| ensures RankLe(key(r[i]), key(y)) {
      assert r[i] in multiset(r);
      assert r[i] in multiset(xs) || r[i] == x;
      if r[i] != x {
        var k :| 0 <= k < |xs| && xs[k] == r[i];
      }
    }
  }

  /** Inserting into a sorted sequence keeps it sorted. */
  lemma {:induction false} InsertKeepsSorted<T>(xs: seq<T>, x: T, key: T -> Rank)
    requires SortedBy(xs, key)
    ensures SortedBy(InsertByRank(xs, x, key), key)
    decreases |xs|
  {
    if |xs| == 0 || RankLe(key(xs[|xs| - 1]), key(x)) {
    } else {
      var init := xs[..|xs| - 1];
      var last := xs[|xs| - 1];
      InsertKeepsSorted(init, x, key);
      assert AllNotAfter(init, last, key);
      InsertAllNotAfter(init, x, last, key);
      var r' := InsertByRank(init, x, key);
      assert InsertByRank(xs, x, key) == r' + [last];
    }
  }

  /** `k` splits `xs` into the elements ranking no later than `x` and those ranking strictly later. */
  predicate SplitsAt<T>(xs: seq<T>, x: T, k: nat, key: T -> Rank) {
    && k <= |xs|
    && (forall i :: 0 <= i < k ==> RankLe(key(xs[i]), key(x)))
    && (forall i :: k <= i < |xs| ==> !RankLe(key(xs[i]), key(x)))
  }

  /**
   * Where the insertion lands in a sorted sequence: right after the elements
   * that rank no later than `x`, and before those that rank strictly later.
   */
  lemma {:induction false} InsertPosition<T>(xs: seq<T>, x: T, key: T -> Rank) returns (k: nat)
    requires SortedBy(xs, key)
    ensures SplitsAt(xs, x, k, key)
    ensures InsertByRank(xs, x, key) == xs[..k] + [x] + xs[k..]
    decreases |xs|
  {
    if |xs| == 0 || RankLe(key(xs[|xs| - 1]), key(x)) {
      k := |xs|;
      assert xs[..k] == xs;
      assert xs[k..] == [];
      forall i | 0 <= i < k
        ensures RankLe(key(xs[i]), key(x))
      {
        assert RankLe(key(xs[i]), key(xs[|xs| - 1])) || i == |xs| - 1;
      }
    } else {
      var init := xs[..|xs| - 1];
      var last := xs[|xs| - 1];
      assert SortedBy(init, key);
      k := InsertPosition(init, x, key);
      InsertStepSplits(xs, init, last, x, k, key);
      InsertStepShape(xs, init, last, x, k, key);
    }
  }

  lemma InsertStepSplits<T>(xs: seq<T>, init: seq<T>, last: T, x: T, k: nat, key: T -> Rank)
    requires |xs| > 0 && init == xs[..|xs| - 1] && last == xs[|xs| - 1]
    requires !RankLe(key(last), key(x))
    requires SplitsAt(init, x, k, key)
    ensures SplitsAt(xs, x, k, key)
  {
    forall i | 0 <= i < k ensures RankLe(key(xs[i]), key(x)) {
      assert xs[i] == init[i];
    }
    forall i | k <= i < |xs| ensures !RankLe(key(xs[i]), key(x)) {
      if i < |init| {
        assert xs[i] == init[i];
      }
    }
  }

  lemma InsertStepShape<T>(xs: seq<T>, init: seq<T>, last: T, x: T, k: nat, key: T -> Rank)
    requires |xs| > 0 && init == xs[..|xs| - 1] && last == xs[|xs| - 1]
    requires !RankLe(key(last), key(x))
    requires k <= |init|
    requires InsertByRank(init, x, key) == init[..k] + [x] + init[k..]
    ensures InsertByRank(xs, x, key) == xs[..k] + [x] + xs[k..]
  {
    assert InsertByRank(xs, x, key) == InsertByRank(init, x, key) + [last];
    assert xs[..k] == init[..k];
    assert xs[k..] == init[k..] + [last];
  }

  /** A stable sort by rank: insertion sort, which is what `Array.prototype.sort` promises to behave like. */
  function SortByRank<T>(xs: seq<T>, key: T -> Rank): (r: seq<T>)
    ensures |r| == |xs|
    ensures multiset(r) == multiset(xs)
    ensures SortedBy(r, key)
    decreases |xs|
  {
    if |xs| == 0 then []
    else
      var init := xs[..|xs| - 1];
      assert xs == init + [xs[|xs| - 1]];
      var sortedInit := SortByRank(init, key);
      InsertKeepsSorted(sortedInit, xs[|xs| - 1], key);
      InsertByRank(sortedInit, xs[|xs| - 1], key)
  }

  /** Sorting a sequence with one more element appended inserts that element into the sorted rest. */
  lemma SortAppend<T>(xs: seq<T>, x: T, key: T -> Rank)
    ensures SortByRank(xs + [x], key) == InsertByRank(SortByRank(xs, key), x, key)
  {
    assert (xs + [x])[..|xs|] == xs;
  }

  /** Sorting an already sorted sequence leaves it as it is (the sort is stable). */
  lemma {:induction false} SortSortedIsIdentity<T>(xs: seq<T>, key: T -> Rank)
    requires SortedBy(xs, key)
    ensures SortByRank(xs, key) == xs
    decreases |xs|
  {
    if |xs| > 0 {
      var init := xs[..|xs| - 1];
      var last := xs[|xs| - 1];
      assert xs == init + [last];
      assert SortByRank(xs, key) == InsertByRank(SortByRank(init, key), last, key);
      assert SortedBy(init, key);
      SortSortedIsIdentity(init, key);
      if |init| > 0 {
        assert RankLe(key(xs[|init| - 1]), key(xs[|xs| - 1]));
      }
      assert InsertByRank(init, last, key) == init + [last];
    }
  }

  /** Sorting a sorted sequence with one element appended inserts that element where `InsertPosition` says. */
  lemma SortedInsert<T>(xs: seq<T>, x: T, key: T -> Rank) returns (k: nat)
    requires SortedBy(xs, key)
    ensures SplitsAt(xs, x, k, key)
    ensures SortByRank(xs + [x], key) == xs[..k] + [x] + xs[k..]
  {
    SortAppend(xs, x, key);
    SortSortedIsIdentity(xs, key);
    k := InsertPosition(xs, x, key);
  }

  /** Keeping a prefix of a sorted sequence keeps it sorted. */
  lemma TakeSorted<T>(xs: seq<T>, n: nat, key: T -> Rank)
    requires SortedBy(xs, key)
    ensures SortedBy(Take(xs, n), key)
  {
  }

  /** In a sorted sequence, every element of a prefix ranks no later than every element left out of it. */
  lemma PrefixRanksFirst<T>(xs: seq<T>, k: nat, key: T -> Rank)
    requires SortedBy(xs, key) && k <= |xs|
    ensures forall x, y :: x in xs[..k] && y in multiset(xs) - multiset(xs[..k]) ==> RankLe(key(x), key(y))
  {
    assert xs == xs[..k] + xs[k..];
    assert multiset(xs) - multiset(xs[..k]) == multiset(xs[k..]);
    forall x, y | x in xs[..k] && y in multiset(xs) - multiset(xs[..k]) ensures RankLe(key(x), key(y)) {
      var i :| 0 <= i < k && xs[..k][i] == x;
      assert y in xs[k..];
      var j :| 0 <= j < |xs| - k && xs[k..][j] == y;
      assert xs[i] == x && xs[k + j] == y;
    }
  }
}

=== FILE: contact_form.dfy ===
/**
 * The contact form of src/components/ContactForm.jsx: the three-field
 * validator, the per-field error clearing on edit, and the submit guard with
 * its reset once the (simulated) request completes. The 1.5-second wait is
 * the `SendDone` event.
 */
module ContactForm {
  import opened Common

  datatype Field = Name | Email | Message

  datatype FormData = FormData(name: string, email: string, message: string)

  const Blank := FormData("", "", "")

  /** The field `handleChange` reads by the input's `name` attribute. */
  function Get(d: FormData, f: Field): string {
    match f
    case Name => d.name
    case Email => d.email
    case Message => d.message
  }

  function Set(d: FormData, f: Field, v: string): (r: FormData)
    ensures Get(r, f) == v
    ensures forall g :: g != f ==> Get(r, g) == Get(d, g)
  {
    match f
    case Name => d.(name := v)
    case Email => d.(email := v)
    case Message => d.(message := v)
  }

  // ---------------------------------------------------------------------------
  // The email pattern /^[^\s@]+@[^\s@]+\.[^\s@]+$/
  // ---------------------------------------------------------------------------

  /** A character `[^\s@]` matches. */
  predicate Plain(c: char) { !IsSpace(c) && c != '@' }

  predicate AllPlain(s: string) {
    forall i :: 0 <= i < |s| ==> Plain(s[i])
  }

  /**
   * What the regular expression accepts: the whole string splits as a
   * non-empty plain run, `@`, a non-empty plain run, `.`, and a non-empty
   * plain run. The middle run may itself contain dots.
   */
  ghost predicate MatchesPattern(s: string) {
    exists a, b :: 0 < a && a + 1 < b && b + 1 < |s| && s[a] == '@' && s[b] == '.'
      && AllPlain(s[..a]) && AllPlain(s[a + 1..b]) && AllPlain(s[b + 1..])
  }

  predicate NoSpace(s: string) {
    forall i :: 0 <= i < |s| ==> !IsSpace(s[i])
  }

  /** The first index holding `c`. */
  function IndexOf(s: string, c: char): (r: Option<nat>)
    ensures r.Some? ==> r.value < |s| && s[r.value] == c && c !in s[..r.value]
    ensures r.None? ==> c !in s
  {
    if |s| == 0 then None
    else if s[0] == c then Some(0)
    else match IndexOf(s[1..], c)
      case None => None
      case Some(k) =>
        assert s[..k + 1] == [s[0]] + s[1..][..k];
        Some(k + 1)
  }

  /** A dot with at least one character on each side. */
  predicate DotInside(t: string) {
    exists j :: 0 < j < |t| - 1 && t[j] == '.'
  }

  /**
   * The same test as a scan: no whitespace anywhere, a first `@` that is not
   * the first character, no second `@`, and a dot strictly inside the part
   * after the `@`.
   */
  predicate ValidEmail(s: string) {
    && NoSpace(s)
    && match IndexOf(s, '@')
       case None => false
       case Some(a) => a > 0 && '@' !in s[a + 1..] && DotInside(s[a + 1..])
  }

  /** The scan accepts exactly the strings the regular expression matches. */
  lemma EmailIffPattern(s: string)
    ensures ValidEmail(s) <==> MatchesPattern(s)
  {
    if ValidEmail(s) {
      var a := IndexOf(s, '@').value;
      var t := s[a + 1..];
      var j :| 0 < j < |t| - 1 && t[j] == '.';
      var b := a + 1 + j;
      assert s[b] == '.';
      assert AllPlain(s[..a]) by {
        forall i | 0 <= i < a ensures Plain(s[..a][i]) {
          assert s[..a][i] == s[i];
          assert s[i] in s[..a];
        }
      }
      var mid, tail := s[a + 1..b], s[b + 1..];
      assert AllPlain(mid) by {
        forall i | 0 <= i < |mid| ensures Plain(mid[i]) {
          assert mid[i] == t[i];
          assert t[i] in t;
        }
      }
      assert AllPlain(tail) by {
        forall i | 0 <= i < |tail| ensures Plain(tail[i]) {
          assert tail[i] == t[j + 1 + i];
          assert t[j + 1 + i] in t;
        }
      }
    }
    if MatchesPattern(s) {
      var a, b :| 0 < a && a + 1 < b && b + 1 < |s| && s[a] == '@' && s[b] == '.'
        && AllPlain(s[..a]) && AllPlain(s[a + 1..b]) && AllPlain(s[b + 1..]);
      PatternScans(s, a, b);
    }
  }

  /** Given the split the regular expression finds, the scan succeeds. */
  lemma PatternScans(s: string, a: nat, b: nat)
    requires 0 < a && a + 1 < b && b + 1 < |s| && s[a] == '@' && s[b] == '.'
    requires AllPlain(s[..a]) && AllPlain(s[a + 1..b]) && AllPlain(s[b + 1..])
    ensures ValidEmail(s)
  {
    forall i | 0 <= i < |s| ensures !IsSpace(s[i]) && (i != a ==> s[i] != '@') {
      if i < a { assert s[i] == s[..a][i]; }
      else if a < i < b { assert s[i] == s[a + 1..b][i - a - 1]; }
      else if b < i { assert s[i] == s[b + 1..][i - b - 1]; }
    }
    assert '@' !in s[..a];
    FirstIndex(s, '@', a);
    var t := s[a + 1..];
    assert t[b - a - 1] == '.';
    assert '@' !in t;
  }

  /** An index holding `c` with no earlier `c` is the one `IndexOf` finds. */
  lemma {:induction false} FirstIndex(s: string, c: char, a: nat)
    requires a < |s| && s[a] == c && c !in s[..a]
    ensures IndexOf(s, c) == Some(a)
  {
    if a > 0 {
      assert s[0] in s[..a];
      assert s[1..][..a - 1] == s[1..a];
      assert s[1..a] <= s[..a][1..];
      assert c !in s[1..][..a - 1];
      FirstIndex(s[1..], c, a - 1);
    }
  }

  /** Addresses the pattern accepts: one `@`, a dot after it with a character on each side. */
  lemma AcceptedAddresses()
    ensures ValidEmail("a@b.c")
    ensures ValidEmail("a@b.c.d")
  {
    PatternScans("a@b.c", 1, 3);
    PatternScans("a@b.c.d", 1, 3);
  }

  /** Addresses the pattern rejects for want of a dot after the `@`, or of a character around it. */
  lemma RejectedAddresses()
    ensures !ValidEmail("a@b")
    ensures !ValidEmail("@b.c")
    ensures !ValidEmail("a@.c")
    ensures !ValidEmail("a@b.")
  {
    assert IndexOf("a@b", '@') == Some(1);
    assert !DotInside("b");
    assert IndexOf("@b.c", '@') == Some(0);
    assert IndexOf("a@.c", '@') == Some(1);
    assert ".c"[0] == '.' && !DotInside(".c");
    assert IndexOf("a@b.", '@') == Some(1);
    assert !DotInside("b.");
  }

  /** Addresses the pattern rejects for a space or a second `@`. */
  lemma RejectedCharacters()
    ensures !ValidEmail("a b@c.d")
    ensures !ValidEmail("a@b@c.d")
  {
    assert IsSpace("a b@c.d"[1]);
    assert IndexOf("a@b@c.d", '@') == Some(1);
    assert "a@b@c.d"[2..][1] == '@';
  }

  // ---------------------------------------------------------------------------
  // Validation
  // ---------------------------------------------------------------------------

  const NameRequired := "Name is required"
  const NameTooShort := "Name must be at least 2 characters"
  const EmailRequired := "Email is required"
  const EmailInvalid := "Please enter a valid email"
  const MessageRequired := "Message is required"
  const MessageTooShort := "Message must be at least 10 characters"

  /** The error object: a message per failing field; `handleChange` may leave a key with `''`. */
  type Errors = map<Field, string>

  /** The name rule, on the trimmed name. */
  function NameError(name: string): (r: Option<string>)
    ensures r.Some? <==> |Trim(name)| < 2
    ensures r.Some? ==> r.value == (if Trim(name) == "" then NameRequired else NameTooShort)
  {
    if Trim(name) == "" then Some(NameRequired)
    else if |Trim(name)| < 2 then Some(NameTooShort)
    else None
  }

  /** The email rule, on the address as typed: empty, then the pattern. */
  function EmailError(email: string): (r: Option<string>)
    ensures r.Some? <==> !MatchesPattern(email)
    ensures r.Some? ==> r.value == (if email == "" then EmailRequired else EmailInvalid)
  {
    EmailIffPattern(email);
    if email == "" then Some(EmailRequired)
    else if !ValidEmail(email) then Some(EmailInvalid)
    else None
  }

  /** The message rule, on the trimmed message. */
  function MessageError(message: string): (r: Option<string>)
    ensures r.Some? <==> |Trim(message)| < 10
    ensures r.Some? ==> r.value == (if Trim(message) == "" then MessageRequired else MessageTooShort)
  {
    if Trim(message) == "" then Some(MessageRequired)
    else if |Trim(message)| < 10 then Some(MessageTooShort)
    else None
  }

  /** Whether the data passes all three rules. */
  ghost predicate Acceptable(d: FormData) {
    2 <= |Trim(d.name)| && MatchesPattern(d.email) && 10 <= |Trim(d.message)|
  }

  /** The error object built from the three rules' outcomes, keys in the order name, email, message. */
  function Collect(name: Option<string>, email: Option<string>, message: Option<string>): (r: Errors)
    ensures Name in r <==> name.Some?
    ensures Email in r <==> email.Some?
    ensures Message in r <==> message.Some?
    ensures name.Some? ==> r[Name] == name.value
    ensures email.Some? ==> r[Email] == email.value
    ensures message.Some? ==> r[Message] == message.value
    ensures |r| == 0 <==> name.None? && email.None? && message.None?
  {
    var e1: Errors := if name.Some? then map[Name := name.value] else map[];
    var e2 := if email.Some? then e1[Email := email.value] else e1;
    var r := if message.Some? then e2[Message := message.value] else e2;
    assert |r| == 0 <==> name.None? && email.None? && message.None? by {
      if |r| == 0 { assert r.Keys == {}; }
    }
    r
  }

  /** `validate(data)`: one non-empty message for each field that fails its rule, and no other key. */
  function Validate(d: FormData): (r: Errors)
    ensures Name in r <==> |Trim(d.name)| < 2
    ensures Name in r ==> r[Name] == (if Trim(d.name) == "" then NameRequired else NameTooShort)
    ensures Email in r <==> !MatchesPattern(d.email)
    ensures Email in r ==> r[Email] == (if d.email == "" then EmailRequired else EmailInvalid)
    ensures Message in r <==> |Trim(d.message)| < 10
    ensures Message in r ==> r[Message] == (if Trim(d.message) == "" then MessageRequired else MessageTooShort)
    ensures |r| == 0 <==> Acceptable(d)
  {
    Collect(NameError(d.name), EmailError(d.email), MessageError(d.message))
  }

  /** No key of `validate`'s result carries an empty message, so every one is on show. */
  lemma ValidateMessagesShown(d: FormData, f: Field)
    requires f in Validate(d)
    ensures Validate(d)[f] != ""
  {
  }

  /** With all three fields empty, each is reported missing and nothing else is. */
  lemma EmptyFieldsRequired(d: FormData)
    requires Trim(d.name) == "" && d.email == "" && Trim(d.message) == ""
    ensures Validate(d) == map[Name := NameRequired, Email := EmailRequired, Message := MessageRequired]
  {
    var r := Validate(d);
    EmailIffPattern(d.email);
    var want := map[Name := NameRequired, Email := EmailRequired, Message := MessageRequired];
    assert r.Keys == want.Keys;
  }

  /** The blank form is such a form. */
  lemma BlankFormRequiresAll()
    ensures Validate(Blank) == map[Name := NameRequired, Email := EmailRequired, Message := MessageRequired]
  {
    assert Trim("") == "";
    EmptyFieldsRequired(Blank);
  }

  // ---------------------------------------------------------------------------
  // The form
  // ---------------------------------------------------------------------------

  /** `submitStatus`; the `'error'` status needs a rejected request, which the simulated one never is. */
  datatype Status = NoStatus | Success

  datatype Form = Form(data: FormData, errors: Errors, submitting: bool, status: Status)

  const Initial := Form(Blank, map[], false, NoStatus)

  /** A field's error is on show when its message is non-empty (`errors.name && ...`). */
  predicate Shown(e: Errors, f: Field) {
    f in e && e[f] != ""
  }

  /** `handleChange`: the edited field takes the new value, and its error, if shown, is blanked. */
  function Change(form: Form, f: Field, v: string): (r: Form)
    ensures r.data == Set(form.data, f, v)
    ensures !Shown(r.errors, f)
    ensures forall g :: g != f ==> (g in r.errors <==> g in form.errors)
    ensures forall g :: g != f && g in form.errors ==> r.errors[g] == form.errors[g]
    ensures r.submitting == form.submitting && r.status == form.status
  {
    var errors := if Shown(form.errors, f) then form.errors[f := ""] else form.errors;
    form.(data := Set(form.data, f, v), errors := errors)
  }

  /** Editing one field leaves what is shown for the others exactly as it was. */
  lemma ChangeClearsOnlyThatField(form: Form, f: Field, v: string, g: Field)
    requires g != f
    ensures Get(Change(form, f, v).data, g) == Get(form.data, g)
    ensures Shown(Change(form, f, v).errors, g) <==> Shown(form.errors, g)
  {
  }

  /**
   * `handleSubmit` up to the request: the fresh errors replace the old ones;
   * with any error nothing else happens, otherwise the request starts and
   * the status is cleared. While a request runs the button is disabled and
   * no submit occurs.
   */
  function Submit(form: Form): (r: Form)
    ensures form.submitting ==> r == form
    ensures !form.submitting ==> r.errors == Validate(form.data) && r.data == form.data
    ensures !form.submitting && |Validate(form.data)| > 0 ==> !r.submitting && r.status == form.status
    ensures !form.submitting && |Validate(form.data)| == 0 ==> r.submitting && r.status == NoStatus
  {
    if form.submitting then form
    else
      var errors := Validate(form.data);
      if |errors| > 0 then form.(errors := errors)
      else form.(errors := errors, submitting := true, status := NoStatus)
  }

  /** The request resolves: the fields are reset, the status is `success`, and the button comes back. */
  function SendDone(form: Form): (r: Form)
    requires form.submitting
    ensures r.data == Blank && r.status == Success && !r.submitting
    ensures r.errors == form.errors
  {
    form.(data := Blank, status := Success, submitting := false)
  }

  /** A request only starts for data that passes every rule. */
  lemma SubmitOnlyValid(form: Form)
    requires !form.submitting && Submit(form).submitting
    ensures Acceptable(form.data)
    ensures Submit(form).errors == map[]
  {
  }

  /** While a request runs there is no error on show: the errors were emptied when it started, and edits only blank them. */
  predicate Valid(form: Form) {
    form.submitting ==> forall f :: !Shown(form.errors, f)
  }

  datatype Event = Edit(field: Field, value: string) | Send | Done

  predicate Applicable(form: Form, e: Event) {
    e.Done? ==> form.submitting
  }

  function Step(form: Form, e: Event): Form
    requires Applicable(form, e)
  {
    match e
    case Edit(f, v) => Change(form, f, v)
    case Send => Submit(form)
    case Done => SendDone(form)
  }

  lemma StepValid(form: Form, e: Event)
    requires Valid(form) && Applicable(form, e)
    ensures Valid(Step(form, e))
  {
    match e
    case Edit(f, v) =>
      var r := Change(form, f, v);
      if r.submitting {
        forall g ensures !Shown(r.errors, g) {
          if g != f { ChangeClearsOnlyThatField(form, f, v, g); }
        }
      }
    case Send =>
    case Done =>
  }
}

=== FILE: lobby.dfy ===
/**
 * The lobby screen, `LobbyScreen`, as src/games/EmojiGame/GameLobby.jsx and
 * its near-copy src/games/EmojiGame/Achievements.jsx define it: the player
 * name, difficulty and theme pickers, whose values are written through to
 * the score store on every change; the start check; and the score reset.
 * The two files differ in markup and in two attributes of the name input
 * in Achievements.jsx: it is capped at 20 characters (`NameCapped`), and it
 * is `required`, so the browser itself refuses an empty name; that browser
 * check is not modelled.
 *
 * The effects run in React's order: on mount the preference and score
 * reads come first, then the preference-save effect runs once with the
 * initial values and again if the loaded values differ from them.
 */
module Lobby {
  import opened Common
  import opened ScoreStore
  import Board

  // ---------------------------------------------------------------------------
  // The theme and difficulty tables
  // ---------------------------------------------------------------------------

  const Animals: seq<string> := ["🐶", "🐱", "🐼", "🐨", "🦊", "🦁", "🐯", "🦒", "🦝", "🦘"]
  const Food: seq<string> := ["🍕", "🍔", "🌮", "🍣", "🍜", "🍎", "🍇", "🥑", "🍦", "🥐"]
  const Sports: seq<string> := ["⚽", "🏀", "🎾", "🏈", "⚾", "🏸", "🎱", "🏓", "🏹", "🎯"]
  const Nature: seq<string> := ["🌸", "🌺", "🌻", "🌹", "🌴", "🌈", "⭐", "🌙", "🌞", "🍀"]

  /** `themes[name]`, when it is one of the four themes. */
  function ThemeSymbols(name: string): (r: Option<seq<string>>)
    ensures r.Some? <==> name in {"animals", "food", "sports", "nature"}
    ensures r.Some? ==> |r.value| == 10
  {
    if name == "animals" then Some(Animals)
    else if name == "food" then Some(Food)
    else if name == "sports" then Some(Sports)
    else if name == "nature" then Some(Nature)
    else None
  }


  /** What `difficultySettings[name].pairs` evaluates to. */
  datatype PairsLookup =
    | Pairs(n: nat)    // one of the three difficulties
    | NoPairs          // an inherited property: `.pairs` is `undefined`
    | Throws           // `difficultySettings[name]` is `undefined`: reading `.pairs` throws

  function DifficultyPairs(name: string): (r: PairsLookup)
    ensures r.Pairs? <==> name in {"easy", "medium", "hard"}
    ensures r.NoPairs? <==> name in InheritedKeys
    ensures r.Pairs? ==> r.n <= 10
  {
    if name == "easy" then Pairs(6)
    else if name == "medium" then Pairs(8)
    else if name == "hard" then Pairs(10)
    else if name in InheritedKeys then NoPairs
    else Throws
  }

  /** Every theme has ten distinct symbols, enough for the hardest difficulty's ten pairs. */
  lemma ThemesHoldTenDistinct(name: string)
    requires ThemeSymbols(name).Some?
    ensures |ThemeSymbols(name).value| == 10
    ensures Distinct(ThemeSymbols(name).value)
  {
  }

  // ---------------------------------------------------------------------------
  // Lobby state
  // ---------------------------------------------------------------------------

  datatype Lobby = Lobby(
    playerName: string,
    difficulty: string,
    theme: string,
    highScores: ScoreTable,
    howToPlay: bool,        // showHowToPlay
    scoresShown: bool,      // showHighScores
    resetting: bool,        // isResettingScores
    store: Storage)

  /** The state on first render, before any effect has run. */
  function Initial(store: Storage): Lobby {
    Lobby("", "medium", "animals", map[], false, false, false, store)
  }

  /** The guard of the preference-save effect: `playerName || theme || difficulty`. */
  predicate AnyPref(l: Lobby) {
    l.playerName != "" || l.theme != "" || l.difficulty != ""
  }

  function Current(l: Lobby): Prefs {
    Prefs(l.playerName, l.theme, l.difficulty)
  }

  /** One run of the preference-save effect. */
  function WriteThrough(l: Lobby): (r: Lobby)
    ensures AnyPref(l) ==> r.store == SavePlayerPreferences(l.store, PartialPrefs(Some(l.playerName), Some(l.theme), Some(l.difficulty))).storage
    ensures !AnyPref(l) ==> r.store == l.store
    ensures r.(store := l.store) == l
  {
    if AnyPref(l) then
      l.(store := SavePlayerPreferences(l.store, PartialPrefs(Some(l.playerName), Some(l.theme), Some(l.difficulty))).storage)
    else l
  }

  /** The stored preferences agree with what the lobby shows, whenever storage accepts writes and the save effect would write. */
  predicate PrefsSynced(l: Lobby) {
    Writable(l.store) && AnyPref(l) ==> GetPlayerPreferences(l.store) == Current(l)
  }

  /**
   * Mounting: the stored preferences and scores are shown; the preference
   * effect first saves the initial values, then, if the loaded ones differ,
   * saves those.
   */
  function Mount(store: Storage): (r: Lobby)
    ensures Current(r) == GetPlayerPreferences(store)
    ensures r.highScores == GetHighScores(store)
    ensures r.store.highScores == store.highScores
    ensures !r.resetting && !r.howToPlay && !r.scoresShown
    ensures PrefsSynced(r)
  {
    var l1 := WriteThrough(Initial(store));
    var p := GetPlayerPreferences(store);
    var l2 := l1.(playerName := p.playerName, theme := p.lastTheme, difficulty := p.lastDifficulty, highScores := GetHighScores(store));
    if Current(l2) == Current(Initial(store)) then l2 else WriteThrough(l2)
  }

  /** Typing a name: the effect saves only if the value changed. */
  function SetName(l: Lobby, v: string): (r: Lobby)
    ensures r.playerName == v && r.theme == l.theme && r.difficulty == l.difficulty && r.highScores == l.highScores
    ensures v == l.playerName ==> r == l
    ensures v != l.playerName && Writable(l.store) && AnyPref(r) ==> GetPlayerPreferences(r.store) == Current(r)
    ensures r.store.highScores == l.store.highScores
  {
    if v == l.playerName then l else WriteThrough(l.(playerName := v))
  }

  /** Picking a difficulty. */
  function SetDifficulty(l: Lobby, v: string): (r: Lobby)
    ensures r.difficulty == v && r.playerName == l.playerName && r.theme == l.theme && r.highScores == l.highScores
    ensures v == l.difficulty ==> r == l
    ensures v != l.difficulty && Writable(l.store) && AnyPref(r) ==> GetPlayerPreferences(r.store) == Current(r)
    ensures r.store.highScores == l.store.highScores
  {
    if v == l.difficulty then l else WriteThrough(l.(difficulty := v))
  }

  /** Picking a theme. */
  function SetTheme(l: Lobby, v: string): (r: Lobby)
    ensures r.theme == v && r.playerName == l.playerName && r.difficulty == l.difficulty && r.highScores == l.highScores
    ensures v == l.theme ==> r == l
    ensures v != l.theme && Writable(l.store) && AnyPref(r) ==> GetPlayerPreferences(r.store) == Current(r)
    ensures r.store.highScores == l.store.highScores
  {
    if v == l.theme then l else WriteThrough(l.(theme := v))
  }

  /** Every picker keeps the stored preferences in step with the screen. */
  lemma SettersKeepPrefsSynced(l: Lobby, v: string)
    requires PrefsSynced(l)
    ensures PrefsSynced(SetName(l, v))
    ensures PrefsSynced(SetDifficulty(l, v))
    ensures PrefsSynced(SetTheme(l, v))
  {
  }

  datatype StartOutcome =
    | NameRequired                  // the alert; `onStartGame` is not called
    | Fault                         // a lookup throws a TypeError
    | Started(settings: GameSettings)

  /**
   * `handleStartGame`: refused when the name trims to empty; otherwise the
   * settings carry the trimmed name, the difficulty, the theme and the
   * theme's first `pairs` symbols (all ten when the difficulty names an
   * inherited property, whose `pairs` is `undefined`).
   */
  function StartGame(l: Lobby): (r: StartOutcome)
    ensures r == NameRequired <==> Trim(l.playerName) == ""
    ensures r.Started? <==>
      Trim(l.playerName) != "" && ThemeSymbols(l.theme).Some? && !DifficultyPairs(l.difficulty).Throws?
    ensures r.Started? ==>
      && r.settings.playerName == Trim(l.playerName)
      && r.settings.difficulty == l.difficulty
      && r.settings.theme == l.theme
      && |r.settings.emojiSet| <= |ThemeSymbols(l.theme).value|
      && r.settings.emojiSet == ThemeSymbols(l.theme).value[..|r.settings.emojiSet|]
      && (DifficultyPairs(l.difficulty).Pairs? ==> |r.settings.emojiSet| == DifficultyPairs(l.difficulty).n)
      && (DifficultyPairs(l.difficulty).NoPairs? ==> r.settings.emojiSet == ThemeSymbols(l.theme).value)
  {
    var name := Trim(l.playerName);
    var symbols := ThemeSymbols(l.theme);
    var pairs := DifficultyPairs(l.difficulty);
    if name == "" then NameRequired
    else if symbols.None? || pairs.Throws? then Fault
    else
      var count := if pairs.Pairs? then Some(pairs.n) else None;
      Started(GameSettings(name, l.difficulty, l.theme, Board.Selection(symbols.value, count)))
  }

  /** A started game always gets 6, 8 or 10 distinct symbols, so every card has exactly one partner. */
  lemma StartedSymbols(l: Lobby)
    requires StartGame(l).Started?
    ensures |StartGame(l).settings.emojiSet| in {6, 8, 10}
    ensures Distinct(StartGame(l).settings.emojiSet)
  {
    ThemesHoldTenDistinct(l.theme);
    var all := ThemeSymbols(l.theme).value;
    var e := StartGame(l).settings.emojiSet;
    assert e == all[..|e|];
    DistinctPrefix(all, |e|);
  }

  /**
   * `handleResetScores`: everything stored is cleared, the scores are read
   * back (so the default table is shown) and the confirmation closes.
   */
  function ResetScores(l: Lobby): (r: Lobby)
    ensures r.highScores == DefaultHighScores
    ensures !r.resetting
    ensures r.store == ClearAllData(l.store).storage
    ensures l.store.available ==> r.store.highScores == Missing && r.store.preferences == Missing
    ensures Current(r) == Current(l)
  {
    var cleared := ClearAllData(l.store).storage;
    l.(store := cleared, highScores := GetHighScores(cleared), resetting := false)
  }

  /** Escape closes every dialog, including the reset confirmation. */
  function Escape(l: Lobby): (r: Lobby)
    ensures !r.howToPlay && !r.scoresShown && !r.resetting
    ensures r.(howToPlay := l.howToPlay, scoresShown := l.scoresShown, resetting := l.resetting) == l
  {
    l.(howToPlay := false, scoresShown := false, resetting := false)
  }

  // ---------------------------------------------------------------------------
  // The 20-character cap of Achievements.jsx
  // ---------------------------------------------------------------------------

  const NameCap: nat := 20

  predicate NameCapped(l: Lobby) { |l.playerName| <= NameCap }

  /** Typing into the capped input, which never yields more than 20 characters. */
  function SetNameCapped(l: Lobby, v: string): (r: Lobby)
    requires |v| <= NameCap
    ensures NameCapped(r)
    ensures r.playerName == v && r.theme == l.theme && r.difficulty == l.difficulty && r.highScores == l.highScores
    ensures v != l.playerName && Writable(l.store) && AnyPref(r) ==> GetPlayerPreferences(r.store) == Current(r)
    ensures r.store.highScores == l.store.highScores
  {
    SetName(l, v)
  }

  /** A capped name stays within the cap once trimmed, so the game receives at most 20 characters. */
  lemma CappedNameStartsCapped(l: Lobby)
    requires NameCapped(l) && StartGame(l).Started?
    ensures |StartGame(l).settings.playerName| <= NameCap
  {
  }
}

=== FILE: match_session.dfy ===
/**
 * The Emoji Match session engine of src/games/EmojiGame/Game.jsx (`GameScreen`).
 *
 * React state becomes one immutable `Session` record and every handler or
 * timer callback becomes a pure step function:
 *   - `Start`          mount effect and `handleRestart` (`initializeGame` + `startCountdown`)
 *   - `CountdownTick`  the one-second countdown timeout and its effect
 *   - `ClockTick`      the one-second elapsed-time interval
 *   - `Click`          `handleCardClick`
 *   - `Resolve`        the one-second timeout scheduled by the second flip
 *   - `PauseResume`, `Exit`, `CancelExit`, `Finish`
 */
module MatchSession {
  import opened Common
  import opened Board

  datatype Phase = Initial | Countdown | Playing | Paused | Completed

  datatype Session = Session(
    phase: Phase,
    countdown: nat,
    cards: seq<Card>,
    flipped: seq<nat>,          // flippedIndices
    matchedPairs: seq<string>,  // one emoji per matched pair
    moves: nat,
    elapsed: nat,
    processing: bool,           // isProcessingMove
    confirmingExit: bool)       // showExitConfirmation

  const CountdownStart: nat := 3

  /**
   * `numPairs` of `initializeGame`: the `{easy: 6, medium: 8, hard: 10}`
   * lookup as `slice(0, numPairs)` reads it. A name every object inherits
   * finds a function (or the prototype), which `slice` converts to `NaN` and
   * then to 0, so no symbol is selected: `Some(0)`. Any other name finds
   * `undefined`, and `slice(0, undefined)` selects the whole set: `None`.
   */
  function PairsFor(difficulty: string): (r: Option<nat>)
    ensures r.Some? && r.value > 0 <==> difficulty in {"easy", "medium", "hard"}
    ensures r.Some? && r.value > 0 ==> r.value in {6, 8, 10}
    ensures r == Some(0) <==> difficulty in InheritedKeys
    ensures r.None? <==> difficulty !in {"easy", "medium", "hard"} && difficulty !in InheritedKeys
  {
    if difficulty == "easy" then Some(6)
    else if difficulty == "medium" then Some(8)
    else if difficulty == "hard" then Some(10)
    else if difficulty in InheritedKeys then Some(0)
    else None
  }

  /** The component's state before its mount effect has run. */
  function Fresh(): Session {
    Session(Initial, CountdownStart, [], [], [], 0, 0, false, false)
  }

  /**
   * `initializeGame` followed by `startCountdown`: a new board from the
   * settings, every counter reset, and a three-second countdown.
   */
  function Start(s: Session, settings: GameSettings, swaps: seq<(nat, nat)>): (r: Session)
    ensures r.phase == Countdown && r.countdown == 3
    ensures r.cards == Deal(settings.emojiSet, PairsFor(settings.difficulty), swaps)
    ensures settings.difficulty in InheritedKeys ==> r.cards == []
    ensures r.flipped == [] && r.matchedPairs == [] && r.moves == 0 && r.elapsed == 0 && !r.processing
    ensures r.confirmingExit == s.confirmingExit
  {
    Session(Countdown, CountdownStart, Deal(settings.emojiSet, PairsFor(settings.difficulty), swaps),
            [], [], 0, 0, false, s.confirmingExit)
  }

  /**
   * One second of countdown. Only the COUNTDOWN phase reacts; the counter
   * drops by one and the phase turns to PLAYING as the counter reaches 0.
   */
  function CountdownTick(s: Session): (r: Session)
    ensures s.phase != Countdown ==> r == s
    ensures s.phase == Countdown && s.countdown > 0 ==> r.countdown == s.countdown - 1
    ensures s.phase == Countdown ==> (r.phase == Playing <==> r.countdown == 0)
    ensures s.phase == Countdown ==> r.phase in {Countdown, Playing}
    ensures r.cards == s.cards && r.flipped == s.flipped && r.moves == s.moves && r.elapsed == s.elapsed
  {
    if s.phase != Countdown then s
    else if s.countdown > 0 then
      var c := s.countdown - 1;
      if c == 0 then s.(countdown := 0, phase := Playing) else s.(countdown := c)
    else s.(phase := Playing)
  }

  /** One second of play time: counted only while PLAYING. */
  function ClockTick(s: Session): (r: Session)
    ensures r.elapsed == if s.phase == Playing then s.elapsed + 1 else s.elapsed
    ensures r.(elapsed := s.elapsed) == s
  {
    if s.phase == Playing then s.(elapsed := s.elapsed + 1) else s
  }

  /** The guard of `handleCardClick`: a click is taken only when every one of these holds. */
  predicate Accepts(s: Session, index: nat)
    requires index < |s.cards|
  {
    && s.phase == Playing
    && !s.processing
    && |s.flipped| != 2
    && !s.cards[index].isMatched
    && index !in s.flipped
  }

  /** The board with the cards at `a` and `b` flagged as matched and every other card untouched. */
  function MarkMatched(cards: seq<Card>, a: nat, b: nat): (r: seq<Card>)
    ensures |r| == |cards|
    ensures forall k :: 0 <= k < |cards| ==>
      r[k] == if k == a || k == b then cards[k].(isMatched := true) else cards[k]
  {
    seq(|cards|, k requires 0 <= k < |cards| =>
      if k == a || k == b then cards[k].(isMatched := true) else cards[k])
  }

  /**
   * `handleCardClick(index)`. A refused click changes nothing. An accepted
   * click flips the card; the second flip of a pair costs one move, starts
   * the resolution delay and, on equal symbols, matches exactly those two
   * cards and records the symbol, completing the game when every pair is
   * matched.
   */
  function Click(s: Session, index: nat): (r: Session)
    requires index < |s.cards|
    requires forall k :: 0 <= k < |s.flipped| ==> s.flipped[k] < |s.cards|
    ensures !Accepts(s, index) ==> r == s
    ensures Accepts(s, index) ==> r.flipped == s.flipped + [index]
    ensures r.moves == if Accepts(s, index) && |s.flipped| == 1 then s.moves + 1 else s.moves
    ensures r.processing == (s.processing || (Accepts(s, index) && |s.flipped| == 1))
    ensures r.elapsed == s.elapsed && r.countdown == s.countdown
    ensures Accepts(s, index) && |s.flipped| == 1 && s.cards[s.flipped[0]].emoji == s.cards[index].emoji ==>
      && r.cards == MarkMatched(s.cards, s.flipped[0], index)
      && r.matchedPairs == s.matchedPairs + [s.cards[index].emoji]
      && r.phase == (if 2 * |r.matchedPairs| == |s.cards| then Completed else Playing)
    ensures !(Accepts(s, index) && |s.flipped| == 1 && s.cards[s.flipped[0]].emoji == s.cards[index].emoji) ==>
      r.cards == s.cards && r.matchedPairs == s.matchedPairs && r.phase == s.phase
  {
    if !Accepts(s, index) then s
    else
      var flipped := s.flipped + [index];
      if |flipped| != 2 then s.(flipped := flipped)
      else
        var first := flipped[0];
        var second := flipped[1];
        var s1 := s.(flipped := flipped, processing := true, moves := s.moves + 1);
        if s.cards[first].emoji == s.cards[second].emoji then
          var pairs := s.matchedPairs + [s.cards[first].emoji];
          s1.(matchedPairs := pairs,
              phase := if 2 * |pairs| == |s.cards| then Completed else s.phase,
              cards := MarkMatched(s.cards, first, second))
        else s1
  }

  /** The delayed callback of the second flip: turns the pair back over, whether or not it matched. */
  function Resolve(s: Session): (r: Session)
    ensures s.processing ==> r.flipped == [] && !r.processing
    ensures s.processing ==> r.(flipped := s.flipped, processing := s.processing) == s
    ensures !s.processing ==> r == s
  {
    if s.processing then s.(flipped := [], processing := false) else s
  }

  /** `handlePauseResume`: swaps PLAYING and PAUSED; any other phase is left alone. */
  function PauseResume(s: Session): (r: Session)
    ensures s.phase == Playing ==> r.phase == Paused
    ensures s.phase == Paused ==> r.phase == Playing
    ensures s.phase !in {Playing, Paused} ==> r == s
    ensures r.(phase := s.phase) == s
  {
    if s.phase == Playing then s.(phase := Paused)
    else if s.phase == Paused then s.(phase := Playing)
    else s
  }

  datatype ExitOutcome = StayWith(session: Session) | LeaveToLobby

  /** `handleExit`: asks for confirmation during play, otherwise leaves for the lobby at once. */
  function Exit(s: Session): (r: ExitOutcome)
    ensures s.phase == Playing <==> r.StayWith?
    ensures r.StayWith? ==> r.session == s.(confirmingExit := true)
  {
    if s.phase == Playing then StayWith(s.(confirmingExit := true)) else LeaveToLobby
  }

  /** "Cancel" in the exit confirmation: the dialog closes and nothing else changes. */
  function CancelExit(s: Session): (r: Session)
    ensures !r.confirmingExit && r.(confirmingExit := s.confirmingExit) == s
  {
    s.(confirmingExit := false)
  }

  /** The "Back to Lobby" button of the completion dialog: hands the final moves and seconds to `onGameEnd`. */
  function Finish(s: Session): (r: GameResults)
    requires s.phase == Completed
    ensures r.moves == s.moves && r.time == s.elapsed
  {
    GameResults(s.moves, s.elapsed)
  }

  // ---------------------------------------------------------------------------
  // The session invariant
  // ---------------------------------------------------------------------------

  /**
   * What holds of every session once it has started: cards are numbered by
   * position, at most two indices are flipped and they are distinct valid
   * indices, a move is being processed exactly when two are flipped, matched
   * cards are exactly two per recorded pair, each recorded pair cost at least
   * one move, and the phase is COMPLETED exactly when a non-empty deck has
   * every pair recorded. An empty deck (dealt for an inherited difficulty
   * name) offers nothing to click and never completes.
   */
  predicate Valid(s: Session) {
    && s.phase != Initial
    && IdsAreIndices(s.cards)
    && |s.flipped| <= 2
    && (forall k :: 0 <= k < |s.flipped| ==> s.flipped[k] < |s.cards|)
    && Distinct(s.flipped)
    && (s.processing <==> |s.flipped| == 2)
    && (!s.processing ==> forall k :: 0 <= k < |s.flipped| ==> !s.cards[s.flipped[k]].isMatched)
    && MatchedCount(s.cards) == 2 * |s.matchedPairs|
    && s.moves >= |s.matchedPairs|
    && (s.phase == Completed <==> |s.cards| > 0 && 2 * |s.matchedPairs| == |s.cards|)
    && (s.phase == Countdown ==> 0 < s.countdown <= CountdownStart)
  }

  datatype Event =
    | Begin(settings: GameSettings, swaps: seq<(nat, nat)>)
    | CountdownSecond
    | ClockSecond
    | Select(index: nat)
    | ResolveDelay
    | PauseToggle

  predicate Applicable(s: Session, e: Event) {
    e.Select? ==> e.index < |s.cards|
  }

  function Step(s: Session, e: Event): (r: Session)
    requires Applicable(s, e)
    requires forall k :: 0 <= k < |s.flipped| ==> s.flipped[k] < |s.cards|
  {
    match e
    case Begin(settings, swaps) => Start(s, settings, swaps)
    case CountdownSecond => CountdownTick(s)
    case ClockSecond => ClockTick(s)
    case Select(i) => Click(s, i)
    case ResolveDelay => Resolve(s)
    case PauseToggle => PauseResume(s)
  }

  /** Starting establishes the invariant, whatever the settings. */
  lemma StartValid(s: Session, settings: GameSettings, swaps: seq<(nat, nat)>)
    ensures Valid(Start(s, settings, swaps))
  {
    var r := Start(s, settings, swaps);
    NoneMatched(r.cards);
  }

  /** Matching two distinct unmatched cards adds exactly two to the matched count. */
  lemma MarkMatchedCount(cards: seq<Card>, a: nat, b: nat)
    requires a < |cards| && b < |cards| && a != b
    requires !cards[a].isMatched && !cards[b].isMatched
    ensures MatchedCount(MarkMatched(cards, a, b)) == MatchedCount(cards) + 2
    ensures IdsAreIndices(cards) ==> IdsAreIndices(MarkMatched(cards, a, b))
  {
    MatchTwoCount(cards, a, b);
    var m := MarkMatched(cards, a, b);
    assert m == cards[a := cards[a].(isMatched := true)][b := cards[b].(isMatched := true)];
  }

  /** Every event keeps the invariant. */
  lemma StepValid(s: Session, e: Event)
    requires Valid(s) && Applicable(s, e)
    ensures Valid(Step(s, e))
  {
    match e
    case Begin(settings, swaps) => StartValid(s, settings, swaps);
    case CountdownSecond =>
    case ClockSecond =>
    case Select(i) => ClickValid(s, i);
    case ResolveDelay =>
    case PauseToggle =>
  }

  lemma ClickValid(s: Session, index: nat)
    requires Valid(s) && index < |s.cards|
    ensures Valid(Click(s, index))
  {
    if Accepts(s, index) {
      if |s.flipped| == 0 {
        FirstFlipValid(s, index);
      } else {
        SecondFlipValid(s, index);
      }
    }
  }

  /** The first card of a pair only joins the flipped list. */
  lemma FirstFlipValid(s: Session, index: nat)
    requires Valid(s) && index < |s.cards| && Accepts(s, index) && |s.flipped| == 0
    ensures Valid(Click(s, index))
  {
    assert Click(s, index) == s.(flipped := [index]);
  }

  /** The second card of a pair costs a move and, on equal symbols, matches both cards. */
  lemma SecondFlipValid(s: Session, index: nat)
    requires Valid(s) && index < |s.cards| && Accepts(s, index) && |s.flipped| == 1
    ensures Valid(Click(s, index))
  {
    var first := s.flipped[0];
    var r := Click(s, index);
    assert r.flipped == [first, index];
    if s.cards[first].emoji == s.cards[index].emoji {
      MarkMatchedCount(s.cards, first, index);
    }
  }

  /**
   * A click on an already matched or already flipped card never changes the
   * session, so a double click cannot count a move twice.
   */
  lemma RepeatedClickIsNoOp(s: Session, index: nat)
    requires Valid(s) && index < |s.cards|
    requires s.cards[index].isMatched || index in s.flipped
    ensures Click(s, index) == s
  {
  }

  /** Two clicks on the same card in a row flip it once and never count a move. */
  lemma DoubleClickCountsNoMove(s: Session, index: nat)
    requires Valid(s) && index < |s.cards| && s.flipped == []
    ensures Click(Click(s, index), index) == Click(s, index)
    ensures Click(Click(s, index), index).moves == s.moves
  {
  }

  /**
   * In a valid session the game is over exactly when the deck is non-empty
   * and every card is matched; an empty deck is never completed.
   */
  lemma CompletedIffAllMatched(s: Session)
    requires Valid(s)
    ensures s.phase == Completed <==> |s.cards| > 0 && forall i :: 0 <= i < |s.cards| ==> s.cards[i].isMatched
  {
    MatchedCountFull(s.cards);
  }

  lemma {:induction false} StepKeepsPairs(s: Session, e: Event)
    requires Valid(s) && Applicable(s, e) && !e.Begin?
    ensures s.matchedPairs <= Step(s, e).matchedPairs
    ensures s.moves <= Step(s, e).moves
  {
    match e
    case Begin(_, _) =>
    case CountdownSecond =>
    case ClockSecond =>
    case Select(i) =>
    case ResolveDelay =>
    case PauseToggle =>
  }
}

=== FILE: score_store.dfy ===
/**
 * The score store of src/games/EmojiGame/GameStorageService.jsx.
 *
 * `localStorage` is an in-memory value: one slot per storage key
 * (`emojiMatch_highScores`, `emojiMatch_preferences`), each holding nothing,
 * a parsed record, or text that `JSON.parse` rejects. Two flags stand for
 * the browser's failure modes: `available == false` makes every access throw
 * (storage disabled), `full == true` makes every write throw (quota
 * exceeded). Every operation returns the new storage alongside its result;
 * none of them can fail, which is the model of "never throws".
 */
module ScoreStore {
  import opened Common

  datatype ScoreEntry = ScoreEntry(playerName: string, moves: int, time: int, date: string)

  /** The score object a caller passes in; the store adds the date. */
  datatype NewScore = NewScore(playerName: string, moves: int, time: int)

  /** Difficulty name to leaderboard, as the JSON object stores it. */
  type ScoreTable = map<string, seq<ScoreEntry>>

  datatype Prefs = Prefs(playerName: string, lastTheme: string, lastDifficulty: string)

  /** A preferences object with any subset of the keys present. */
  datatype PartialPrefs = PartialPrefs(playerName: Option<string>, lastTheme: Option<string>, lastDifficulty: Option<string>)

  datatype Slot<T> = Missing | Stored(value: T) | Malformed

  datatype Storage = Storage(highScores: Slot<ScoreTable>, preferences: Slot<Prefs>, available: bool, full: bool)

  const MaxEntries: nat := 10

  /** The default leaderboard record; note its third key is `high`, not `hard`. */
  const DefaultHighScores: ScoreTable := map["easy" := [], "medium" := [], "high" := []]

  const DefaultPrefs: Prefs := Prefs("", "animals", "medium")

  predicate Writable(st: Storage) { st.available && !st.full }

  /** Leaderboard order: fewer moves first, then less time. */
  function EntryRank(e: ScoreEntry): Rank { Rank(e.moves, e.time) }

  /** `getHighScores`: the stored table, or the default when nothing usable is stored or the read throws. */
  function GetHighScores(st: Storage): (r: ScoreTable)
    ensures st.available && st.highScores.Stored? ==> r == st.highScores.value
    ensures !(st.available && st.highScores.Stored?) ==> r == DefaultHighScores
  {
    if st.available && st.highScores.Stored? then st.highScores.value else DefaultHighScores
  }

  /** `getPlayerPreferences`: the stored record, or the default when nothing usable is stored or the read throws. */
  function GetPlayerPreferences(st: Storage): (r: Prefs)
    ensures st.available && st.preferences.Stored? ==> r == st.preferences.value
    ensures !(st.available && st.preferences.Stored?) ==> r == DefaultPrefs
  {
    if st.available && st.preferences.Stored? then st.preferences.value else DefaultPrefs
  }

  /** A difficulty with no list in the table starts from the empty list (`scores[difficulty] || []`); see `PushThrows` for the names this misses. */
  function ListFor(table: ScoreTable, difficulty: string): seq<ScoreEntry> {
    if difficulty in table then table[difficulty] else []
  }

  /** The list after adding one entry: appended, sorted by (moves, time), first ten kept. */
  function Ranked(list: seq<ScoreEntry>, entry: ScoreEntry): (r: seq<ScoreEntry>)
    ensures |r| == Min(MaxEntries, |list| + 1)
    ensures SortedBy(r, EntryRank)
    ensures multiset(r) <= multiset(list) + multiset{entry}
    ensures forall x, y :: x in r && y in multiset(list + [entry]) - multiset(r) ==> RankLe(EntryRank(x), EntryRank(y))
  {
    var sorted := SortByRank(list + [entry], EntryRank);
    TakeSorted(sorted, MaxEntries, EntryRank);
    TakeSubMultiset(sorted, MaxEntries);
    PrefixRanksFirst(sorted, |Take(sorted, MaxEntries)|, EntryRank);
    Take(sorted, MaxEntries)
  }

  datatype Saved<T> = Saved(storage: Storage, result: T)

  /**
   * `scores[difficulty].push(...)` throws when the table has no own list for
   * the difficulty but the name is one every object inherits: the lookup
   * finds a function (or the prototype), which is truthy, so `|| []` keeps
   * it, and it has no `push`.
   */
  predicate PushThrows(table: ScoreTable, difficulty: string) {
    difficulty !in table && difficulty in InheritedKeys
  }

  /**
   * `saveHighScore(difficulty, score)`: the entry, dated `now`, joins that
   * difficulty's list, which is re-sorted and cut to ten; only that key of
   * the table changes. When the push or the write throws, the storage is
   * left as it was and the currently readable table is returned instead.
   */
  function SaveHighScore(st: Storage, difficulty: string, score: NewScore, now: string): (r: Saved<ScoreTable>)
    ensures Writable(st) && !PushThrows(GetHighScores(st), difficulty) ==>
      && r.result.Keys == GetHighScores(st).Keys + {difficulty}
      && (forall d :: d in GetHighScores(st) && d != difficulty ==> r.result[d] == GetHighScores(st)[d])
      && r.result[difficulty]
         == Ranked(ListFor(GetHighScores(st), difficulty), ScoreEntry(score.playerName, score.moves, score.time, now))
      && |r.result[difficulty]| <= MaxEntries
      && SortedBy(r.result[difficulty], EntryRank)
      && multiset(r.result[difficulty])
         <= multiset(ListFor(GetHighScores(st), difficulty)) + multiset{ScoreEntry(score.playerName, score.moves, score.time, now)}
      && r.storage == st.(highScores := Stored(r.result))
    ensures !Writable(st) || PushThrows(GetHighScores(st), difficulty) ==> r.storage == st && r.result == GetHighScores(st)
    ensures GetHighScores(r.storage) == r.result
  {
    var table := GetHighScores(st);
    var entry := ScoreEntry(score.playerName, score.moves, score.time, now);
    var updated := table[difficulty := Ranked(ListFor(table, difficulty), entry)];
    if Writable(st) && !PushThrows(table, difficulty) then Saved(st.(highScores := Stored(updated)), updated)
    else Saved(st, GetHighScores(st))
  }

  /** A save under an inherited name that the table does not hold changes nothing, even on writable storage. */
  lemma InheritedNameSavesNothing(st: Storage, score: NewScore, now: string)
    requires Writable(st) && st.highScores == Stored(map["easy" := []])
    ensures SaveHighScore(st, "toString", score, now).storage == st
    ensures SaveHighScore(st, "easy", score, now).storage != st
  {
    var e := ScoreEntry(score.playerName, score.moves, score.time, now);
    assert SaveHighScore(st, "easy", score, now).result["easy"] == Ranked([], e);
  }

  /**
   * On a sorted list the new entry lands behind every entry that ties or
   * beats it, and survives the cut exactly when fewer than ten do.
   */
  lemma SaveHighScoreKeepsNewEntry(list: seq<ScoreEntry>, entry: ScoreEntry) returns (k: nat)
    requires SortedBy(list, EntryRank)
    ensures SplitsAt(list, entry, k, EntryRank)
    ensures Ranked(list, entry) == Take(list[..k] + [entry] + list[k..], MaxEntries)
    ensures entry in Ranked(list, entry) <== k < MaxEntries
  {
    k := SortedInsert(list, entry, EntryRank);
    if k < MaxEntries {
      var full := list[..k] + [entry] + list[k..];
      assert full[k] == entry;
      assert Take(full, MaxEntries)[k] == entry;
    }
  }

  /** The merge of `savePlayerPreferences`: given keys override, missing keys keep their current value. */
  function Merge(current: Prefs, update: PartialPrefs): (r: Prefs)
    ensures r.playerName == if update.playerName.Some? then update.playerName.value else current.playerName
    ensures r.lastTheme == if update.lastTheme.Some? then update.lastTheme.value else current.lastTheme
    ensures r.lastDifficulty == if update.lastDifficulty.Some? then update.lastDifficulty.value else current.lastDifficulty
  {
    Prefs(
      match update.playerName case Some(n) => n case None => current.playerName,
      match update.lastTheme case Some(t) => t case None => current.lastTheme,
      match update.lastDifficulty case Some(d) => d case None => current.lastDifficulty)
  }

  /**
   * `savePlayerPreferences(preferences)`: merges into the readable
   * preferences, writes and returns the merge; when the write throws the
   * storage is untouched and the readable preferences are returned.
   */
  function SavePlayerPreferences(st: Storage, update: PartialPrefs): (r: Saved<Prefs>)
    ensures Writable(st) ==> r.result == Merge(GetPlayerPreferences(st), update)
    ensures Writable(st) ==> r.storage == st.(preferences := Stored(r.result))
    ensures !Writable(st) ==> r.storage == st && r.result == GetPlayerPreferences(st)
    ensures GetPlayerPreferences(r.storage) == r.result
    ensures r.storage.highScores == st.highScores
  {
    var merged := Merge(GetPlayerPreferences(st), update);
    if Writable(st) then Saved(st.(preferences := Stored(merged)), merged)
    else Saved(st, GetPlayerPreferences(st))
  }

  /** `clearAllData`: removes both records and reports success, or reports failure and changes nothing. */
  function ClearAllData(st: Storage): (r: Saved<bool>)
    ensures r.result <==> st.available
    ensures r.result ==> r.storage == st.(highScores := Missing, preferences := Missing)
    ensures !r.result ==> r.storage == st
  {
    if st.available then Saved(st.(highScores := Missing, preferences := Missing), true)
    else Saved(st, false)
  }

  /** Clearing twice is the same as clearing once. */
  lemma ClearIdempotent(st: Storage)
    ensures ClearAllData(ClearAllData(st).storage) == ClearAllData(st)
  {
  }

  /**
   * After a successful save, every difficulty's list in the stored table is
   * sorted by (moves, time) and at most ten long, provided it was before:
   * the leaderboard invariant survives any number of saves.
   */
  predicate LeaderboardInvariant(table: ScoreTable) {
    forall d :: d in table ==> |table[d]| <= MaxEntries && SortedBy(table[d], EntryRank)
  }

  lemma SavePreservesLeaderboard(st: Storage, difficulty: string, score: NewScore, now: string)
    requires LeaderboardInvariant(GetHighScores(st))
    ensures LeaderboardInvariant(GetHighScores(SaveHighScore(st, difficulty, score, now).storage))
  {
    var table := GetHighScores(st);
    var r := SaveHighScore(st, difficulty, score, now);
    if Writable(st) && !PushThrows(table, difficulty) {
      forall d | d in r.result
        ensures |r.result[d]| <= MaxEntries && SortedBy(r.result[d], EntryRank)
      {
        if d != difficulty {
          assert r.result[d] == table[d];
        }
      }
    }
  }

  /** A partial save that names only the player keeps the stored theme and difficulty. */
  lemma MergeNameOnly(st: Storage, name: string)
    requires Writable(st) && st.preferences == Stored(Prefs("", "food", "hard"))
    ensures SavePlayerPreferences(st, PartialPrefs(Some(name), None, None)).result == Prefs(name, "food", "hard")
  {
  }
}

=== FILE: simple_game.dfy ===
/**
 * The self-contained matching game of src/Game.jsx: a splash → lobby →
 * playing screen switch, and `EmojiMatchingGame`, whose cards are plain
 * symbols addressed by index, whose matches resolve at once, and whose
 * mismatches are turned back by a one-second timer (the `ClearMismatch`
 * event here).
 *
 * The shuffle attaches a `Math.random()` key to each card and sorts by it;
 * the keys are an input (`draw`, position to key), and the sort is the
 * stable sort of `Common`.
 */
module SimpleGame {
  import opened Common

  // ---------------------------------------------------------------------------
  // Screens
  // ---------------------------------------------------------------------------

  datatype Screen = Splash | Lobby | Playing

  datatype Shell = Shell(screen: Screen, settings: Option<GameSettings>)

  const Launch := Shell(Splash, None)

  /** `handleSplashComplete` and `handleReturnToLobby`, which do the same: show the lobby. */
  function ShowLobby(s: Shell): (r: Shell)
    ensures r.screen == Lobby && r.settings == s.settings
  {
    s.(screen := Lobby)
  }

  function GameStart(s: Shell, settings: GameSettings): (r: Shell)
    ensures r.screen == Playing && r.settings == Some(settings)
  {
    Shell(Playing, Some(settings))
  }

  /** The playing screen is only ever shown with settings to play with. */
  lemma PlayingHasSettings(s: Shell, settings: GameSettings)
    requires s.screen == Playing ==> s.settings.Some?
    ensures ShowLobby(s).screen != Playing
    ensures GameStart(s, settings).settings.Some?
  {
  }

  // ---------------------------------------------------------------------------
  // The board
  // ---------------------------------------------------------------------------

  /** Pairs per difficulty: easy 6, hard 10, anything else 8. */
  function PairsFor(difficulty: string): (n: nat)
    ensures difficulty == "easy" ==> n == 6
    ensures difficulty == "hard" ==> n == 10
    ensures difficulty != "easy" && difficulty != "hard" ==> n == 8
  {
    if difficulty == "easy" then 6 else if difficulty == "hard" then 10 else 8
  }

  /** A symbol tagged with its random sort key. */
  function KeyRank(p: (string, int)): Rank { Rank(p.1, 0) }

  function Tag(xs: seq<string>, draw: nat -> int): (r: seq<(string, int)>)
    ensures |r| == |xs|
    ensures forall i :: 0 <= i < |xs| ==> r[i] == (xs[i], draw(i))
  {
    seq(|xs|, i requires 0 <= i < |xs| => (xs[i], draw(i)))
  }

  function Untag(ps: seq<(string, int)>): (r: seq<string>)
    ensures |r| == |ps|
    ensures forall i :: 0 <= i < |ps| ==> r[i] == ps[i].0
  {
    seq(|ps|, i requires 0 <= i < |ps| => ps[i].0)
  }

  lemma UntagSnoc(ps: seq<(string, int)>, p: (string, int))
    ensures Untag(ps + [p]) == Untag(ps) + [p.0]
  {
  }

  /** Dropping the tags commutes with inserting by key, up to order. */
  lemma {:induction false} UntagInsert(ps: seq<(string, int)>, p: (string, int))
    ensures multiset(Untag(InsertByRank(ps, p, KeyRank))) == multiset(Untag(ps)) + multiset{p.0}
    decreases |ps|
  {
    if |ps| == 0 || RankLe(KeyRank(ps[|ps| - 1]), KeyRank(p)) {
      UntagSnoc(ps, p);
    } else {
      var init := ps[..|ps| - 1];
      var last := ps[|ps| - 1];
      assert ps == init + [last];
      UntagInsert(init, p);
      UntagSnoc(InsertByRank(init, p, KeyRank), last);
      UntagSnoc(init, last);
    }
  }

  /** Sorting the tagged deck keeps the same symbols. */
  lemma {:induction false} UntagSort(ps: seq<(string, int)>)
    ensures multiset(Untag(SortByRank(ps, KeyRank))) == multiset(Untag(ps))
    decreases |ps|
  {
    if |ps| > 0 {
      var init := ps[..|ps| - 1];
      var last := ps[|ps| - 1];
      assert ps == init + [last];
      UntagSort(init);
      UntagInsert(SortByRank(init, KeyRank), last);
      UntagSnoc(init, last);
    }
  }

  /**
   * The shuffled deck: the selection twice, each card tagged with its key,
   * stably sorted by key, tags dropped. It holds the same symbols as the
   * doubled selection, and it is the untagged form of a rearrangement of
   * exactly those tagged cards that is in ascending order of the drawn keys.
   */
  function Shuffled(selection: seq<string>, draw: nat -> int): (r: seq<string>)
    ensures |r| == 2 * |selection|
    ensures multiset(r) == multiset(selection) + multiset(selection)
    ensures exists ps :: multiset(ps) == multiset(Tag(selection + selection, draw)) && SortedBy(ps, KeyRank) && Untag(ps) == r
  {
    var deck := selection + selection;
    var sorted := SortByRank(Tag(deck, draw), KeyRank);
    UntagSort(Tag(deck, draw));
    assert Untag(Tag(deck, draw)) == deck;
    assert multiset(sorted) == multiset(Tag(deck, draw)) && SortedBy(sorted, KeyRank);
    Untag(sorted)
  }

  // ---------------------------------------------------------------------------
  // The game
  // ---------------------------------------------------------------------------

  datatype Match = Match(cards: seq<string>, flipped: seq<nat>, matched: seq<nat>, moves: nat, gameOver: bool)

  /** The initialising effect: `pairs` symbols of the chosen set, doubled and shuffled; everything else reset. */
  function NewBoard(settings: GameSettings, draw: nat -> int): (r: Match)
    ensures |r.cards| == 2 * Min(PairsFor(settings.difficulty), |settings.emojiSet|)
    ensures multiset(r.cards)
         == multiset(Take(settings.emojiSet, PairsFor(settings.difficulty))) + multiset(Take(settings.emojiSet, PairsFor(settings.difficulty)))
    ensures r.flipped == [] && r.matched == [] && r.moves == 0 && !r.gameOver
  {
    Match(Shuffled(Take(settings.emojiSet, PairsFor(settings.difficulty)), draw), [], [], 0, false)
  }

  /** The guard of `handleCardClick`: two cards already up, or the card already matched or up. */
  predicate Accepts(s: Match, index: nat) {
    |s.flipped| != 2 && index !in s.matched && index !in s.flipped
  }

  /**
   * `handleCardClick(index)`. The second card of a pair counts a move; a
   * match moves both indices to `matched` at once and ends the game when it
   * covers the board; a mismatch leaves both up for the timer.
   */
  function Click(s: Match, index: nat): (r: Match)
    requires index < |s.cards|
    requires forall k :: 0 <= k < |s.flipped| ==> s.flipped[k] < |s.cards|
    ensures !Accepts(s, index) ==> r == s
    ensures Accepts(s, index) && |s.flipped| != 1 ==> r == s.(flipped := s.flipped + [index])
    ensures Accepts(s, index) && |s.flipped| == 1 ==> r.moves == s.moves + 1 && r.cards == s.cards
    ensures Accepts(s, index) && |s.flipped| == 1 && s.cards[s.flipped[0]] == s.cards[index] ==>
      && r.matched == s.matched + [s.flipped[0], index]
      && r.flipped == []
      && (r.gameOver <==> s.gameOver || |r.matched| == |s.cards|)
    ensures Accepts(s, index) && |s.flipped| == 1 && s.cards[s.flipped[0]] != s.cards[index] ==>
      r.flipped == s.flipped + [index] && r.matched == s.matched && r.gameOver == s.gameOver
  {
    if !Accepts(s, index) then s
    else
      var newFlipped := s.flipped + [index];
      if |newFlipped| == 2 then
        if s.cards[newFlipped[0]] == s.cards[newFlipped[1]] then
          s.(moves := s.moves + 1, matched := s.matched + newFlipped, flipped := [],
             gameOver := if |s.matched| + 2 == |s.cards| then true else s.gameOver)
        else s.(moves := s.moves + 1, flipped := newFlipped)
      else s.(flipped := newFlipped)
  }

  /** The mismatch timer: both cards go back down. */
  function ClearMismatch(s: Match): (r: Match)
    ensures |s.flipped| == 2 ==> r == s.(flipped := [])
    ensures |s.flipped| != 2 ==> r == s
  {
    if |s.flipped| == 2 then s.(flipped := []) else s
  }

  /**
   * What holds throughout a game: indices in range and never both matched
   * and up, or twice in either list; matched indices come in pairs showing
   * the same symbol; two cards stay up only when they differ; the game is
   * over exactly when a non-empty board is fully matched.
   */
  predicate Valid(s: Match) {
    && (forall k :: 0 <= k < |s.flipped| ==> s.flipped[k] < |s.cards|)
    && (forall k :: 0 <= k < |s.matched| ==> s.matched[k] < |s.cards|)
    && Distinct(s.matched + s.flipped)
    && |s.flipped| <= 2
    && (|s.flipped| == 2 ==> s.cards[s.flipped[0]] != s.cards[s.flipped[1]])
    && |s.matched| % 2 == 0
    && (forall k :: 0 <= k < |s.matched| && k % 2 == 0 ==> s.cards[s.matched[k]] == s.cards[s.matched[k + 1]])
    && (s.gameOver <==> |s.cards| > 0 && |s.matched| == |s.cards|)
  }

  lemma NewBoardValid(settings: GameSettings, draw: nat -> int)
    ensures Valid(NewBoard(settings, draw))
  {
    var r := NewBoard(settings, draw);
    assert r.matched + r.flipped == [];
  }

  /** Matched and face-up cards together never outnumber the board. */
  lemma Occupancy(s: Match)
    requires Valid(s)
    ensures |s.matched| + |s.flipped| <= |s.cards|
  {
    var all := s.matched + s.flipped;
    forall i | 0 <= i < |all| ensures all[i] < |s.cards| {
      if i < |s.matched| { assert all[i] == s.matched[i]; } else { assert all[i] == s.flipped[i - |s.matched|]; }
    }
    DistinctBelowBound(all, |s.cards|);
  }

  lemma ClickValid(s: Match, index: nat)
    requires Valid(s) && index < |s.cards|
    ensures Valid(Click(s, index))
  {
    var r := Click(s, index);
    if Accepts(s, index) {
      var all := s.matched + s.flipped + [index];
      assert index !in s.matched + s.flipped;
      PicksGrow(s.matched + s.flipped, index, |s.cards|);
      if |s.flipped| == 1 && s.cards[s.flipped[0]] == s.cards[index] {
        assert r.matched == all;
        assert r.matched + r.flipped == all;
        forall k | 0 <= k < |r.matched| && k % 2 == 0 ensures r.cards[r.matched[k]] == r.cards[r.matched[k + 1]] {
          if k < |s.matched| {
            assert r.matched[k] == s.matched[k] && r.matched[k + 1] == s.matched[k + 1];
          }
        }
      } else {
        assert r.matched + r.flipped == all;
      }
    }
  }

  /** A new card, different from all picked so far, keeps the picks distinct and on the board. */
  lemma PicksGrow(picks: seq<nat>, index: nat, n: nat)
    requires Distinct(picks) && index !in picks && index < n
    requires forall k :: 0 <= k < |picks| ==> picks[k] < n
    ensures Distinct(picks + [index]) && |picks + [index]| <= n
    ensures forall k :: 0 <= k < |picks + [index]| ==> (picks + [index])[k] < n
  {
    var all := picks + [index];
    assert Distinct(all) by {
      forall i, j | 0 <= i < j < |all| ensures all[i] != all[j] {
        assert all[i] == picks[i];
        if j < |picks| { assert all[j] == picks[j]; }
      }
    }
    forall i | 0 <= i < |all| ensures all[i] < n {
      if i < |picks| { assert all[i] == picks[i]; }
    }
    DistinctBelowBound(all, n);
  }

  lemma ClearMismatchValid(s: Match)
    requires Valid(s)
    ensures Valid(ClearMismatch(s))
  {
    if |s.flipped| == 2 {
      assert s.matched + [] == s.matched;
      assert Distinct(s.matched) by {
        forall i, j | 0 <= i < j < |s.matched| ensures s.matched[i] != s.matched[j] {
          assert s.matched[i] == (s.matched + s.flipped)[i] && s.matched[j] == (s.matched + s.flipped)[j];
        }
      }
    }
  }

  /** Once the game is over every click is refused: all cards are matched. */
  lemma GameOverIgnoresClicks(s: Match, index: nat)
    requires Valid(s) && s.gameOver && index < |s.cards|
    ensures Click(s, index) == s
  {
    if Accepts(s, index) {
      var all := s.matched + [index];
      assert Distinct(all) by {
        forall i, j | 0 <= i < j < |all| ensures all[i] != all[j] {
          assert all[i] == (s.matched + s.flipped)[i];
          if j < |s.matched| { assert all[j] == (s.matched + s.flipped)[j]; }
        }
      }
      forall i | 0 <= i < |all| ensures all[i] < |s.cards| {
        if i < |s.matched| { assert all[i] == s.matched[i]; }
      }
      DistinctBelowBound(all, |s.cards|);
      assert false;
    }
  }

  /** Moves count pairs turned over: exactly the accepted second clicks add one. */
  lemma MovesCountSecondFlips(s: Match, index: nat)
    requires Valid(s) && index < |s.cards|
    ensures Click(s, index).moves == s.moves + (if Accepts(s, index) && |s.flipped| == 1 then 1 else 0)
  {
  }
}

=== FILE: timed_game.dfy ===
/**
 * The timed emoji-matching variant of src/games/EmojiGame/emoji-game.jsx
 * (`EmojiMatchingGame`): a countdown clock with bonus time per match,
 * power-ups with cooldowns, a per-difficulty high score and four
 * achievement flags.
 *
 * Every `setTimeout`/`setInterval` callback is an explicit event:
 * `Resolve` (the 500 ms / 1000 ms match resolution), `Tick` (the one-second
 * interval), and `Thaw`, `Conceal`, `EndDoublePoints` (the power-up revert
 * timers). Sound, the tutorial and settings dialogs, the hint button and the
 * `localStorage` copies of the high score and achievements are not modelled.
 *
 * Two callbacks read values captured in an earlier render (see
 * `ResolveAsWritten` and `TickAsWritten`); the step functions the rest of the
 * model uses, `Resolve` and `Tick`, score the game from the values at the
 * moment it ends.
 */
module TimedGame {
  import opened Common
  import opened Board

  datatype Level = Easy | Medium | Hard

  datatype LevelConfig = LevelConfig(time: nat, pairs: nat, bonusTime: nat)

  /** `DIFFICULTY_LEVELS`. */
  function Config(level: Level): LevelConfig {
    match level
    case Easy => LevelConfig(45, 6, 10)
    case Medium => LevelConfig(30, 8, 7)
    case Hard => LevelConfig(25, 10, 5)
  }

  /** `EMOJIS`. */
  const Symbols: seq<string> := ["😄", "🤣", "😎", "😍", "🤔", "😴", "😇", "🤓", "👻", "🎃"]

  /** The difficulty multiplier of `calculateScore`. */
  function DifficultyMultiplier(level: Level): real {
    match level
    case Easy => 1.0
    case Medium => 1.5
    case Hard => 2.0
  }

  /** Twice the difficulty multiplier, an integer. */
  function HalfSteps(level: Level): (h: nat)
    ensures h as real == 2.0 * DifficultyMultiplier(level)
  {
    match level
    case Easy => 2
    case Medium => 3
    case Hard => 4
  }

  /**
   * `calculateScore`: `Math.round((100·matches + 10·timeLeft) × difficulty ×
   * multiplier)`. On whole-number inputs the product is already a whole
   * number (the base is a multiple of 10, so halving it for medium is exact),
   * hence the rounding never moves it: the integer result equals the real
   * product.
   */
  function CalculateScore(matches: nat, timeLeft: nat, level: Level, multiplier: nat): (r: nat)
    ensures r as real == (100 * matches + 10 * timeLeft) as real * DifficultyMultiplier(level) * multiplier as real
  {
    var base := 100 * matches + 10 * timeLeft;
    var half := 50 * matches + 5 * timeLeft;
    assert base == 2 * half;
    var r := half * HalfSteps(level) * multiplier;
    assert r == base * HalfSteps(level) * multiplier / 2 by {
      assert base * HalfSteps(level) * multiplier == 2 * r;
    }
    assert (base as real) * DifficultyMultiplier(level) == (half * HalfSteps(level)) as real;
    r
  }

  datatype PowerUpKind = TimeFreeze | RevealCards | DoublePoints

  datatype PowerUp = PowerUp(active: bool, cooldown: nat)

  datatype PowerUps = PowerUps(timeFreeze: PowerUp, revealCards: PowerUp, doublePoints: PowerUp) {
    function Get(kind: PowerUpKind): PowerUp {
      match kind
      case TimeFreeze => timeFreeze
      case RevealCards => revealCards
      case DoublePoints => doublePoints
    }

    function With(kind: PowerUpKind, p: PowerUp): (r: PowerUps)
      ensures r.Get(kind) == p
      ensures forall k :: k != kind ==> r.Get(k) == Get(k)
    {
      match kind
      case TimeFreeze => this.(timeFreeze := p)
      case RevealCards => this.(revealCards := p)
      case DoublePoints => this.(doublePoints := p)
    }
  }

  const PowerUpCooldown: nat := 30

  const AllReady := PowerUps(PowerUp(true, 0), PowerUp(true, 0), PowerUp(true, 0))

  /** The highest score per difficulty. */
  datatype Best = Best(easy: int, medium: int, hard: int) {
    function Get(level: Level): int {
      match level
      case Easy => easy
      case Medium => medium
      case Hard => hard
    }

    function With(level: Level, v: int): (r: Best)
      ensures r.Get(level) == v
      ensures forall l :: l != level ==> r.Get(l) == Get(l)
    {
      match level
      case Easy => this.(easy := v)
      case Medium => this.(medium := v)
      case Hard => this.(hard := v)
    }
  }

  datatype Achievements = Achievements(firstWin: bool, speedMaster: bool, perfectGame: bool, hardModeWin: bool)

  /** No flag goes from true back to false. */
  predicate Grows(a: Achievements, b: Achievements) {
    && (a.firstWin ==> b.firstWin)
    && (a.speedMaster ==> b.speedMaster)
    && (a.perfectGame ==> b.perfectGame)
    && (a.hardModeWin ==> b.hardModeWin)
  }

  /** The resolution the second flip schedules, with the closure values `endGame` captured at that click. */
  datatype Pending =
    | NoPending
    | PendingMatch(first: nat, second: nat, matchesSeen: nat, timeSeen: nat, multiplierSeen: nat)
    | PendingMismatch(first: nat, second: nat)

  datatype Game = Game(
    level: Level,
    cards: seq<Card>,
    flipped: seq<nat>,          // flippedCards: card ids in click order
    matches: nat,
    timeLeft: nat,
    gameOver: bool,
    score: nat,
    multiplier: nat,            // scoreMultiplier
    frozen: bool,               // timeFrozen
    processing: bool,           // isProcessingMatch
    pending: Pending,
    powerUps: PowerUps,
    best: Best,                 // highScore
    achievements: Achievements)

  /** `createGameBoard`: the first `pairs` symbols twice, shuffled, numbered. */
  function CreateBoard(level: Level, swaps: seq<(nat, nat)>): (r: seq<Card>)
    ensures |r| == 2 * Config(level).pairs
    ensures IdsAreIndices(r)
    ensures forall i :: 0 <= i < |r| ==> !r[i].isFlipped && !r[i].isMatched
    ensures multiset(Emojis(r)) == multiset(Symbols[..Config(level).pairs]) + multiset(Symbols[..Config(level).pairs])
  {
    var n := Config(level).pairs;
    var symbols := Symbols;
    assert |symbols| == 10 && n <= 10;
    assert Selection(symbols, Some(n)) == symbols[..n];
    Deal(symbols, Some(n), swaps)
  }

  /** Each of the first `pairs` symbols is on exactly two cards, and no other symbol is on any. */
  lemma CreateBoardPairs(level: Level, swaps: seq<(nat, nat)>, e: string)
    ensures e in Symbols[..Config(level).pairs] ==> multiset(Emojis(CreateBoard(level, swaps)))[e] == 2
    ensures e !in Symbols[..Config(level).pairs] ==> multiset(Emojis(CreateBoard(level, swaps)))[e] == 0
  {
    var n := Config(level).pairs;
    var symbols := Symbols;
    SymbolsDistinct();
    DistinctPrefix(symbols, n);
    assert Selection(symbols, Some(n)) == symbols[..n];
    assert CreateBoard(level, swaps) == Deal(symbols, Some(n), swaps);
    DealPairsTwice(symbols, Some(n), swaps, e);
  }

  /** The ten game symbols are all different. */
  lemma SymbolsDistinct()
    ensures |Symbols| == 10 && Distinct(Symbols)
  {
  }

  /** `startNewGame`: a new board and a full clock; the high score and achievements carry over. */
  function NewGame(s: Game, swaps: seq<(nat, nat)>): (r: Game)
    ensures r.cards == CreateBoard(s.level, swaps)
    ensures r.timeLeft == Config(s.level).time && r.matches == 0 && r.score == 0 && !r.gameOver
    ensures r.flipped == [] && r.pending == NoPending && r.powerUps == AllReady && r.multiplier == 1
    ensures r.level == s.level && r.best == s.best && r.achievements == s.achievements
  {
    Game(s.level, CreateBoard(s.level, swaps), [], 0, Config(s.level).time, false, 0, 1, false, false,
         NoPending, AllReady, s.best, s.achievements)
  }

  /** The game state on first render, after the mount effect has started a game. */
  function Initial(level: Level, best: Best, achievements: Achievements, swaps: seq<(nat, nat)>): Game {
    NewGame(Game(level, [], [], 0, 0, false, 0, 1, false, false, NoPending, AllReady, best, achievements), swaps)
  }

  /**
   * A difficulty button of the settings dialog: `setDifficulty(level)`, then
   * `startNewGame()`. The button's own `startNewGame` deals for the level in
   * play; when the level changed, the difficulty effect deals again for the
   * new one. Either way the game that is left is a new one at the picked
   * level, with the best scores and achievements carried over.
   */
  function ChooseLevel(s: Game, level: Level, swaps: seq<(nat, nat)>): (r: Game)
    ensures r.level == level && r.cards == CreateBoard(level, swaps)
    ensures r.timeLeft == Config(level).time && r.matches == 0 && r.score == 0 && !r.gameOver
    ensures r.flipped == [] && r.pending == NoPending && r.powerUps == AllReady && r.multiplier == 1
    ensures r.best == s.best && r.achievements == s.achievements
  {
    NewGame(s.(level := level), swaps)
  }

  /** Picking the level already in play restarts the game exactly as the "New Game" button does. */
  lemma ChooseSameLevelRestarts(s: Game, swaps: seq<(nat, nat)>)
    ensures ChooseLevel(s, s.level, swaps) == NewGame(s, swaps)
  {
    assert s.(level := s.level) == s;
  }

  /** `checkAchievements(finalScore, timeRemaining)` against the high score held before this game ended. */
  function CheckAchievements(a: Achievements, finalScore: int, timeRemaining: nat, level: Level, best: Best): (r: Achievements)
    ensures Grows(a, r)
    ensures r.firstWin
    ensures r.speedMaster <==> a.speedMaster || 2 * timeRemaining > Config(level).time
    ensures r.perfectGame <==> a.perfectGame || finalScore > best.Get(level)
    ensures r.hardModeWin <==> a.hardModeWin || (level == Hard && finalScore > 0)
  {
    Achievements(
      true,
      if 2 * timeRemaining > Config(level).time then true else a.speedMaster,
      if finalScore > best.Get(level) then true else a.perfectGame,
      if level == Hard && finalScore > 0 then true else a.hardModeWin)
  }

  /**
   * `endGame` run with the given match count, time and multiplier: the game
   * is over, the score is computed from them, the high score is replaced
   * only by a strictly greater score, and the achievements are checked.
   */
  function EndGame(s: Game, matches: nat, timeLeft: nat, multiplier: nat): (r: Game)
    ensures r.gameOver
    ensures r.score == CalculateScore(matches, timeLeft, s.level, multiplier)
    ensures r.best.Get(s.level) == Max(s.best.Get(s.level), r.score)
    ensures forall l :: l != s.level ==> r.best.Get(l) == s.best.Get(l)
    ensures Grows(s.achievements, r.achievements)
    ensures r.(gameOver := s.gameOver, score := s.score, best := s.best, achievements := s.achievements) == s
  {
    var finalScore := CalculateScore(matches, timeLeft, s.level, multiplier);
    var best := if finalScore > s.best.Get(s.level) then s.best.With(s.level, finalScore) else s.best;
    s.(gameOver := true, score := finalScore, best := best,
       achievements := CheckAchievements(s.achievements, finalScore, timeLeft, s.level, s.best))
  }

  /** The board with the flip flag of the card with this id set to `up`. */
  function SetFlipped(cards: seq<Card>, id: nat, up: bool): (r: seq<Card>)
    ensures |r| == |cards|
    ensures forall k :: 0 <= k < |cards| ==> r[k] == if cards[k].id == id then cards[k].(isFlipped := up) else cards[k]
  {
    seq(|cards|, k requires 0 <= k < |cards| => if cards[k].id == id then cards[k].(isFlipped := up) else cards[k])
  }

  /** The board with the cards of both ids flagged as matched. */
  function SetMatched(cards: seq<Card>, a: nat, b: nat): (r: seq<Card>)
    ensures |r| == |cards|
    ensures forall k :: 0 <= k < |cards| ==>
      r[k] == if cards[k].id == a || cards[k].id == b then cards[k].(isMatched := true) else cards[k]
  {
    seq(|cards|, k requires 0 <= k < |cards| =>
      if cards[k].id == a || cards[k].id == b then cards[k].(isMatched := true) else cards[k])
  }

  /** The guard of `handleCardClick`. */
  predicate Accepts(s: Game, cardId: nat)
    requires cardId < |s.cards|
  {
    && !s.gameOver
    && |s.flipped| != 2
    && !s.processing
    && !s.cards[cardId].isMatched
    && cardId !in s.flipped
  }

  /**
   * `handleCardClick(cardId)`. Cards are numbered by position, so the card
   * with a given id is the one at that index. A refused click changes
   * nothing; an accepted one turns the card face up, and the second card of
   * a pair schedules a match or mismatch resolution.
   */
  function Click(s: Game, cardId: nat): (r: Game)
    requires IdsAreIndices(s.cards) && cardId < |s.cards|
    requires forall k :: 0 <= k < |s.flipped| ==> s.flipped[k] < |s.cards|
    ensures !Accepts(s, cardId) ==> r == s
    ensures |r.cards| == |s.cards| && IdsAreIndices(r.cards)
    ensures Accepts(s, cardId) ==> r.flipped == s.flipped + [cardId] && r.cards[cardId].isFlipped
    ensures Accepts(s, cardId) ==> r.cards == SetFlipped(s.cards, cardId, true)
    ensures r.(cards := s.cards, flipped := s.flipped, processing := s.processing, pending := s.pending) == s
    ensures Accepts(s, cardId) && |s.flipped| == 1 ==> r.processing && r.pending != NoPending
    ensures Accepts(s, cardId) && |s.flipped| == 1 ==>
      (r.pending.PendingMatch? <==> s.cards[s.flipped[0]].emoji == s.cards[cardId].emoji)
    ensures r.matches == s.matches && r.timeLeft == s.timeLeft && r.gameOver == s.gameOver
    ensures r.best == s.best && r.achievements == s.achievements && r.powerUps == s.powerUps
  {
    if !Accepts(s, cardId) then s
    else
      var s1 := s.(cards := SetFlipped(s.cards, cardId, true), flipped := s.flipped + [cardId]);
      if |s.flipped| == 1 then
        var first := s.flipped[0];
        var pending :=
          if s.cards[first].emoji == s.cards[cardId].emoji
          then PendingMatch(first, cardId, s.matches, s.timeLeft, s.multiplier)
          else PendingMismatch(first, cardId);
        s1.(processing := true, pending := pending)
      else s1
  }

  /** Matching resolution, ending the game with the given score inputs when the last pair is found. */
  function SettleMatch(s: Game, a: nat, b: nat, scoreMatches: nat, scoreTime: nat, scoreMultiplier: nat): (r: Game)
    ensures r.matches == s.matches + 1
    ensures r.timeLeft == Min(s.timeLeft + Config(s.level).bonusTime, Config(s.level).time)
    ensures r.matches == Config(s.level).pairs ==> r.gameOver
    ensures r.matches != Config(s.level).pairs ==> r.gameOver == s.gameOver
    ensures r.flipped == [] && !r.processing && r.pending == NoPending
    ensures r.cards == SetMatched(s.cards, a, b)
    ensures r.level == s.level && r.multiplier == s.multiplier && r.powerUps == s.powerUps
  {
    var s1 := s.(cards := SetMatched(s.cards, a, b), matches := s.matches + 1);
    var s2 := if s.matches + 1 == Config(s.level).pairs then EndGame(s1, scoreMatches, scoreTime, scoreMultiplier) else s1;
    s2.(timeLeft := Min(s.timeLeft + Config(s.level).bonusTime, Config(s.level).time),
        flipped := [], processing := false, pending := NoPending)
  }

  /** Mismatch resolution: both cards face down again. */
  function SettleMismatch(s: Game, a: nat, b: nat): (r: Game)
    ensures r.cards == SetFlipped(SetFlipped(s.cards, a, false), b, false)
    ensures r.flipped == [] && !r.processing && r.pending == NoPending
    ensures r.(cards := s.cards, flipped := s.flipped, processing := s.processing, pending := s.pending) == s
  {
    s.(cards := SetFlipped(SetFlipped(s.cards, a, false), b, false), flipped := [], processing := false, pending := NoPending)
  }

  /**
   * The resolution timer, as the source runs it: on the last pair `endGame`
   * scores the game with the match count, time and multiplier captured when
   * the second card was clicked.
   */
  function ResolveAsWritten(s: Game): (r: Game)
    ensures s.pending.PendingMatch? && s.matches + 1 == Config(s.level).pairs ==>
      r.score == CalculateScore(s.pending.matchesSeen, s.pending.timeSeen, s.level, s.pending.multiplierSeen)
    ensures s.pending == NoPending ==> r == s
  {
    match s.pending
    case NoPending => s
    case PendingMatch(a, b, m, t, x) => SettleMatch(s, a, b, m, t, x)
    case PendingMismatch(a, b) => SettleMismatch(s, a, b)
  }

  /**
   * The resolution timer with the game scored from the state it ends in:
   * every pair counted, the clock and multiplier as they stand.
   */
  function Resolve(s: Game): (r: Game)
    ensures s.pending.PendingMatch? ==> r.matches == s.matches + 1
    ensures s.pending.PendingMatch? ==> r.timeLeft == Min(s.timeLeft + Config(s.level).bonusTime, Config(s.level).time)
    ensures s.pending.PendingMatch? && s.matches + 1 == Config(s.level).pairs ==>
      r.gameOver && r.score == CalculateScore(Config(s.level).pairs, s.timeLeft, s.level, s.multiplier)
    ensures s.pending.PendingMismatch? ==> r.matches == s.matches && r.timeLeft == s.timeLeft
    ensures s.pending != NoPending ==> r.flipped == [] && !r.processing && r.pending == NoPending
    ensures s.pending == NoPending ==> r == s
  {
    match s.pending
    case NoPending => s
    case PendingMatch(a, b, _, _, _) => SettleMatch(s, a, b, s.matches + 1, s.timeLeft, s.multiplier)
    case PendingMismatch(a, b) => SettleMismatch(s, a, b)
  }

  /** One second off every running cooldown; a power-up whose cooldown reaches 0 is usable again. */
  function CoolDownOne(p: PowerUp): (r: PowerUp)
    ensures p.cooldown > 0 ==> r.cooldown == p.cooldown - 1 && r.active == (p.active || r.cooldown == 0)
    ensures p.cooldown == 0 ==> r == p
  {
    if p.cooldown > 0 then
      var c := p.cooldown - 1;
      PowerUp(if c == 0 then true else p.active, c)
    else p
  }

  function CoolDown(ps: PowerUps): (r: PowerUps)
    ensures forall k :: r.Get(k) == CoolDownOne(ps.Get(k))
  {
    PowerUps(CoolDownOne(ps.timeFreeze), CoolDownOne(ps.revealCards), CoolDownOne(ps.doublePoints))
  }

  /** One second of the game clock with the game ended with the given time-left reading at 0. */
  function TickWith(s: Game, endTime: nat): (r: Game)
    ensures s.gameOver || s.frozen ==> r == s
    ensures !(s.gameOver || s.frozen) ==> r.timeLeft == Max(s.timeLeft - 1, 0)
    ensures !(s.gameOver || s.frozen) ==> r.powerUps == CoolDown(s.powerUps)
    ensures !(s.gameOver || s.frozen) ==> (r.gameOver <==> r.timeLeft == 0)
    ensures !(s.gameOver || s.frozen) && r.timeLeft == 0 ==>
      r.score == CalculateScore(s.matches, endTime, s.level, s.multiplier)
    ensures r.(timeLeft := s.timeLeft, powerUps := s.powerUps, gameOver := s.gameOver,
               score := s.score, best := s.best, achievements := s.achievements) == s
    ensures r.timeLeft > 0 ==> r.score == s.score && r.best == s.best && r.achievements == s.achievements
  {
    if s.gameOver || s.frozen then s
    else
      var newTime := if s.timeLeft > 0 then s.timeLeft - 1 else 0;
      var s1 := s.(timeLeft := newTime);
      var s2 := if newTime == 0 then EndGame(s1, s.matches, endTime, s.multiplier) else s1;
      s2.(powerUps := CoolDown(s.powerUps))
  }

  /**
   * The clock interval as the source runs it: the `endGame` it calls was
   * created in the render that still showed the previous second, so a game
   * that runs out of time is scored with that reading (1), not 0.
   */
  function TickAsWritten(s: Game): (r: Game)
    ensures !(s.gameOver || s.frozen) && s.timeLeft <= 1 ==>
      r.gameOver && r.score == CalculateScore(s.matches, s.timeLeft, s.level, s.multiplier)
  {
    TickWith(s, s.timeLeft)
  }

  /** The clock interval, scoring a game that runs out of time with no time left. */
  function Tick(s: Game): (r: Game)
    ensures !(s.gameOver || s.frozen) && s.timeLeft <= 1 ==>
      r.gameOver && r.timeLeft == 0 && r.score == CalculateScore(s.matches, 0, s.level, s.multiplier)
    ensures !(s.gameOver || s.frozen) && s.timeLeft > 1 ==> r.timeLeft == s.timeLeft - 1 && r.gameOver == s.gameOver
    ensures !(s.gameOver || s.frozen) ==> r.powerUps == CoolDown(s.powerUps)
    ensures s.gameOver || s.frozen ==> r == s
    ensures r.(timeLeft := s.timeLeft, powerUps := s.powerUps, gameOver := s.gameOver,
               score := s.score, best := s.best, achievements := s.achievements) == s
    ensures r.timeLeft > 0 ==> r.score == s.score && r.best == s.best && r.achievements == s.achievements
  {
    TickWith(s, 0)
  }

  /**
   * `handlePowerUp(type)`: refused while the power-up is inactive or the
   * game is over; otherwise its effect starts and it goes inactive with a
   * 30-second cooldown.
   */
  function UsePowerUp(s: Game, kind: PowerUpKind): (r: Game)
    ensures !s.powerUps.Get(kind).active || s.gameOver ==> r == s
    ensures s.powerUps.Get(kind).active && !s.gameOver ==>
      && r.powerUps.Get(kind) == PowerUp(false, PowerUpCooldown)
      && (forall k :: k != kind ==> r.powerUps.Get(k) == s.powerUps.Get(k))
      && (kind == TimeFreeze ==> r.frozen)
      && (kind == DoublePoints ==> r.multiplier == 2)
      && (kind == RevealCards ==> forall i :: 0 <= i < |r.cards| ==> r.cards[i].isFlipped)
    ensures r.matches == s.matches && r.timeLeft == s.timeLeft && r.gameOver == s.gameOver && |r.cards| == |s.cards|
    ensures s.powerUps.Get(kind).active && !s.gameOver && kind == RevealCards ==>
      forall i :: 0 <= i < |s.cards| ==> r.cards[i] == s.cards[i].(isFlipped := true)
    ensures kind != RevealCards ==> r.cards == s.cards
    ensures kind != TimeFreeze ==> r.frozen == s.frozen
    ensures kind != DoublePoints ==> r.multiplier == s.multiplier
    ensures r.(cards := s.cards, frozen := s.frozen, multiplier := s.multiplier, powerUps := s.powerUps) == s
  {
    if !s.powerUps.Get(kind).active || s.gameOver then s
    else
      var s1 :=
        match kind
        case TimeFreeze => s.(frozen := true)
        case RevealCards => s.(cards := seq(|s.cards|, i requires 0 <= i < |s.cards| => s.cards[i].(isFlipped := true)))
        case DoublePoints => s.(multiplier := 2);
      s1.(powerUps := s.powerUps.With(kind, PowerUp(false, PowerUpCooldown)))
  }

  /** The five-second time-freeze timer running out. */
  function Thaw(s: Game): (r: Game)
    ensures !r.frozen && r.(frozen := s.frozen) == s
  {
    s.(frozen := false)
  }

  /** The two-second reveal timer running out: every unmatched card goes face down. */
  function Conceal(s: Game): (r: Game)
    ensures |r.cards| == |s.cards|
    ensures forall i :: 0 <= i < |s.cards| ==>
      r.cards[i] == if s.cards[i].isMatched then s.cards[i] else s.cards[i].(isFlipped := false)
    ensures r.(cards := s.cards) == s
  {
    s.(cards := seq(|s.cards|, i requires 0 <= i < |s.cards| =>
      if s.cards[i].isMatched then s.cards[i] else s.cards[i].(isFlipped := false)))
  }

  /** The ten-second double-points timer running out. */
  function EndDoublePoints(s: Game): (r: Game)
    ensures r.multiplier == 1 && r.(multiplier := s.multiplier) == s
  {
    s.(multiplier := 1)
  }

  // ---------------------------------------------------------------------------
  // Events, the invariant, and what every event preserves
  // ---------------------------------------------------------------------------

  datatype Event =
    | PlayAgain(swaps: seq<(nat, nat)>)
    | PickLevel(level: Level, swaps: seq<(nat, nat)>)
    | SelectCard(cardId: nat)
    | ResolveDelay
    | Second
    | Power(kind: PowerUpKind)
    | FreezeOver
    | RevealOver
    | DoubleOver

  predicate WellFormed(s: Game) {
    && IdsAreIndices(s.cards)
    && (forall k :: 0 <= k < |s.flipped| ==> s.flipped[k] < |s.cards|)
  }

  predicate Applicable(s: Game, e: Event) {
    e.SelectCard? ==> e.cardId < |s.cards|
  }

  function Step(s: Game, e: Event): (r: Game)
    requires WellFormed(s) && Applicable(s, e)
  {
    match e
    case PlayAgain(swaps) => NewGame(s, swaps)
    case PickLevel(level, swaps) => ChooseLevel(s, level, swaps)
    case SelectCard(id) => Click(s, id)
    case ResolveDelay => Resolve(s)
    case Second => Tick(s)
    case Power(kind) => UsePowerUp(s, kind)
    case FreezeOver => Thaw(s)
    case RevealOver => Conceal(s)
    case DoubleOver => EndDoublePoints(s)
  }

  /** A power-up is usable exactly when no cooldown is running, and a cooldown never exceeds 30 seconds. */
  predicate PowerUpOk(p: PowerUp) {
    (p.active <==> p.cooldown == 0) && p.cooldown <= PowerUpCooldown
  }

  /**
   * What holds throughout a game: cards numbered by position, two per pair;
   * at most two distinct face-up picks, none of them matched; a resolution
   * is pending exactly while two are picked, and it names them; the matched
   * cards are exactly two per counted match; the clock never exceeds the
   * difficulty's time; the multiplier is 1 or 2; the cooldowns are coherent.
   */
  predicate Valid(s: Game) {
    && WellFormed(s)
    && |s.cards| == 2 * Config(s.level).pairs
    && |s.flipped| <= 2
    && Distinct(s.flipped)
    && (forall k :: 0 <= k < |s.flipped| ==> !s.cards[s.flipped[k]].isMatched)
    && (s.processing <==> |s.flipped| == 2)
    && (s.pending != NoPending <==> |s.flipped| == 2)
    && (s.pending != NoPending ==> s.pending.first == s.flipped[0] && s.pending.second == s.flipped[1])
    && MatchedCount(s.cards) == 2 * s.matches
    && s.timeLeft <= Config(s.level).time
    && s.multiplier in {1, 2}
    && PowerUpOk(s.powerUps.timeFreeze) && PowerUpOk(s.powerUps.revealCards) && PowerUpOk(s.powerUps.doublePoints)
  }

  lemma NewGameValid(s: Game, swaps: seq<(nat, nat)>)
    ensures Valid(NewGame(s, swaps))
  {
    NoneMatched(NewGame(s, swaps).cards);
  }

  /** Flip flags never affect the matched count. */
  lemma {:induction false} FlipKeepsMatchedCount(cards: seq<Card>, flags: seq<Card>)
    requires |flags| == |cards|
    requires forall k :: 0 <= k < |cards| ==> flags[k].isMatched == cards[k].isMatched
    ensures MatchedCount(flags) == MatchedCount(cards)
    decreases |cards|
  {
    if |cards| > 0 {
      FlipKeepsMatchedCount(cards[..|cards| - 1], flags[..|flags| - 1]);
    }
  }

  lemma SetMatchedCount(cards: seq<Card>, a: nat, b: nat)
    requires IdsAreIndices(cards) && a < |cards| && b < |cards| && a != b
    requires !cards[a].isMatched && !cards[b].isMatched
    ensures MatchedCount(SetMatched(cards, a, b)) == MatchedCount(cards) + 2
    ensures IdsAreIndices(SetMatched(cards, a, b))
  {
    MatchTwoCount(cards, a, b);
    var m := SetMatched(cards, a, b);
    var c2 := cards[a := cards[a].(isMatched := true)][b := cards[b].(isMatched := true)];
    forall k | 0 <= k < |cards| ensures m[k] == c2[k] {
      assert cards[k].id == k;
    }
    assert m == c2;
  }

  lemma ClickValid(s: Game, id: nat)
    requires Valid(s) && id < |s.cards|
    ensures Valid(Click(s, id))
  {
    var r := Click(s, id);
    if Accepts(s, id) {
      FlipKeepsMatchedCount(s.cards, r.cards);
    }
  }

  lemma ResolveValid(s: Game)
    requires Valid(s)
    ensures Valid(Resolve(s))
  {
    match s.pending {
      case NoPending =>
      case PendingMatch(a, b, _, _, _) => MatchSettledValid(s, a, b);
      case PendingMismatch(a, b) => MismatchSettledValid(s, a, b);
    }
  }

  /** Settling a match flags both picks and counts one match; the picks are cleared. */
  lemma MatchSettledValid(s: Game, a: nat, b: nat)
    requires Valid(s) && s.pending.PendingMatch? && s.pending.first == a && s.pending.second == b
    ensures Valid(Resolve(s))
  {
    SetMatchedCount(s.cards, a, b);
  }

  /** Settling a mismatch only turns cards face down. */
  lemma MismatchSettledValid(s: Game, a: nat, b: nat)
    requires Valid(s) && s.pending == PendingMismatch(a, b)
    ensures Valid(Resolve(s))
  {
    FlipKeepsMatchedCount(s.cards, Resolve(s).cards);
  }

  lemma TickValid(s: Game)
    requires Valid(s)
    ensures Valid(Tick(s))
  {
    var r := Tick(s);
    if !(s.gameOver || s.frozen) {
      var newTime := if s.timeLeft > 0 then s.timeLeft - 1 else 0;
      var s1 := s.(timeLeft := newTime);
      var s2 := if newTime == 0 then EndGame(s1, s.matches, 0, s.multiplier) else s1;
      assert s2.cards == s.cards && s2.flipped == s.flipped && s2.multiplier == s.multiplier && s2.level == s.level;
      assert r == s2.(powerUps := CoolDown(s.powerUps));
      assert forall k :: PowerUpOk(s.powerUps.Get(k)) ==> PowerUpOk(CoolDownOne(s.powerUps.Get(k)));
      assert PowerUpOk(r.powerUps.Get(TimeFreeze)) && PowerUpOk(r.powerUps.Get(RevealCards)) && PowerUpOk(r.powerUps.Get(DoublePoints));
    }
  }

  lemma PowerValid(s: Game, kind: PowerUpKind)
    requires Valid(s)
    ensures Valid(UsePowerUp(s, kind))
  {
    var r := UsePowerUp(s, kind);
    if s.powerUps.Get(kind).active && !s.gameOver {
      FlipKeepsMatchedCount(s.cards, r.cards);
      assert PowerUpOk(r.powerUps.Get(TimeFreeze)) && PowerUpOk(r.powerUps.Get(RevealCards)) && PowerUpOk(r.powerUps.Get(DoublePoints));
    }
  }

  /** A picked level starts a valid game, whatever state the old one was in. */
  lemma ChooseLevelValid(s: Game, level: Level, swaps: seq<(nat, nat)>)
    ensures Valid(ChooseLevel(s, level, swaps))
  {
    NewGameValid(s.(level := level), swaps);
  }

  /** Every event keeps a valid game valid. */
  lemma {:induction false} StepValid(s: Game, e: Event)
    requires Valid(s) && Applicable(s, e)
    ensures Valid(Step(s, e))
  {
    match e
    case PlayAgain(swaps) => NewGameValid(s, swaps);
    case PickLevel(level, swaps) => ChooseLevelValid(s, level, swaps);
    case SelectCard(id) => ClickValid(s, id);
    case ResolveDelay => ResolveValid(s);
    case Second => TickValid(s);
    case Power(kind) => PowerValid(s, kind);
    case FreezeOver =>
    case RevealOver => FlipKeepsMatchedCount(s.cards, Conceal(s).cards);
    case DoubleOver =>
  }

  /** In every valid state at most `pairs` matches have been counted. */
  lemma MatchesBounded(s: Game)
    requires Valid(s)
    ensures s.matches <= Config(s.level).pairs
  {
  }

  /** Flipping, matching and revealing change only flags: every event but a restart keeps each card's symbol in place. */
  lemma StepKeepsSymbols(s: Game, e: Event)
    requires WellFormed(s) && Applicable(s, e) && !e.PlayAgain? && !e.PickLevel?
    ensures Emojis(Step(s, e).cards) == Emojis(s.cards)
  {
  }

  /** The stored high score of every difficulty never decreases, whatever happens. */
  lemma {:induction false} BestNeverDecreases(s: Game, e: Event, level: Level)
    requires WellFormed(s) && Applicable(s, e)
    ensures s.best.Get(level) <= Step(s, e).best.Get(level)
  {
    match e
    case PlayAgain(swaps) =>
    case PickLevel(l, swaps) =>
    case SelectCard(id) =>
    case ResolveDelay =>
      match s.pending {
      case NoPending =>
      case PendingMatch(a, b, _, _, _) =>
        var s1 := s.(cards := SetMatched(s.cards, a, b), matches := s.matches + 1);
        if s.matches + 1 == Config(s.level).pairs {
          var s2 := EndGame(s1, s.matches + 1, s.timeLeft, s.multiplier);
          assert s.best.Get(level) <= s2.best.Get(level);
        }
      case PendingMismatch(a, b) =>
      }
    case Second =>
      var s1 := s.(timeLeft := if s.timeLeft > 0 then s.timeLeft - 1 else 0);
      if !(s.gameOver || s.frozen) && s1.timeLeft == 0 {
        var s2 := EndGame(s1, s.matches, 0, s.multiplier);
        assert s.best.Get(level) <= s2.best.Get(level);
      }
    case Power(kind) =>
    case FreezeOver =>
    case RevealOver =>
    case DoubleOver =>
  }

  /** Achievement flags only ever change from false to true. */
  lemma {:induction false} AchievementsOnlyGrow(s: Game, e: Event)
    requires WellFormed(s) && Applicable(s, e)
    ensures Grows(s.achievements, Step(s, e).achievements)
  {
    match e
    case PlayAgain(swaps) =>
    case PickLevel(l, swaps) =>
    case SelectCard(id) =>
    case ResolveDelay =>
      match s.pending {
      case NoPending =>
      case PendingMatch(a, b, _, _, _) =>
        var s1 := s.(cards := SetMatched(s.cards, a, b), matches := s.matches + 1);
        if s.matches + 1 == Config(s.level).pairs {
          var s2 := EndGame(s1, s.matches + 1, s.timeLeft, s.multiplier);
          assert Grows(s.achievements, s2.achievements);
        }
      case PendingMismatch(a, b) =>
      }
    case Second =>
      var s1 := s.(timeLeft := if s.timeLeft > 0 then s.timeLeft - 1 else 0);
      if !(s.gameOver || s.frozen) && s1.timeLeft == 0 {
        var s2 := EndGame(s1, s.matches, 0, s.multiplier);
        assert Grows(s.achievements, s2.achievements);
      }
    case Power(kind) =>
    case FreezeOver =>
    case RevealOver =>
    case DoubleOver =>
  }

  // ---------------------------------------------------------------------------
  // The two scoring discrepancies of the source, exhibited
  // ---------------------------------------------------------------------------

  /**
   * Finishing the last pair: the source's resolution scores one match fewer
   * than were made, because the click that scheduled it saw `pairs - 1`.
   * Shown on a medium game, 8 pairs, whose last pair is clicked with 12
   * seconds left: the source records 1230 where 1380 was earned.
   */
  lemma WinScoreUndercounts(s: Game)
    requires s.level == Medium && s.multiplier == 1 && s.matches == 7 && s.timeLeft == 12
    requires s.pending.PendingMatch? && s.pending.matchesSeen == 7 && s.pending.timeSeen == 12 && s.pending.multiplierSeen == 1
    ensures ResolveAsWritten(s).score == 1230
    ensures Resolve(s).score == 1380
  {
    assert CalculateScore(7, 12, Medium, 1) as real == 820.0 * 1.5;
    assert CalculateScore(8, 12, Medium, 1) as real == 920.0 * 1.5;
  }

  /** With the corrected resolution a won game's score always counts every pair. */
  lemma WinScoreCountsAllPairs(s: Game)
    requires s.pending.PendingMatch? && s.matches + 1 == Config(s.level).pairs
    ensures Resolve(s).score == CalculateScore(Config(s.level).pairs, s.timeLeft, s.level, s.multiplier)
    ensures ResolveAsWritten(s).score + 100 * HalfSteps(s.level) * s.pending.multiplierSeen / 2
         == CalculateScore(s.pending.matchesSeen + 1, s.pending.timeSeen, s.level, s.pending.multiplierSeen)
  {
    var p := s.pending;
    ScoreStep(p.matchesSeen, p.timeSeen, s.level, p.multiplierSeen);
  }

  lemma ScoreStep(m: nat, t: nat, level: Level, x: nat)
    ensures CalculateScore(m, t, level, x) + 100 * HalfSteps(level) * x / 2 == CalculateScore(m + 1, t, level, x)
  {
    var h := HalfSteps(level);
    assert CalculateScore(m, t, level, x) == (50 * m + 5 * t) * h * x;
    assert CalculateScore(m + 1, t, level, x) == (50 * m + 5 * t) * h * x + 50 * h * x;
    assert 100 * h * x == 2 * (50 * h * x);
  }

  /**
   * Running out of time: the source scores the final second as if it were
   * still on the clock. Shown on an easy game with 3 matches and 1 second
   * left: the source records 310 where 300 was earned.
   */
  lemma TimeoutScoreOverstated(s: Game)
    requires s.level == Easy && !s.gameOver && !s.frozen && s.timeLeft == 1 && s.matches == 3 && s.multiplier == 1
    ensures TickAsWritten(s).score == 310
    ensures Tick(s).score == 300
  {
    assert CalculateScore(3, 1, Easy, 1) as real == 310.0;
    assert CalculateScore(3, 0, Easy, 1) as real == 300.0;
  }
}

=== FILE: word_connect.dfy ===
/**
 * The fixed-grid word game of src/games/WordConnect/WordConnectMobile.jsx:
 * a constant 4×4 letter grid, a touch-traced selection, and acceptance of
 * the listed words not yet found. Touches arrive as grid positions (the
 * pixel-to-cell mapping is not modelled); a touch that lands outside every
 * cell's active area is simply not an event here.
 */
module WordConnect {
  import opened Common
  import opened WordGrid

  const Letters: Grid := [
    ["C", "A", "T", "B"],
    ["H", "R", "S", "M"],
    ["A", "T", "A", "T"],
    ["T", "B", "T", "S"]]

  const Size: nat := 4

  /** `validWords`, bucketed by length. */
  const Buckets: seq<set<string>> := [{"CAT", "HAT", "RAT"}, {"BATH", "CHAT", "THAT"}, {"CHART", "HEART"}]

  lemma LettersSquare()
    ensures Square(Letters, Size)
  {
  }

  datatype Connect = Connect(
    currentWord: string,
    selected: seq<Pos>,
    found: seq<string>,
    score: nat,
    streak: nat,
    touchStart: Option<Pos>)

  const Fresh := Connect("", [], [], 0, 0, None)

  /** A touch sequence in progress always has a selection to extend. */
  predicate WellFormed(s: Connect) {
    && AllInBounds(s.selected, Size)
    && (s.touchStart.Some? ==> |s.selected| > 0)
  }

  /**
   * `isAdjacent(newPos, prevPos)`, with the selection it reads: with no
   * previous cell anything goes; otherwise the new cell must be within one
   * row and one column of it and not selected yet. When the previous cell is
   * itself selected, as the last cell of a selection is, this already rules
   * out the previous cell, so `handleTouchMove`'s extra test is redundant.
   */
  function IsAdjacent(selected: seq<Pos>, newPos: Pos, prevPos: Option<Pos>): (r: bool)
    ensures prevPos.None? ==> r
    ensures prevPos.Some? ==>
      (r <==> Chebyshev(prevPos.value, newPos) <= 1 && forall i :: 0 <= i < |selected| ==> selected[i] != newPos)
    ensures r && prevPos.Some? && prevPos.value in selected ==> newPos != prevPos.value
  {
    match prevPos
    case None => true
    case Some(prev) => Near(prev, newPos) && newPos !in selected
  }

  function TouchStart(s: Connect, pos: Pos): (r: Connect)
    requires InBounds(pos, Size)
    ensures r.touchStart == Some(pos) && r.selected == [pos] && r.currentWord == Cell(Letters, pos)
    ensures r.found == s.found && r.score == s.score && r.streak == s.streak
  {
    s.(touchStart := Some(pos), selected := [pos], currentWord := Cell(Letters, pos))
  }

  /** `handleTouchMove`: extends the selection by a cell adjacent to, and different from, its last one. */
  function TouchMove(s: Connect, pos: Pos): (r: Connect)
    requires WellFormed(s) && InBounds(pos, Size)
    ensures s.touchStart.None? ==> r == s
    ensures s.touchStart.Some? ==>
      var last := s.selected[|s.selected| - 1];
      && (Near(last, pos) && pos !in s.selected ==>
            r == s.(selected := s.selected + [pos], currentWord := s.currentWord + Cell(Letters, pos)))
      && (!(Near(last, pos) && pos !in s.selected) ==> r == s)
  {
    if s.touchStart.Some? then
      var last := s.selected[|s.selected| - 1];
      if IsAdjacent(s.selected, pos, Some(last)) && pos != last then
        s.(selected := s.selected + [pos], currentWord := s.currentWord + Cell(Letters, pos))
      else s
    else s
  }

  /** `validateWord`'s test: in some length bucket and not yet found. */
  predicate IsValid(s: Connect) {
    (exists b :: b in Buckets && s.currentWord in b) && s.currentWord !in s.found
  }

  /** `validateWord`: a valid word scores ten points a letter, extends the streak and is recorded; the selection is always cleared. */
  function ValidateWord(s: Connect): (r: Connect)
    ensures IsValid(s) ==>
      r.score == s.score + 10 * |s.currentWord| && r.streak == s.streak + 1 && r.found == s.found + [s.currentWord]
    ensures !IsValid(s) ==> r.score == s.score && r.streak == s.streak && r.found == s.found
    ensures r.currentWord == "" && r.selected == [] && r.touchStart == s.touchStart
  {
    var s1 :=
      if IsValid(s) then s.(score := s.score + |s.currentWord| * 10, found := s.found + [s.currentWord], streak := s.streak + 1)
      else s;
    s1.(currentWord := "", selected := [])
  }

  /**
   * `handleTouchEnd`: validate, then forget the touch. A listed word not
   * found before scores and is recorded once; the selection and the touch
   * are always cleared.
   */
  function TouchEnd(s: Connect): (r: Connect)
    ensures r.touchStart.None? && r.currentWord == "" && r.selected == []
    ensures IsValid(s) ==>
      r.found == s.found + [s.currentWord] && r.score == s.score + 10 * |s.currentWord| && r.streak == s.streak + 1
    ensures !IsValid(s) ==> r.found == s.found && r.score == s.score && r.streak == s.streak
  {
    ValidateWord(s).(touchStart := None)
  }

  /** A word is accepted exactly when it is one of the eight listed words and has not been found before. */
  lemma ValidIffListed(s: Connect)
    ensures IsValid(s) <==>
      s.currentWord in {"CAT", "HAT", "RAT", "BATH", "CHAT", "THAT", "CHART", "HEART"} && s.currentWord !in s.found
  {
    if s.currentWord in {"CAT", "HAT", "RAT"} { assert Buckets[0] in Buckets; }
    if s.currentWord in {"BATH", "CHAT", "THAT"} { assert Buckets[1] in Buckets; }
    if s.currentWord in {"CHART", "HEART"} { assert Buckets[2] in Buckets; }
  }

  /**
   * What every touch sequence keeps: the selection is a path of in-bounds
   * cells spelling the current word; the found words are distinct; the
   * score is ten points per letter found and the streak counts the words.
   */
  predicate Valid(s: Connect) {
    && WellFormed(s)
    && IsPath(s.selected)
    && s.currentWord == Spell(Letters, s.selected)
    && Distinct(s.found)
    && s.score == 10 * SumLengths(s.found)
    && s.streak == |s.found|
  }

  datatype Event = Start(pos: Pos) | Move(pos: Pos) | End

  predicate Applicable(e: Event) {
    match e
    case Start(p) => InBounds(p, Size)
    case Move(p) => InBounds(p, Size)
    case End => true
  }

  function Step(s: Connect, e: Event): Connect
    requires WellFormed(s) && Applicable(e)
  {
    match e
    case Start(p) => TouchStart(s, p)
    case Move(p) => TouchMove(s, p)
    case End => TouchEnd(s)
  }

  lemma FreshValid()
    ensures Valid(Fresh)
  {
  }

  /** Starting a touch selects one cell, which spells that cell's letter. */
  lemma StartValid(s: Connect, p: Pos)
    requires Valid(s) && InBounds(p, Size)
    ensures Valid(TouchStart(s, p))
  {
    LettersSquare();
    assert Spell(Letters, [p]) == Spell(Letters, []) + Cell(Letters, p) by { SpellSnoc(Letters, [], p); }
  }

  /** An accepted move extends both the path and the word it spells. */
  lemma MoveValid(s: Connect, p: Pos)
    requires Valid(s) && InBounds(p, Size)
    ensures Valid(TouchMove(s, p))
  {
    LettersSquare();
    if s.touchStart.Some? {
      var last := s.selected[|s.selected| - 1];
      if Near(last, p) && p !in s.selected {
        ExtendPath(s.selected, p);
        SpellSnoc(Letters, s.selected, p);
      }
    }
  }

  /** Ending a touch records a valid word once, keeping the found words distinct and the score in step. */
  lemma EndValid(s: Connect)
    requires Valid(s)
    ensures Valid(TouchEnd(s))
  {
    if IsValid(s) {
      var ws := s.found + [s.currentWord];
      SumLengthsSnoc(s.found, s.currentWord);
      assert Distinct(ws) by {
        forall i, j | 0 <= i < j < |ws| ensures ws[i] != ws[j] {
          assert ws[i] == s.found[i];
          if j < |s.found| { assert ws[j] == s.found[j]; }
        }
      }
    }
  }

  lemma StepValid(s: Connect, e: Event)
    requires Valid(s) && Applicable(e)
    ensures Valid(Step(s, e))
  {
    match e
    case Start(p) => StartValid(s, p);
    case Move(p) => MoveValid(s, p);
    case End => EndValid(s);
  }

  /** The same word never scores twice: once found, submitting it again changes nothing but the selection. */
  lemma FoundWordScoresOnce(s: Connect)
    requires s.currentWord in s.found
    ensures ValidateWord(s).score == s.score && ValidateWord(s).found == s.found
  {
  }
}

=== FILE: word_grid.dfy ===
/**
 * Square letter grids and the selection paths traced over them, shared by
 * the two word games (src/games/WordConnect/WordPuzzle.jsx and
 * src/games/WordConnect/WordConnectMobile.jsx). A cell holds a string: the
 * empty string while unfilled, otherwise one letter.
 */
module WordGrid {
  import opened Common

  datatype Pos = Pos(row: int, col: int)

  type Grid = seq<seq<string>>

  function Abs(x: int): nat { if x < 0 then -x else x }

  /** The larger of the row and column distances. */
  function Chebyshev(a: Pos, b: Pos): nat {
    Max(Abs(a.row - b.row), Abs(a.col - b.col))
  }

  /** Within one row and one column of each other (`rowDiff <= 1 && colDiff <= 1`). */
  predicate Near(a: Pos, b: Pos) {
    Abs(a.row - b.row) <= 1 && Abs(a.col - b.col) <= 1
  }

  predicate InBounds(p: Pos, size: int) {
    0 <= p.row < size && 0 <= p.col < size
  }

  /** `size` rows of `size` cells each. */
  predicate Square(g: Grid, size: nat) {
    |g| == size && forall r :: 0 <= r < |g| ==> |g[r]| == size
  }

  function Cell(g: Grid, p: Pos): string
    requires Square(g, |g|) && InBounds(p, |g|)
  {
    g[p.row][p.col]
  }

  /** The grid with one cell replaced. */
  function SetCell(g: Grid, p: Pos, v: string): (r: Grid)
    requires Square(g, |g|) && InBounds(p, |g|)
    ensures Square(r, |g|)
    ensures Cell(r, p) == v
    ensures forall q :: InBounds(q, |g|) && q != p ==> Cell(r, q) == Cell(g, q)
  {
    g[p.row := g[p.row][p.col := v]]
  }

  predicate AllInBounds(ps: seq<Pos>, size: int) {
    forall i :: 0 <= i < |ps| ==> InBounds(ps[i], size)
  }

  /** A selection path: no cell twice, each cell a neighbour of the one before it. */
  predicate IsPath(ps: seq<Pos>) {
    && Distinct(ps)
    && forall i :: 0 < i < |ps| ==> Chebyshev(ps[i - 1], ps[i]) == 1
  }

  /** The letters along a selection, concatenated. */
  function Spell(g: Grid, ps: seq<Pos>): string
    requires Square(g, |g|) && AllInBounds(ps, |g|)
  {
    if |ps| == 0 then "" else Spell(g, ps[..|ps| - 1]) + Cell(g, ps[|ps| - 1])
  }

  /** Extending a selection by a cell that is near the last one and not yet in it keeps it a path. */
  lemma ExtendPath(ps: seq<Pos>, p: Pos)
    requires IsPath(ps) && |ps| > 0
    requires Near(ps[|ps| - 1], p) && p !in ps
    ensures IsPath(ps + [p])
  {
    var qs := ps + [p];
    forall i, j | 0 <= i < j < |qs| ensures qs[i] != qs[j] {
      if j < |ps| {
        assert qs[i] == ps[i] && qs[j] == ps[j];
      } else {
        assert qs[i] == ps[i];
      }
    }
    forall i | 0 < i < |qs| ensures Chebyshev(qs[i - 1], qs[i]) == 1 {
      if i < |ps| {
        assert qs[i - 1] == ps[i - 1] && qs[i] == ps[i];
      }
    }
  }

  /** Spelling a selection extended by one cell appends that cell's letter. */
  lemma SpellSnoc(g: Grid, ps: seq<Pos>, p: Pos)
    requires Square(g, |g|) && AllInBounds(ps, |g|) && InBounds(p, |g|)
    ensures Spell(g, ps + [p]) == Spell(g, ps) + Cell(g, p)
  {
    assert (ps + [p])[..|ps|] == ps;
  }

  /** The letters in a list of words, counted with repetition. */
  function SumLengths(ws: seq<string>): nat {
    if |ws| == 0 then 0 else SumLengths(ws[..|ws| - 1]) + |ws[|ws| - 1]|
  }

  /** Appending a word adds its length. */
  lemma SumLengthsSnoc(ws: seq<string>, w: string)
    ensures SumLengths(ws + [w]) == SumLengths(ws) + |w|
  {
    assert (ws + [w])[..|ws|] == ws;
  }
}

=== FILE: word_puzzle.dfy ===
/**
 * The generated-grid word game of src/games/WordConnect/WordPuzzle.jsx:
 * neighbour enumeration, the random-walk word placement, grid generation
 * for a level, and the touch selection with its delayed validation.
 *
 * `Math.random()` choices are inputs: `pickStart(word, attempt)` chooses
 * the start among the empty cells and `pickLetter(row, col)` the filler
 * letter, each reduced modulo the number of choices. The validation's
 * 500 ms pause splits it into `BeginValidate` and `FinishValidate`.
 */
module WordPuzzle {
  import opened Common
  import opened WordGrid

  // ---------------------------------------------------------------------------
  // Levels
  // ---------------------------------------------------------------------------

  datatype Level = Level(masterWord: string, validWords: seq<string>)

  /** `levels[n]`; there are two. */
  function LevelFor(n: int): Option<Level> {
    if n == 1 then Some(Level("MASTER", ["MASTER", "STEAM", "TEAM", "STEM", "MEAT", "SEA", "SAT", "TAR"]))
    else if n == 2 then Some(Level("GARDEN", ["GARDEN", "RANGE", "RAGE", "DEAR", "READ", "END", "EAR"]))
    else None
  }

  // ---------------------------------------------------------------------------
  // Neighbours
  // ---------------------------------------------------------------------------

  /** The eight cells around `pos`, in the order of `getValidNeighbors`' two loops (row offset outer, column inner). */
  function Around(pos: Pos): (r: seq<Pos>)
    ensures |r| == 8
    ensures Distinct(r)
    ensures forall i :: 0 <= i < 8 ==> Chebyshev(pos, r[i]) == 1
  {
    var a, b := pos.row, pos.col;
    [Pos(a - 1, b - 1), Pos(a - 1, b), Pos(a - 1, b + 1),
     Pos(a, b - 1), Pos(a, b + 1),
     Pos(a + 1, b - 1), Pos(a + 1, b), Pos(a + 1, b + 1)]
  }

  /** Every cell one step from `pos` is among the eight. */
  lemma AroundComplete(pos: Pos, q: Pos)
    requires Chebyshev(pos, q) == 1
    ensures q in Around(pos)
  {
    var r := Around(pos);
    var dr, dc := q.row - pos.row, q.col - pos.col;
    if dr == -1 {
      if dc == -1 { assert q == r[0]; } else if dc == 0 { assert q == r[1]; } else { assert q == r[2]; }
    } else if dr == 0 {
      if dc == -1 { assert q == r[3]; } else { assert q == r[4]; }
    } else {
      if dc == -1 { assert q == r[5]; } else if dc == 0 { assert q == r[6]; } else { assert q == r[7]; }
    }
  }

  /** `xs` is `ys` with some elements left out and the rest in their original order. */
  predicate Subsequence<T(==)>(xs: seq<T>, ys: seq<T>)
    decreases |ys|
  {
    if xs == [] then true
    else if ys == [] then false
    else if xs[0] == ys[0] then Subsequence(xs[1..], ys[1..])
    else Subsequence(xs, ys[1..])
  }

  /** The in-bounds cells of `cs`, in order. */
  function KeepInBounds(cs: seq<Pos>, size: int): (r: seq<Pos>)
    ensures |r| <= |cs|
    ensures forall i :: 0 <= i < |r| ==> InBounds(r[i], size) && r[i] in cs
    ensures forall q :: q in cs && InBounds(q, size) ==> q in r
    ensures Subsequence(r, cs)
    ensures Distinct(cs) ==> Distinct(r)
    decreases |cs|
  {
    if |cs| == 0 then []
    else
      var rest := KeepInBounds(cs[1..], size);
      assert forall q :: q in cs ==> q == cs[0] || q in cs[1..];
      assert Distinct(cs) ==> cs[0] !in rest by {
        if Distinct(cs) {
          assert cs[0] !in cs[1..];
        }
      }
      if InBounds(cs[0], size) then
        var r := [cs[0]] + rest;
        assert r[1..] == rest;
        r
      else
        assert rest != [] ==> rest[0] != cs[0] by {
          if rest != [] { assert InBounds(rest[0], size); }
        }
        rest
  }

  /**
   * `getValidNeighbors(pos, size)`: exactly the in-bounds cells one step
   * away in some direction, each once, `pos` itself never among them.
   */
  function Neighbors(pos: Pos, size: int): (r: seq<Pos>)
    ensures |r| <= 8
    ensures Distinct(r)
    ensures forall i :: 0 <= i < |r| ==> InBounds(r[i], size) && Chebyshev(pos, r[i]) == 1
    ensures forall q :: InBounds(q, size) && Chebyshev(pos, q) == 1 ==> q in r
  {
    var r := KeepInBounds(Around(pos), size);
    forall q | InBounds(q, size) && Chebyshev(pos, q) == 1 ensures q in r {
      AroundComplete(pos, q);
    }
    r
  }

  predicate Fits(g: Grid, p: Pos, avoid: seq<Pos>)
    requires Square(g, |g|) && InBounds(p, |g|)
  {
    Cell(g, p) == "" && p !in avoid
  }

  /** The index of the first candidate that is empty and not to be avoided. */
  function FirstFit(g: Grid, ns: seq<Pos>, avoid: seq<Pos>): (r: Option<nat>)
    requires Square(g, |g|) && AllInBounds(ns, |g|)
    ensures r.Some? ==> r.value < |ns| && Fits(g, ns[r.value], avoid) && forall j :: 0 <= j < r.value ==> !Fits(g, ns[j], avoid)
    ensures r.None? ==> forall j :: 0 <= j < |ns| ==> !Fits(g, ns[j], avoid)
    decreases |ns|
  {
    if |ns| == 0 then None
    else if Fits(g, ns[0], avoid) then Some(0)
    else match FirstFit(g, ns[1..], avoid)
      case None => None
      case Some(k) => Some(k + 1)
  }

  /** `findEmptyNeighbor(pos, grid)`: the first neighbour, in loop order, whose cell is empty. */
  function FindEmptyNeighbor(pos: Pos, g: Grid): (r: Option<Pos>)
    requires Square(g, |g|)
    ensures r.Some? ==> Chebyshev(pos, r.value) == 1 && InBounds(r.value, |g|) && Cell(g, r.value) == ""
    ensures r.Some? ==> exists k :: 0 <= k < |Neighbors(pos, |g|)| && Neighbors(pos, |g|)[k] == r.value
                           && forall j :: 0 <= j < k ==> Cell(g, Neighbors(pos, |g|)[j]) != ""
    ensures r.None? ==> forall q :: InBounds(q, |g|) && Chebyshev(pos, q) == 1 ==> Cell(g, q) != ""
  {
    var ns := Neighbors(pos, |g|);
    match FirstFit(g, ns, [])
    case None => None
    case Some(k) => Some(ns[k])
  }


  /** The first in-bounds candidate is the first neighbour `KeepInBounds` keeps. */
  lemma {:induction false} FirstInBounds(cs: seq<Pos>, size: int, j: nat)
    requires j < |cs| && InBounds(cs[j], size)
    requires forall i :: 0 <= i < j ==> !InBounds(cs[i], size)
    ensures |KeepInBounds(cs, size)| > 0 && KeepInBounds(cs, size)[0] == cs[j]
    decreases j
  {
    if j > 0 {
      FirstInBounds(cs[1..], size, j - 1);
    }
  }

  /** When the first neighbour is empty, it is the one found. */
  lemma FirstNeighborEmpty(pos: Pos, g: Grid)
    requires Square(g, |g|)
    requires |Neighbors(pos, |g|)| > 0 && Cell(g, Neighbors(pos, |g|)[0]) == ""
    ensures FindEmptyNeighbor(pos, g) == Some(Neighbors(pos, |g|)[0])
  {
    var ns := Neighbors(pos, |g|);
    assert Fits(g, ns[0], []);
  }

  // ---------------------------------------------------------------------------
  // Placing a word
  // ---------------------------------------------------------------------------

  /** Consecutive positions are neighbours, starting from `from`. */
  predicate StepsFrom(from: Pos, ps: seq<Pos>) {
    && (|ps| > 0 ==> Chebyshev(from, ps[0]) == 1)
    && forall i :: 0 < i < |ps| ==> Chebyshev(ps[i - 1], ps[i]) == 1
  }

  predicate AllEmpty(g: Grid, ps: seq<Pos>)
    requires Square(g, |g|) && AllInBounds(ps, |g|)
  {
    forall i :: 0 <= i < |ps| ==> Cell(g, ps[i]) == ""
  }

  /** After the first position, each one is a neighbour of the one before it and was empty in `g`. */
  predicate EmptySteps(g: Grid, ps: seq<Pos>)
    requires Square(g, |g|) && AllInBounds(ps, |g|)
  {
    forall i :: 0 < i < |ps| ==> Chebyshev(ps[i - 1], ps[i]) == 1 && Cell(g, ps[i]) == ""
  }

  predicate Avoids(ps: seq<Pos>, used: seq<Pos>) {
    forall i :: 0 <= i < |ps| ==> ps[i] !in used
  }

  /** Every cell off `ps` holds what it held in `g`. */
  ghost predicate KeepsOthers(r: Grid, g: Grid, ps: seq<Pos>)
    requires Square(g, |g|) && Square(r, |g|)
  {
    forall q :: InBounds(q, |g|) && q !in ps ==> Cell(r, q) == Cell(g, q)
  }

  /** No position after the `i`-th is the same cell. */
  predicate LastVisit(ps: seq<Pos>, i: nat)
    requires i < |ps|
  {
    ps[i] !in ps[i + 1..]
  }

  /** Letter `i` of `w` is at `ps[i]`, unless a later position revisits that cell. */
  predicate LastWriteWins(r: Grid, ps: seq<Pos>, w: string)
    requires Square(r, |r|) && AllInBounds(ps, |r|) && |w| <= |ps|
  {
    forall i :: 0 <= i < |w| && LastVisit(ps, i) ==> Cell(r, ps[i]) == [w[i]]
  }

  /** The walk `placeWord` takes: `k` times, the first empty neighbour of the current cell. */
  function WalkAsWritten(g: Grid, cur: Pos, k: nat): (r: Option<seq<Pos>>)
    requires Square(g, |g|) && InBounds(cur, |g|)
    ensures r.Some? ==> |r.value| == k && AllInBounds(r.value, |g|) && StepsFrom(cur, r.value) && AllEmpty(g, r.value)
    decreases k
  {
    if k == 0 then Some([])
    else match FindEmptyNeighbor(cur, g)
      case None => None
      case Some(nx) =>
        match WalkAsWritten(g, nx, k - 1)
        case None => None
        case Some(rest) => WalkCons(g, cur, nx, rest); Some([nx] + rest)
  }

  /** An empty neighbour in front of a walk from it is a walk from the current cell. */
  lemma WalkCons(g: Grid, cur: Pos, nx: Pos, rest: seq<Pos>)
    requires Square(g, |g|) && InBounds(nx, |g|) && Chebyshev(cur, nx) == 1 && Cell(g, nx) == ""
    requires AllInBounds(rest, |g|) && StepsFrom(nx, rest) && AllEmpty(g, rest)
    ensures AllInBounds([nx] + rest, |g|) && StepsFrom(cur, [nx] + rest) && AllEmpty(g, [nx] + rest)
  {
    var r := [nx] + rest;
    forall i | 0 < i < |r| ensures r[i] == rest[i - 1] { }
  }

  /** Putting the start in front of a walk from it gives a sequence of empty neighbouring steps. */
  lemma ConsSteps(g: Grid, start: Pos, rest: seq<Pos>)
    requires Square(g, |g|) && InBounds(start, |g|) && AllInBounds(rest, |g|)
    requires StepsFrom(start, rest) && AllEmpty(g, rest)
    ensures AllInBounds([start] + rest, |g|) && EmptySteps(g, [start] + rest)
  {
    var ps := [start] + rest;
    forall i | 0 < i < |ps| ensures Chebyshev(ps[i - 1], ps[i]) == 1 && Cell(g, ps[i]) == "" {
      assert ps[i] == rest[i - 1];
      if i > 1 { assert ps[i - 1] == rest[i - 2]; }
    }
  }

  /** Writes `w[i]` at `ps[i]` for each `i` in order; a later write to the same cell wins. */
  function WriteLetters(g: Grid, ps: seq<Pos>, w: string): (r: Grid)
    requires Square(g, |g|) && AllInBounds(ps, |g|) && |ps| == |w|
    ensures Square(r, |g|)
    ensures KeepsOthers(r, g, ps)
    ensures LastWriteWins(r, ps, w)
    decreases |ps|
  {
    if |ps| == 0 then g
    else
      var n := |ps|;
      var before := WriteLetters(g, ps[..n - 1], w[..n - 1]);
      var r := SetCell(before, ps[n - 1], [w[n - 1]]);
      forall i | 0 <= i < n && LastVisit(ps, i) ensures Cell(r, ps[i]) == [w[i]] {
        if i < n - 1 {
          assert ps[n - 1] in ps[i + 1..];
          assert ps[..n - 1][i] == ps[i] && ps[..n - 1][i + 1..] == ps[i + 1..n - 1];
          assert LastVisit(ps[..n - 1], i);
        }
      }
      forall q | InBounds(q, |g|) && q !in ps ensures Cell(r, q) == Cell(g, q) {
        assert q !in ps[..n - 1];
      }
      r
  }

  /** Writing a word along the first `|w|` of `ps`, stated in terms of all of `ps`. */
  lemma WritePrefix(g: Grid, ps: seq<Pos>, w: string)
    requires Square(g, |g|) && AllInBounds(ps, |g|) && |w| <= |ps|
    ensures Square(WriteLetters(g, ps[..|w|], w), |g|)
    ensures KeepsOthers(WriteLetters(g, ps[..|w|], w), g, ps)
    ensures LastWriteWins(WriteLetters(g, ps[..|w|], w), ps, w)
  {
    var written := ps[..|w|];
    var r := WriteLetters(g, written, w);
    forall q | InBounds(q, |g|) && q !in ps ensures Cell(r, q) == Cell(g, q) {
      assert q !in written;
    }
    forall i | 0 <= i < |w| && LastVisit(ps, i) ensures Cell(r, ps[i]) == [w[i]] {
      assert written[i] == ps[i];
      assert written[i + 1..] == ps[i + 1..|w|];
      assert LastVisit(written, i);
    }
  }

  /** What `placeWord` returns alongside the grid it mutated: `null` becomes `None`. */
  datatype Placement = Placement(grid: Grid, positions: Option<seq<Pos>>)

  /**
   * `placeWord(word, grid, startPos)` as written: `max(1, |word|)` positions
   * from `startPos`, each the first empty neighbour of the one before it in
   * the grid as it was before any letter is written. Nothing is written
   * unless every step finds a cell. Since the walk never marks the cells it
   * has chosen, it can step back onto one of them, and a later letter then
   * overwrites an earlier one.
   */
  function PlaceWordAsWritten(word: string, g: Grid, start: Pos): (r: Placement)
    requires Square(g, |g|) && InBounds(start, |g|)
    ensures r.positions.None? || |word| == 0 ==> r.grid == g
    ensures Square(r.grid, |g|)
    ensures r.positions.Some? ==>
      var ps := r.positions.value;
      && |ps| == Max(1, |word|) && ps[0] == start && AllInBounds(ps, |g|)
      && EmptySteps(g, ps)
      && KeepsOthers(r.grid, g, ps)
      && LastWriteWins(r.grid, ps, word)
  {
    var k := if |word| > 0 then |word| - 1 else 0;
    match WalkAsWritten(g, start, k)
    case None => Placement(g, None)
    case Some(rest) =>
      var ps := [start] + rest;
      ConsSteps(g, start, rest);
      WritePrefix(g, ps, word);
      Placement(WriteLetters(g, ps[..|word|], word), Some(ps))
  }

  /** Putting a fitting neighbour in front of a walk that avoids it keeps the walk fitting and repetition-free. */
  lemma ConsFree(g: Grid, cur: Pos, nx: Pos, rest: seq<Pos>, used: seq<Pos>)
    requires Square(g, |g|) && InBounds(nx, |g|) && Chebyshev(cur, nx) == 1 && Fits(g, nx, used)
    requires AllInBounds(rest, |g|) && StepsFrom(nx, rest) && AllEmpty(g, rest)
    requires Avoids(rest, used + [nx]) && Distinct(rest)
    ensures AllInBounds([nx] + rest, |g|) && StepsFrom(cur, [nx] + rest) && AllEmpty(g, [nx] + rest)
    ensures Avoids([nx] + rest, used) && Distinct([nx] + rest)
  {
    var r := [nx] + rest;
    forall i | 0 <= i < |r| ensures InBounds(r[i], |g|) && Cell(g, r[i]) == "" && r[i] !in used {
      if i > 0 {
        assert r[i] == rest[i - 1];
        assert rest[i - 1] !in used + [nx];
      }
    }
    forall i | 0 < i < |r| ensures Chebyshev(r[i - 1], r[i]) == 1 {
      assert r[i] == rest[i - 1];
      if i > 1 { assert r[i - 1] == rest[i - 2]; }
    }
    forall a, b | 0 <= a < b < |r| ensures r[a] != r[b] {
      assert r[b] == rest[b - 1];
      assert rest[b - 1] !in used + [nx];
      if a > 0 { assert r[a] == rest[a - 1]; }
    }
  }

  /** The walk with every chosen cell marked as used, so it never steps back. */
  function WalkFree(g: Grid, cur: Pos, k: nat, used: seq<Pos>): (r: Option<seq<Pos>>)
    requires Square(g, |g|) && InBounds(cur, |g|)
    ensures r.Some? ==> |r.value| == k && AllInBounds(r.value, |g|) && StepsFrom(cur, r.value)
    ensures r.Some? ==> AllEmpty(g, r.value) && Avoids(r.value, used) && Distinct(r.value)
    decreases k
  {
    if k == 0 then Some([])
    else
      var ns := Neighbors(cur, |g|);
      match FirstFit(g, ns, used)
      case None => None
      case Some(j) =>
        var nx := ns[j];
        match WalkFree(g, nx, k - 1, used + [nx])
        case None => None
        case Some(rest) =>
          ConsFree(g, cur, nx, rest, used);
          Some([nx] + rest)
  }

  /** Letters sitting along `ps` read back as the word. */
  lemma {:induction false} ReadBack(r: Grid, ps: seq<Pos>, w: string)
    requires Square(r, |r|) && AllInBounds(ps, |r|) && |ps| == |w|
    requires forall i :: 0 <= i < |ps| ==> Cell(r, ps[i]) == [w[i]]
    ensures Spell(r, ps) == w
    decreases |ps|
  {
    if |ps| > 0 {
      var n := |ps|;
      ReadBack(r, ps[..n - 1], w[..n - 1]);
      assert w == w[..n - 1] + [w[n - 1]];
    }
  }

  /** A start followed by a walk avoiding it is a selection path. */
  lemma StartPath(start: Pos, rest: seq<Pos>)
    requires StepsFrom(start, rest) && Avoids(rest, [start]) && Distinct(rest)
    ensures IsPath([start] + rest)
  {
    var ps := [start] + rest;
    forall a, b | 0 <= a < b < |ps| ensures ps[a] != ps[b] {
      assert ps[b] == rest[b - 1];
      if a > 0 { assert ps[a] == rest[a - 1]; }
    }
    forall i | 0 < i < |ps| ensures Chebyshev(ps[i - 1], ps[i]) == 1 {
      assert ps[i] == rest[i - 1];
      if i > 1 { assert ps[i - 1] == rest[i - 2]; }
    }
  }

  /** On a path nothing is revisited, so every letter survives and the word reads back. */
  lemma PathKeepsLetters(r: Grid, ps: seq<Pos>, w: string)
    requires Square(r, |r|) && AllInBounds(ps, |r|) && |w| == |ps| && Distinct(ps)
    requires LastWriteWins(r, ps, w)
    ensures forall i :: 0 <= i < |w| ==> Cell(r, ps[i]) == [w[i]]
    ensures Spell(r, ps) == w
  {
    forall i | 0 <= i < |w| ensures Cell(r, ps[i]) == [w[i]] {
      assert LastVisit(ps, i);
    }
    ReadBack(r, ps, w);
  }

  /**
   * `placeWord` with the walk kept off the cells it has already chosen: the
   * positions form a selection path from `startPos`, all of them empty
   * beforehand, and the word can be read back along them.
   */
  function PlaceWord(word: string, g: Grid, start: Pos): (r: Placement)
    requires Square(g, |g|) && InBounds(start, |g|)
    ensures r.positions.None? ==> r.grid == g
    ensures Square(r.grid, |g|)
    ensures r.positions.Some? ==>
      var ps := r.positions.value;
      && |ps| == Max(1, |word|) && ps[0] == start && AllInBounds(ps, |g|)
      && IsPath(ps)
      && EmptySteps(g, ps)
      && KeepsOthers(r.grid, g, ps)
      && (forall i :: 0 <= i < |word| ==> Cell(r.grid, ps[i]) == [word[i]])
      && (|word| > 0 ==> Spell(r.grid, ps) == word)
      && (|word| == 0 ==> r.grid == g)
  {
    var k := if |word| > 0 then |word| - 1 else 0;
    match WalkFree(g, start, k, [start])
    case None => Placement(g, None)
    case Some(rest) =>
      var ps := [start] + rest;
      ConsSteps(g, start, rest);
      StartPath(start, rest);
      WritePrefix(g, ps, word);
      var r := WriteLetters(g, ps[..|word|], word);
      assert (forall i :: 0 <= i < |word| ==> Cell(r, ps[i]) == [word[i]]) && (|word| > 0 ==> Spell(r, ps) == word) by {
        if |word| > 0 { PathKeepsLetters(r, ps, word); }
      }
      Placement(r, Some(ps))
  }

  /** A grid of `size` rows of `size` cells, all of them empty. */
  predicate Blank(g: Grid, size: nat) {
    Square(g, size) && forall r, c :: 0 <= r < size && 0 <= c < size ==> g[r][c] == ""
  }

  function EmptyGrid(size: nat): (g: Grid)
    ensures Blank(g, size)
  {
    seq(size, _ => seq(size, _ => ""))
  }

  /** On an empty 4×4 grid the first empty neighbour of the corner is the cell to its right. */
  lemma CornerFirst(g: Grid)
    requires Blank(g, 4)
    ensures FindEmptyNeighbor(Pos(0, 0), g) == Some(Pos(0, 1))
  {
    var cs := Around(Pos(0, 0));
    assert cs[4] == Pos(0, 1);
    FirstInBounds(cs, 4, 4);
    assert Neighbors(Pos(0, 0), 4)[0] == Pos(0, 1);
    FirstNeighborEmpty(Pos(0, 0), g);
  }

  /** ... and the first empty neighbour of that cell is the corner again. */
  lemma EdgeFirst(g: Grid)
    requires Blank(g, 4)
    ensures FindEmptyNeighbor(Pos(0, 1), g) == Some(Pos(0, 0))
  {
    var cs := Around(Pos(0, 1));
    assert cs[3] == Pos(0, 0);
    FirstInBounds(cs, 4, 3);
    assert Neighbors(Pos(0, 1), 4)[0] == Pos(0, 0);
    FirstNeighborEmpty(Pos(0, 1), g);
  }

  /** One step of the unmarked walk. */
  lemma WalkStep(g: Grid, cur: Pos, nx: Pos, k: nat, rest: seq<Pos>)
    requires Square(g, |g|) && InBounds(cur, |g|) && k > 0
    requires FindEmptyNeighbor(cur, g) == Some(nx) && InBounds(nx, |g|)
    requires WalkAsWritten(g, nx, k - 1) == Some(rest)
    ensures WalkAsWritten(g, cur, k) == Some([nx] + rest)
  {
  }

  /** The unmarked walk of one step from that cell reaches the corner ... */
  lemma EdgeWalk(g: Grid)
    requires Blank(g, 4)
    ensures WalkAsWritten(g, Pos(0, 1), 1) == Some([Pos(0, 0)])
  {
    EdgeFirst(g);
    assert WalkAsWritten(g, Pos(0, 0), 0) == Some([]);
    WalkStep(g, Pos(0, 1), Pos(0, 0), 1, []);
    assert [Pos(0, 0)] + [] == [Pos(0, 0)];
  }

  /** ... so the unmarked walk of two steps from the corner goes right and comes back. */
  lemma CornerWalk(g: Grid)
    requires Blank(g, 4)
    ensures WalkAsWritten(g, Pos(0, 0), 2) == Some([Pos(0, 1), Pos(0, 0)])
  {
    CornerFirst(g);
    EdgeWalk(g);
    WalkStep(g, Pos(0, 0), Pos(0, 1), 2, [Pos(0, 0)]);
    assert [Pos(0, 1)] + [Pos(0, 0)] == [Pos(0, 1), Pos(0, 0)];
  }

  /** Writing a three-letter word along a walk that returns to its start leaves the last letter at the start and the middle one beside it. */
  lemma RevisitCells(r: Grid, a: Pos, b: Pos, word: string)
    requires Square(r, |r|) && InBounds(a, |r|) && InBounds(b, |r|) && a != b && |word| == 3
    requires LastWriteWins(r, [a, b, a], word)
    ensures Cell(r, b) == [word[1]] && Cell(r, a) == [word[2]]
  {
    var ps := [a, b, a];
    assert LastVisit(ps, 1) && LastVisit(ps, 2);
  }

  /** Those two cells, read along the walk, spell last, middle, last. */
  lemma SpellRevisit(r: Grid, a: Pos, b: Pos, x: char, y: char)
    requires Square(r, |r|) && InBounds(a, |r|) && InBounds(b, |r|)
    requires Cell(r, a) == [x] && Cell(r, b) == [y]
    ensures Spell(r, [a, b, a]) == [x, y, x]
  {
    SpellSnoc(r, [], a);
    assert [] + [a] == [a];
    assert Spell(r, [a]) == [x];
    SpellSnoc(r, [a], b);
    assert [a] + [b] == [a, b];
    assert Spell(r, [a, b]) == [x, y];
    SpellSnoc(r, [a, b], a);
    assert [a, b] + [a] == [a, b, a];
  }

  /** A successful unmarked walk is where the word goes, behind its start. */
  lemma PlacedAlongWalk(word: string, g: Grid, start: Pos, rest: seq<Pos>)
    requires Square(g, |g|) && InBounds(start, |g|) && |word| > 0
    requires WalkAsWritten(g, start, |word| - 1) == Some(rest)
    ensures PlaceWordAsWritten(word, g, start).positions == Some([start] + rest)
  {
  }

  /** Where a three-letter word goes when placed from the corner of an empty 4×4 grid by the unmarked walk. */
  lemma RevisitPositions(word: string, g: Grid)
    requires Blank(g, 4) && |word| == 3
    ensures PlaceWordAsWritten(word, g, Pos(0, 0)).positions == Some([Pos(0, 0), Pos(0, 1), Pos(0, 0)])
  {
    CornerWalk(g);
    WalkPlaces(word, g, Pos(0, 0), Pos(0, 1));
  }

  /** A three-letter word follows a two-step walk that goes out and back. */
  lemma WalkPlaces(word: string, g: Grid, a: Pos, b: Pos)
    requires Square(g, |g|) && InBounds(a, |g|) && |word| == 3
    requires WalkAsWritten(g, a, 2) == Some([b, a])
    ensures PlaceWordAsWritten(word, g, a).positions == Some([a, b, a])
  {
    PlacedAlongWalk(word, g, a, [b, a]);
    assert [a] + [b, a] == [a, b, a];
  }

  /**
   * Placing a three-letter word from the top-left corner of an empty 4×4
   * grid: the walk returns to the corner, the last letter overwrites the
   * first, and the cells spell last, middle, last.
   */
  lemma PlaceWordRevisits(word: string, g: Grid)
    requires Blank(g, 4) && |word| == 3
    ensures PlaceWordAsWritten(word, g, Pos(0, 0)).positions == Some([Pos(0, 0), Pos(0, 1), Pos(0, 0)])
    ensures Spell(PlaceWordAsWritten(word, g, Pos(0, 0)).grid, [Pos(0, 0), Pos(0, 1), Pos(0, 0)])
      == [word[2], word[1], word[2]]
    ensures word[0] != word[2] ==>
      Spell(PlaceWordAsWritten(word, g, Pos(0, 0)).grid, [Pos(0, 0), Pos(0, 1), Pos(0, 0)]) != word
  {
    RevisitPositions(word, g);
    RevisitSpells(word, g, Pos(0, 0), Pos(0, 1));
  }

  /** A three-letter word placed along an out-and-back walk reads back last, middle, last. */
  lemma RevisitSpells(word: string, g: Grid, a: Pos, b: Pos)
    requires Square(g, |g|) && InBounds(a, |g|) && InBounds(b, |g|) && a != b && |word| == 3
    requires PlaceWordAsWritten(word, g, a).positions == Some([a, b, a])
    ensures Spell(PlaceWordAsWritten(word, g, a).grid, [a, b, a]) == [word[2], word[1], word[2]]
  {
    var r := PlaceWordAsWritten(word, g, a).grid;
    RevisitCells(r, a, b, word);
    SpellRevisit(r, a, b, word[2], word[1]);
  }

  // ---------------------------------------------------------------------------
  // Generating a level's grid
  // ---------------------------------------------------------------------------

  const MaxAttempts: nat := 50
  const Alphabet: string := "ABCDEFGHIJKLMNOPQRSTUVWXYZ"

  /** The least `r >= k` whose square reaches `n`. */
  function CeilSqrtFrom(n: nat, k: nat): (r: nat)
    requires k == 0 || (k - 1) * (k - 1) < n
    ensures r * r >= n
    ensures r == 0 || (r - 1) * (r - 1) < n
    decreases n + 1 - k
  {
    if k * k >= n then k
    else
      assert k < n by {
        if k > 0 { assert k <= k * k; }
      }
      CeilSqrtFrom(n, k + 1)
  }

  /** `Math.max(4, Math.ceil(Math.sqrt(masterWord.length + 4)))`. */
  function GridSize(masterLength: nat): (size: nat)
    ensures size >= 4
    ensures size * size >= masterLength + 4
    ensures size == 4 || (size - 1) * (size - 1) < masterLength + 4
  {
    Max(4, CeilSqrtFrom(masterLength + 4, 0))
  }

  lemma SquareMono(a: nat, b: nat)
    requires b <= a
    ensures b * b <= a * a
  {
    assert b * b <= a * b;
  }

  /** A master word of up to twelve letters gets the smallest grid, four by four. */
  lemma ShortMasterFourByFour(masterLength: nat)
    requires masterLength <= 12
    ensures GridSize(masterLength) == 4
  {
    var c := CeilSqrtFrom(masterLength + 4, 0);
    if c > 4 {
      SquareMono(c - 1, 4);
    }
  }

  /** The empty cells of row `row` from column `col` on, left to right. */
  function EmptyInRow(g: Grid, row: nat, col: nat): (r: seq<Pos>)
    requires Square(g, |g|) && row < |g| && col <= |g|
    ensures forall i :: 0 <= i < |r| ==> r[i].row == row && col <= r[i].col < |g| && g[row][r[i].col] == ""
    ensures forall c :: col <= c < |g| && g[row][c] == "" ==> Pos(row, c) in r
    decreases |g| - col
  {
    if col == |g| then []
    else (if g[row][col] == "" then [Pos(row, col)] else []) + EmptyInRow(g, row, col + 1)
  }

  /** The empty cells of the rows from `row` on, in row-major order. */
  function EmptyFromRow(g: Grid, row: nat): (r: seq<Pos>)
    requires Square(g, |g|) && row <= |g|
    ensures AllInBounds(r, |g|) && AllEmpty(g, r)
    ensures forall q :: InBounds(q, |g|) && row <= q.row && Cell(g, q) == "" ==> q in r
    decreases |g| - row
  {
    if row == |g| then []
    else
      var here := EmptyInRow(g, row, 0);
      var rest := EmptyFromRow(g, row + 1);
      assert forall q :: InBounds(q, |g|) && row == q.row && Cell(g, q) == "" ==> q in here;
      here + rest
  }

  /** `emptyPositions`: exactly the empty cells. */
  function EmptyCells(g: Grid): (r: seq<Pos>)
    requires Square(g, |g|)
    ensures AllInBounds(r, |g|) && AllEmpty(g, r)
    ensures forall q :: InBounds(q, |g|) && Cell(g, q) == "" ==> q in r
  {
    EmptyFromRow(g, 0)
  }

  /** Every filled cell of `g` holds the same in `r`. */
  ghost predicate Extends(r: Grid, g: Grid)
    requires Square(g, |g|) && Square(r, |g|)
  {
    forall q :: InBounds(q, |g|) && Cell(g, q) != "" ==> Cell(r, q) == Cell(g, q)
  }

  /** Every cell of `r` is as in `g` or holds one letter from `chars`. */
  predicate WrittenFrom(r: Grid, g: Grid, chars: set<char>)
    requires Square(g, |g|) && Square(r, |g|)
  {
    forall row, col :: 0 <= row < |g| && 0 <= col < |g| ==>
      r[row][col] == g[row][col] || (|r[row][col]| == 1 && r[row][col][0] in chars)
  }

  function CharsOf(words: seq<string>): (r: set<char>)
    ensures forall i, j :: 0 <= i < |words| && 0 <= j < |words[i]| ==> words[i][j] in r
  {
    set i, j | 0 <= i < |words| && 0 <= j < |words[i]| :: words[i][j]
  }

  /** Some position holds `q` and no later one does. */
  lemma {:induction false} LastVisitOf(ps: seq<Pos>, q: Pos) returns (i: nat)
    requires q in ps
    ensures i < |ps| && ps[i] == q && LastVisit(ps, i)
    decreases |ps|
  {
    var n := |ps|;
    if ps[n - 1] == q {
      i := n - 1;
    } else {
      i := LastVisitOf(ps[..n - 1], q);
      assert ps[i + 1..] == ps[..n - 1][i + 1..] + [ps[n - 1]];
    }
  }

  /** A walk written with `w`, last write winning, changes each of its cells to a letter of `w`. */
  lemma LettersAfterWalk(g: Grid, r: Grid, ps: seq<Pos>, w: string, chars: set<char>)
    requires Square(g, |g|) && Square(r, |g|) && AllInBounds(ps, |g|) && |w| <= |ps|
    requires KeepsOthers(r, g, ps) && LastWriteWins(r, ps, w)
    requires forall j :: 0 <= j < |w| ==> w[j] in chars
    requires |w| == 0 ==> r == g
    requires |w| > 0 ==> |ps| == |w|
    ensures WrittenFrom(r, g, chars)
  {
    if |w| > 0 {
      forall row, col | 0 <= row < |g| && 0 <= col < |g|
        ensures r[row][col] == g[row][col] || (|r[row][col]| == 1 && r[row][col][0] in chars)
      {
        var q := Pos(row, col);
        if q in ps {
          var i := LastVisitOf(ps, q);
          assert Cell(r, ps[i]) == [w[i]];
        } else {
          assert Cell(r, q) == Cell(g, q);
        }
      }
    }
  }

  /**
   * The attempts for one word as written, each calling `placeWord` as
   * written: up to fifty, from an empty cell chosen by
   * `pickStart(wordIndex, attempt)`, stopping when no cell is empty. A
   * success writes only into empty cells and only letters of the word, but
   * the word need not read back along the returned positions.
   */
  function TryPlaceAsWritten(g: Grid, word: string, wordIndex: nat, attempt: nat, pickStart: (nat, nat) -> nat): (r: Placement)
    requires Square(g, |g|)
    ensures Square(r.grid, |g|)
    ensures r.positions.None? ==> r.grid == g
    ensures r.positions.Some? ==>
      var ps := r.positions.value;
      && |ps| == Max(1, |word|) && AllInBounds(ps, |g|)
      && AllEmpty(g, ps)
      && KeepsOthers(r.grid, g, ps)
      && LastWriteWins(r.grid, ps, word)
    ensures Extends(r.grid, g)
    ensures WrittenFrom(r.grid, g, CharsOf([word]))
    decreases MaxAttempts - attempt
  {
    if attempt >= MaxAttempts then Placement(g, None)
    else
      var empties := EmptyCells(g);
      if |empties| == 0 then Placement(g, None)
      else
        var start := empties[pickStart(wordIndex, attempt) % |empties|];
        var p := PlaceWordAsWritten(word, g, start);
        if p.positions.Some? then
          var ps := p.positions.value;
          assert AllEmpty(g, ps) by {
            forall i | 0 <= i < |ps| ensures Cell(g, ps[i]) == "" {
              if i == 0 { assert ps[0] == start; }
            }
          }
          PlacementExtends(g, p.grid, ps);
          assert forall j :: 0 <= j < |word| ==> word[j] in CharsOf([word]) by {
            forall j | 0 <= j < |word| ensures word[j] in CharsOf([word]) {
              assert [word][0][j] == word[j];
            }
          }
          LettersAfterWalk(g, p.grid, ps, word, CharsOf([word]));
          p
        else TryPlaceAsWritten(g, word, wordIndex, attempt + 1, pickStart)
  }

  /**
   * The attempts for one word with the corrected `placeWord`: up to fifty,
   * each from an empty cell chosen by `pickStart(wordIndex, attempt)`; the
   * loop also stops when no cell is empty. A failed attempt writes nothing.
   */
  function TryPlace(g: Grid, word: string, wordIndex: nat, attempt: nat, pickStart: (nat, nat) -> nat): (r: Placement)
    requires Square(g, |g|)
    ensures Square(r.grid, |g|)
    ensures r.positions.None? ==> r.grid == g
    ensures r.positions.Some? ==>
      var ps := r.positions.value;
      && |ps| == Max(1, |word|) && AllInBounds(ps, |g|) && IsPath(ps)
      && AllEmpty(g, ps)
      && KeepsOthers(r.grid, g, ps)
      && (forall i :: 0 <= i < |word| ==> Cell(r.grid, ps[i]) == [word[i]])
      && (|word| > 0 ==> Spell(r.grid, ps) == word)
      && (|word| == 0 ==> r.grid == g)
    decreases MaxAttempts - attempt
  {
    if attempt >= MaxAttempts then Placement(g, None)
    else
      var empties := EmptyCells(g);
      if |empties| == 0 then Placement(g, None)
      else
        var start := empties[pickStart(wordIndex, attempt) % |empties|];
        var p := PlaceWord(word, g, start);
        if p.positions.Some? then
          assert AllEmpty(g, p.positions.value) by {
            var ps := p.positions.value;
            forall i | 0 <= i < |ps| ensures Cell(g, ps[i]) == "" {
              if i == 0 { assert ps[0] == start; }
            }
          }
          p
        else TryPlace(g, word, wordIndex, attempt + 1, pickStart)
  }

  /** A placement only writes into empty cells. */
  lemma PlacementExtends(g: Grid, r: Grid, ps: seq<Pos>)
    requires Square(g, |g|) && Square(r, |g|) && AllInBounds(ps, |g|)
    requires AllEmpty(g, ps) && KeepsOthers(r, g, ps)
    ensures Extends(r, g)
  {
    forall q | InBounds(q, |g|) && Cell(g, q) != "" ensures Cell(r, q) == Cell(g, q) {
      assert q !in ps;
    }
  }

  /** A word on the grid and the path it can be traced along. */
  datatype Traced = Traced(word: string, path: seq<Pos>)

  /** Each traced word is non-empty and reads back along its path, whose cells are all filled. */
  predicate Readable(g: Grid, placed: seq<Traced>)
    requires Square(g, |g|)
  {
    forall i :: 0 <= i < |placed| ==>
      && |placed[i].word| > 0 && IsPath(placed[i].path) && AllInBounds(placed[i].path, |g|)
      && Spell(g, placed[i].path) == placed[i].word
      && (forall j :: 0 <= j < |placed[i].path| ==> Cell(g, placed[i].path[j]) != "")
  }

  /** Filled cells keep their letters, so a path over filled cells keeps its spelling. */
  lemma {:induction false} SpellKept(g: Grid, r: Grid, ps: seq<Pos>)
    requires Square(g, |g|) && Square(r, |g|) && AllInBounds(ps, |g|) && Extends(r, g)
    requires forall j :: 0 <= j < |ps| ==> Cell(g, ps[j]) != ""
    ensures Spell(r, ps) == Spell(g, ps)
    decreases |ps|
  {
    if |ps| > 0 {
      SpellKept(g, r, ps[..|ps| - 1]);
    }
  }

  /** Extending the grid keeps every traced word readable. */
  lemma ReadableKept(g: Grid, r: Grid, placed: seq<Traced>)
    requires Square(g, |g|) && Square(r, |g|) && Extends(r, g) && Readable(g, placed)
    ensures Readable(r, placed)
  {
    forall i | 0 <= i < |placed| ensures Spell(r, placed[i].path) == placed[i].word {
      SpellKept(g, r, placed[i].path);
    }
  }

  /** A grid under construction, with the words placed so far. */
  datatype Generated = Generated(grid: Grid, placed: seq<Traced>)

  /**
   * The `forEach` over the sorted words as written: each word in turn gets
   * its attempts on the grid the earlier words left behind. Only empty cells
   * change, and only to letters of the words.
   */
  function PlaceAllAsWritten(g: Grid, words: seq<string>, pickStart: (nat, nat) -> nat): (r: Grid)
    requires Square(g, |g|)
    ensures Square(r, |g|)
    ensures Extends(r, g)
    ensures WrittenFrom(r, g, CharsOf(words))
    decreases |words|
  {
    if |words| == 0 then g
    else
      var n := |words|;
      var prev := PlaceAllAsWritten(g, words[..n - 1], pickStart);
      var p := TryPlaceAsWritten(prev, words[n - 1], n - 1, 0, pickStart);
      CharsOfSplit(words);
      ExtendsTrans(g, prev, p.grid);
      WrittenTrans(g, prev, p.grid, CharsOf(words[..n - 1]), CharsOf(words));
      p.grid
  }

  /** The letters of all but the last word, and of the last word alone, are letters of the words. */
  lemma CharsOfSplit(words: seq<string>)
    requires |words| > 0
    ensures CharsOf(words[..|words| - 1]) <= CharsOf(words)
    ensures CharsOf([words[|words| - 1]]) <= CharsOf(words)
  {
    var n := |words|;
    var init := words[..n - 1];
    forall c | c in CharsOf(init) ensures c in CharsOf(words) {
      var i, j :| 0 <= i < |init| && 0 <= j < |init[i]| && init[i][j] == c;
      assert words[i] == init[i];
    }
    forall c | c in CharsOf([words[n - 1]]) ensures c in CharsOf(words) {
      var i, j :| 0 <= i < 1 && 0 <= j < |[words[n - 1]][i]| && [words[n - 1]][i][j] == c;
      assert words[n - 1][j] == c;
    }
  }

  /**
   * The `forEach` over the sorted words with the corrected `placeWord`:
   * each word in turn gets its attempts on the grid the earlier words left
   * behind. Non-empty words that
   * found a place are recorded.
   */
  function PlaceAll(g: Grid, words: seq<string>, pickStart: (nat, nat) -> nat): (r: Generated)
    requires Square(g, |g|)
    ensures Square(r.grid, |g|)
    ensures Extends(r.grid, g)
    ensures WrittenFrom(r.grid, g, CharsOf(words))
    ensures Readable(r.grid, r.placed)
    ensures forall i :: 0 <= i < |r.placed| ==> r.placed[i].word in words
    decreases |words|
  {
    if |words| == 0 then Generated(g, [])
    else
      var n := |words|;
      var prev := PlaceAll(g, words[..n - 1], pickStart);
      var p := TryPlace(prev.grid, words[n - 1], n - 1, 0, pickStart);
      PlaceAllStep(g, words, prev, p);
      if p.positions.Some? && |words[n - 1]| > 0 then
        Generated(p.grid, prev.placed + [Traced(words[n - 1], p.positions.value)])
      else Generated(p.grid, prev.placed)
  }

  /** The facts `PlaceAll` needs about one more word's attempts. */
  lemma PlaceAllStep(g: Grid, words: seq<string>, prev: Generated, p: Placement)
    requires |words| > 0 && Square(g, |g|) && Square(prev.grid, |g|) && Square(p.grid, |g|)
    requires Extends(prev.grid, g) && Readable(prev.grid, prev.placed)
    requires WrittenFrom(prev.grid, g, CharsOf(words[..|words| - 1]))
    requires forall i :: 0 <= i < |prev.placed| ==> prev.placed[i].word in words[..|words| - 1]
    requires p.positions.None? ==> p.grid == prev.grid
    requires p.positions.Some? ==>
      var ps := p.positions.value;
      && AllInBounds(ps, |g|) && IsPath(ps) && |ps| == Max(1, |words[|words| - 1]|)
      && AllEmpty(prev.grid, ps) && KeepsOthers(p.grid, prev.grid, ps)
      && (forall i :: 0 <= i < |words[|words| - 1]| ==> Cell(p.grid, ps[i]) == [words[|words| - 1][i]])
      && (|words[|words| - 1]| > 0 ==> Spell(p.grid, ps) == words[|words| - 1])
      && (|words[|words| - 1]| == 0 ==> p.grid == prev.grid)
    ensures Extends(p.grid, g)
    ensures WrittenFrom(p.grid, g, CharsOf(words))
    ensures Readable(p.grid, prev.placed)
    ensures p.positions.Some? && |words[|words| - 1]| > 0 ==>
      Readable(p.grid, prev.placed + [Traced(words[|words| - 1], p.positions.value)])
    ensures forall i :: 0 <= i < |prev.placed| ==> prev.placed[i].word in words
  {
    var n := |words|;
    var w := words[n - 1];
    var init := words[..n - 1];
    assert forall x :: x in init ==> x in words;
    assert CharsOf(init) <= CharsOf(words) by {
      forall c | c in CharsOf(init) ensures c in CharsOf(words) {
        var i, j :| 0 <= i < |init| && 0 <= j < |init[i]| && init[i][j] == c;
        assert words[i] == init[i];
      }
    }
    if p.positions.Some? {
      var ps := p.positions.value;
      PlacementExtends(prev.grid, p.grid, ps);
      ReadableKept(prev.grid, p.grid, prev.placed);
      assert w == words[n - 1];
      LettersAfterPlace(prev.grid, p.grid, ps, w, CharsOf(words));
      if |w| > 0 {
        var placed := prev.placed + [Traced(w, ps)];
        forall i | 0 <= i < |placed| ensures
          && |placed[i].word| > 0 && IsPath(placed[i].path) && AllInBounds(placed[i].path, |g|)
          && Spell(p.grid, placed[i].path) == placed[i].word
          && (forall j :: 0 <= j < |placed[i].path| ==> Cell(p.grid, placed[i].path[j]) != "")
        {
          if i == |prev.placed| {
            forall j | 0 <= j < |ps| ensures Cell(p.grid, ps[j]) != "" {
              assert Cell(p.grid, ps[j]) == [w[j]];
            }
          } else {
            assert placed[i] == prev.placed[i];
          }
        }
      }
    }
    ExtendsTrans(g, prev.grid, p.grid);
    WrittenTrans(g, prev.grid, p.grid, CharsOf(init), CharsOf(words));
  }

  lemma WrittenTrans(a: Grid, b: Grid, c: Grid, inner: set<char>, chars: set<char>)
    requires Square(a, |a|) && Square(b, |a|) && Square(c, |a|) && inner <= chars
    requires WrittenFrom(b, a, inner) && WrittenFrom(c, b, chars)
    ensures WrittenFrom(c, a, chars)
  {
  }

  lemma ExtendsTrans(a: Grid, b: Grid, c: Grid)
    requires Square(a, |a|) && Square(b, |a|) && Square(c, |a|) && Extends(b, a) && Extends(c, b)
    ensures Extends(c, a)
  {
  }

  /** Placing a word made of letters from `chars` changes cells only to those letters. */
  lemma LettersAfterPlace(g: Grid, r: Grid, ps: seq<Pos>, w: string, chars: set<char>)
    requires Square(g, |g|) && Square(r, |g|) && AllInBounds(ps, |g|) && |w| <= |ps|
    requires KeepsOthers(r, g, ps)
    requires forall j :: 0 <= j < |w| ==> w[j] in chars
    requires forall i :: 0 <= i < |w| ==> Cell(r, ps[i]) == [w[i]]
    requires |w| == 0 ==> r == g
    requires |w| > 0 ==> |ps| == |w|
    ensures WrittenFrom(r, g, chars)
  {
    if |w| > 0 {
      forall row, col | 0 <= row < |g| && 0 <= col < |g|
        ensures r[row][col] == g[row][col] || (|r[row][col]| == 1 && r[row][col][0] in chars)
      {
        var q := Pos(row, col);
        if q in ps {
          var i :| 0 <= i < |ps| && ps[i] == q;
          assert Cell(r, ps[i]) == [w[i]];
        } else {
          assert Cell(r, q) == Cell(g, q);
        }
      }
    }
  }

  /** The letters `alphabet` can contribute. */
  const AlphabetChars: set<char> := set c | 'A' <= c <= 'Z'

  lemma AlphabetUpper(k: nat)
    requires k < |Alphabet|
    ensures Alphabet[k] in AlphabetChars
  {
  }

  /** Every cell holds exactly one letter from `chars`. */
  predicate OneLetterEach(g: Grid, chars: set<char>)
    requires Square(g, |g|)
  {
    forall row, col :: 0 <= row < |g| && 0 <= col < |g| ==> |g[row][col]| == 1 && g[row][col][0] in chars
  }

  /** The closing loops: each still-empty cell gets the letter `pickLetter(row, col)` selects from the alphabet. */
  function Fill(g: Grid, pickLetter: (nat, nat) -> nat): (r: Grid)
    requires Square(g, |g|)
    ensures Square(r, |g|)
    ensures Extends(r, g)
    ensures forall row, col :: 0 <= row < |g| && 0 <= col < |g| ==> r[row][col] != ""
    ensures WrittenFrom(r, g, AlphabetChars)
  {
    var r := seq(|g|, row requires 0 <= row < |g| =>
      seq(|g|, col requires 0 <= col < |g| =>
        if g[row][col] == "" then [Alphabet[pickLetter(row, col) % |Alphabet|]] else g[row][col]));
    forall row, col | 0 <= row < |g| && 0 <= col < |g|
      ensures r[row][col] == g[row][col] || (|r[row][col]| == 1 && r[row][col][0] in AlphabetChars)
    {
      if g[row][col] == "" {
        AlphabetUpper(pickLetter(row, col) % |Alphabet|);
      }
    }
    r
  }

  /** The sort order of `initializeGrid`: `(a, b) => b.length - a.length`, longer words first. */
  function LongerFirst(w: string): Rank { Rank(-|w|, 0) }

  /** Sorting the words brings in no new letters. */
  lemma SortedChars(words: seq<string>)
    ensures CharsOf(SortByRank(words, LongerFirst)) <= CharsOf(words)
    ensures forall w :: w in SortByRank(words, LongerFirst) ==> w in words
  {
    var sorted := SortByRank(words, LongerFirst);
    forall w | w in sorted ensures w in words {
      assert w in multiset(sorted);
    }
    forall c | c in CharsOf(sorted) ensures c in CharsOf(words) {
      var i, j :| 0 <= i < |sorted| && 0 <= j < |sorted[i]| && sorted[i][j] == c;
      assert sorted[i] in multiset(words);
      var k :| 0 <= k < |words| && words[k] == sorted[i];
    }
  }

  /**
   * The grid for a level as written: its words placed longest first on an
   * empty square with `placeWord` as written, then the gaps filled.
   */
  function GenerateAsWritten(lv: Level, pickStart: (nat, nat) -> nat, pickLetter: (nat, nat) -> nat): (r: Grid)
    ensures Square(r, GridSize(|lv.masterWord|))
    ensures OneLetterEach(r, CharsOf(lv.validWords) + AlphabetChars)
  {
    var empty := EmptyGrid(GridSize(|lv.masterWord|));
    var sorted := SortByRank(lv.validWords, LongerFirst);
    var placed := PlaceAllAsWritten(empty, sorted, pickStart);
    var filled := Fill(placed, pickLetter);
    SortedChars(lv.validWords);
    GeneratedLetters(empty, placed, filled, CharsOf(sorted), CharsOf(lv.validWords));
    filled
  }

  /** The grid for a level with the corrected `placeWord`: its words placed longest first on an empty square, then the gaps filled. */
  function Generate(lv: Level, pickStart: (nat, nat) -> nat, pickLetter: (nat, nat) -> nat): (r: Generated)
    ensures Square(r.grid, GridSize(|lv.masterWord|))
    ensures OneLetterEach(r.grid, CharsOf(lv.validWords) + AlphabetChars)
    ensures Readable(r.grid, r.placed)
    ensures forall i :: 0 <= i < |r.placed| ==> r.placed[i].word in lv.validWords
  {
    var empty := EmptyGrid(GridSize(|lv.masterWord|));
    var sorted := SortByRank(lv.validWords, LongerFirst);
    var placed := PlaceAll(empty, sorted, pickStart);
    var filled := Fill(placed.grid, pickLetter);
    SortedChars(lv.validWords);
    ReadableKept(placed.grid, filled, placed.placed);
    GeneratedLetters(empty, placed.grid, filled, CharsOf(sorted), CharsOf(lv.validWords));
    Generated(filled, placed.placed)
  }

  /**
   * `initializeGrid()` for `level`; `None` when there is no such level,
   * where `levels[level]` is `undefined` and the destructuring throws.
   */
  function InitializeGrid(level: int, pickStart: (nat, nat) -> nat, pickLetter: (nat, nat) -> nat): (r: Option<Grid>)
    ensures r.Some? <==> LevelFor(level).Some?
    ensures r.Some? ==> Square(r.value, GridSize(|LevelFor(level).value.masterWord|))
    ensures r.Some? ==> OneLetterEach(r.value, CharsOf(LevelFor(level).value.validWords) + AlphabetChars)
  {
    match LevelFor(level)
    case None => None
    case Some(lv) => Some(GenerateAsWritten(lv, pickStart, pickLetter))
  }

  /** An empty grid written with word letters and then filled from the alphabet has one letter in every cell. */
  lemma GeneratedLetters(empty: Grid, placed: Grid, filled: Grid, used: set<char>, chars: set<char>)
    requires Blank(empty, |empty|) && Square(placed, |empty|) && Square(filled, |empty|) && used <= chars
    requires WrittenFrom(placed, empty, used) && WrittenFrom(filled, placed, AlphabetChars)
    requires forall row, col :: 0 <= row < |empty| && 0 <= col < |empty| ==> filled[row][col] != ""
    ensures OneLetterEach(filled, chars + AlphabetChars)
  {
  }

  /** Both levels' words are written in capital letters. */
  lemma LevelWordsUpper(level: int)
    requires LevelFor(level).Some?
    ensures CharsOf(LevelFor(level).value.validWords) <= AlphabetChars
  {
  }

  lemma OneLetterWeaken(g: Grid, chars: set<char>, more: set<char>)
    requires Square(g, |g|) && chars <= more && OneLetterEach(g, chars)
    ensures OneLetterEach(g, more)
  {
  }

  /** Both levels get a four-by-four grid whose every cell is one capital letter. */
  lemma LevelGrids(level: int, pickStart: (nat, nat) -> nat, pickLetter: (nat, nat) -> nat)
    requires level == 1 || level == 2
    ensures InitializeGrid(level, pickStart, pickLetter).Some?
    ensures Square(InitializeGrid(level, pickStart, pickLetter).value, 4)
    ensures OneLetterEach(InitializeGrid(level, pickStart, pickLetter).value, AlphabetChars)
  {
    var lv := LevelFor(level).value;
    var g := InitializeGrid(level, pickStart, pickLetter).value;
    ShortMasterFourByFour(|lv.masterWord|);
    LevelWordsUpper(level);
    OneLetterWeaken(g, CharsOf(lv.validWords) + AlphabetChars, AlphabetChars);
  }

  /** Both word lists are already longest-first, so the stable sort keeps their order. */
  lemma LevelWordsKeepOrder(level: int)
    requires LevelFor(level).Some?
    ensures SortByRank(LevelFor(level).value.validWords, LongerFirst) == LevelFor(level).value.validWords
  {
    var ws := LevelFor(level).value.validWords;
    assert SortedBy(ws, LongerFirst);
    SortSortedIsIdentity(ws, LongerFirst);
  }

  // ---------------------------------------------------------------------------
  // Selecting and validating
  // ---------------------------------------------------------------------------

  /** `isAnimating`, and while it is set, the verdict `validateWord` reached before its pause. */
  datatype Phase = Ready | Checking(valid: bool)

  datatype Puzzle = Puzzle(
    level: int,
    grid: Grid,
    currentWord: string,
    selected: seq<Pos>,
    found: seq<string>,     // `foundWords`, in the order the words were found
    score: nat,
    phase: Phase)

  /** The component after its first effect: level 1's grid, nothing selected or found. */
  function Mount(pickStart: (nat, nat) -> nat, pickLetter: (nat, nat) -> nat): (s: Puzzle)
    ensures s.level == 1 && Square(s.grid, 4) && OneLetterEach(s.grid, AlphabetChars)
    ensures s.currentWord == "" && s.selected == [] && s.found == [] && s.score == 0 && s.phase == Ready
  {
    LevelGrids(1, pickStart, pickLetter);
    Puzzle(1, InitializeGrid(1, pickStart, pickLetter).value, "", [], [], 0, Ready)
  }

  /** `handleTouchStart` on a cell: ignored while checking, otherwise a new one-cell selection. */
  function TouchStart(s: Puzzle, pos: Pos): (r: Puzzle)
    requires Square(s.grid, |s.grid|) && InBounds(pos, |s.grid|)
    ensures s.phase.Checking? ==> r == s
    ensures s.phase.Ready? ==> r == s.(selected := [pos], currentWord := Cell(s.grid, pos))
  {
    if s.phase.Checking? then s else s.(selected := [pos], currentWord := Cell(s.grid, pos))
  }

  /** `handleTouchMove` onto a cell: extends a selection by a nearby cell it does not hold yet. */
  function TouchMove(s: Puzzle, pos: Pos): (r: Puzzle)
    requires Square(s.grid, |s.grid|) && InBounds(pos, |s.grid|)
    ensures r.grid == s.grid && r.found == s.found && r.score == s.score && r.phase == s.phase && r.level == s.level
    ensures (s.phase.Ready? && |s.selected| > 0 && Near(s.selected[|s.selected| - 1], pos) && pos !in s.selected) ==>
      r.selected == s.selected + [pos] && r.currentWord == s.currentWord + Cell(s.grid, pos)
    ensures !(s.phase.Ready? && |s.selected| > 0 && Near(s.selected[|s.selected| - 1], pos) && pos !in s.selected) ==> r == s
  {
    if s.phase.Checking? || |s.selected| == 0 then s
    else
      var last := s.selected[|s.selected| - 1];
      if Near(last, pos) && pos !in s.selected then
        s.(selected := s.selected + [pos], currentWord := s.currentWord + Cell(s.grid, pos))
      else s
  }

  /** `validWords.includes(currentWord) && !foundWords.has(currentWord)` for the current level. */
  predicate IsValid(s: Puzzle)
    requires LevelFor(s.level).Some?
  {
    s.currentWord in LevelFor(s.level).value.validWords && s.currentWord !in s.found
  }

  /**
   * `handleTouchEnd`, up to `validateWord`'s pause: ignored while checking;
   * otherwise the verdict is reached and the checking phase begins. Past the
   * last level `levels[level]` is `undefined`, the async function rejects
   * before setting anything, and nothing changes.
   */
  function BeginValidate(s: Puzzle): (r: Puzzle)
    ensures s.phase.Checking? || LevelFor(s.level).None? ==> r == s
    ensures s.phase.Ready? && LevelFor(s.level).Some? ==> r == s.(phase := Checking(IsValid(s)))
  {
    if s.phase.Checking? then s
    else match LevelFor(s.level)
      case None => s
      case Some(_) => s.(phase := Checking(IsValid(s)))
  }

  /** Whether every word of the level is in `found`. */
  predicate AllFound(level: Level, found: seq<string>) {
    forall w :: w in level.validWords ==> w in found
  }

  /**
   * The rest of `validateWord` as written, after the pause: a valid word is
   * recorded and scores ten points a letter; the level advances when every
   * word was found, checked against `foundWords` as the closure captured it,
   * before this word was added. The selection is cleared either way.
   */
  function FinishValidateAsWritten(s: Puzzle): (r: Puzzle)
    requires s.phase.Checking? && LevelFor(s.level).Some?
    ensures r.phase == Ready && r.currentWord == "" && r.selected == [] && r.grid == s.grid
    ensures s.phase.valid ==> r.found == s.found + [s.currentWord] && r.score == s.score + 10 * |s.currentWord|
    ensures !s.phase.valid ==> r.found == s.found && r.score == s.score && r.level == s.level
    ensures s.phase.valid ==> (r.level == s.level + 1 <==> AllFound(LevelFor(s.level).value, s.found))
    ensures r.level == s.level || r.level == s.level + 1
  {
    var s1 :=
      if s.phase.valid then
        var advance := AllFound(LevelFor(s.level).value, s.found);
        s.(found := s.found + [s.currentWord], score := s.score + |s.currentWord| * 10,
           level := if advance then s.level + 1 else s.level)
      else s;
    s1.(currentWord := "", selected := [], phase := Ready)
  }

  /** The level check as intended: against the found words including this one. */
  function FinishValidate(s: Puzzle, pickStart: (nat, nat) -> nat, pickLetter: (nat, nat) -> nat): (r: Puzzle)
    requires s.phase.Checking? && LevelFor(s.level).Some?
    ensures r.phase == Ready && r.currentWord == "" && r.selected == []
    ensures s.phase.valid ==> r.found == s.found + [s.currentWord] && r.score == s.score + 10 * |s.currentWord|
    ensures !s.phase.valid ==> r.found == s.found && r.score == s.score && r.level == s.level && r.grid == s.grid
    ensures s.phase.valid ==> (r.level == s.level + 1 <==> AllFound(LevelFor(s.level).value, s.found + [s.currentWord]))
    ensures r.level == s.level ==> r.grid == s.grid
    ensures r.level != s.level && LevelFor(r.level).Some? ==> r.grid == Generate(LevelFor(r.level).value, pickStart, pickLetter).grid
  {
    if s.phase.valid then
      var found := s.found + [s.currentWord];
      var advance := AllFound(LevelFor(s.level).value, found);
      var level := if advance then s.level + 1 else s.level;
      var grid :=
        if !advance then s.grid
        else match LevelFor(level)
          case None => s.grid
          case Some(lv) => Generate(lv, pickStart, pickLetter).grid;
      Puzzle(level, grid, "", [], found, s.score + |s.currentWord| * 10, Ready)
    else s.(currentWord := "", selected := [], phase := Ready)
  }

  /**
   * What every event keeps: the selection is a path over the grid spelling
   * the current word; found words are distinct and score ten points a
   * letter; a checking phase holds the verdict the current state deserves.
   */
  predicate Valid(s: Puzzle) {
    && Square(s.grid, |s.grid|)
    && AllInBounds(s.selected, |s.grid|)
    && IsPath(s.selected)
    && s.currentWord == Spell(s.grid, s.selected)
    && Distinct(s.found)
    && s.score == 10 * SumLengths(s.found)
    && (s.phase.Checking? ==> LevelFor(s.level).Some? && s.phase.valid == IsValid(s))
  }

  datatype Event =
    | Start(pos: Pos)   // a touch lands on a cell
    | Move(pos: Pos)    // a touch moves onto a cell
    | End               // the touch ends
    | Pause             // the 500 ms of `validateWord` have passed

  predicate Applicable(s: Puzzle, e: Event)
    requires Square(s.grid, |s.grid|)
  {
    match e
    case Start(p) => InBounds(p, |s.grid|)
    case Move(p) => InBounds(p, |s.grid|)
    case End => true
    case Pause => s.phase.Checking? && LevelFor(s.level).Some?
  }

  function StepAsWritten(s: Puzzle, e: Event): Puzzle
    requires Square(s.grid, |s.grid|) && Applicable(s, e)
  {
    match e
    case Start(p) => TouchStart(s, p)
    case Move(p) => TouchMove(s, p)
    case End => BeginValidate(s)
    case Pause => FinishValidateAsWritten(s)
  }

  function Step(s: Puzzle, e: Event, pickStart: (nat, nat) -> nat, pickLetter: (nat, nat) -> nat): Puzzle
    requires Square(s.grid, |s.grid|) && Applicable(s, e)
  {
    match e
    case Start(p) => TouchStart(s, p)
    case Move(p) => TouchMove(s, p)
    case End => BeginValidate(s)
    case Pause => FinishValidate(s, pickStart, pickLetter)
  }

  /** A square grid with nothing selected, found or scored is a valid start. */
  lemma FreshValid(s: Puzzle)
    requires Square(s.grid, |s.grid|) && s.currentWord == "" && s.selected == [] && s.found == [] && s.score == 0 && s.phase == Ready
    ensures Valid(s)
  {
  }

  lemma MountValid(pickStart: (nat, nat) -> nat, pickLetter: (nat, nat) -> nat)
    ensures Valid(Mount(pickStart, pickLetter))
  {
    FreshValid(Mount(pickStart, pickLetter));
  }

  /** Touches keep the selection a path that spells the current word. */
  lemma {:induction false} TouchValid(s: Puzzle, e: Event)
    requires Valid(s) && (e.Start? || e.Move?) && Applicable(s, e)
    ensures Valid(StepAsWritten(s, e))
  {
    match e
    case Start(p) =>
      SpellSnoc(s.grid, [], p);
    case Move(p) =>
      if s.phase.Ready? && |s.selected| > 0 && Near(s.selected[|s.selected| - 1], p) && p !in s.selected {
        ExtendPath(s.selected, p);
        SpellSnoc(s.grid, s.selected, p);
      }
  }

  /** Recording a valid word keeps the found words distinct and the score at ten points a letter. */
  lemma RecordKeeps(found: seq<string>, score: nat, w: string)
    requires Distinct(found) && score == 10 * SumLengths(found) && w !in found
    ensures Distinct(found + [w]) && score + 10 * |w| == 10 * SumLengths(found + [w])
  {
    SumLengthsSnoc(found, w);
    var ws := found + [w];
    forall i, j | 0 <= i < j < |ws| ensures ws[i] != ws[j] {
      assert ws[i] == found[i];
      if j < |found| { assert ws[j] == found[j]; }
    }
  }

  lemma {:induction false} StepAsWrittenValid(s: Puzzle, e: Event)
    requires Valid(s) && Applicable(s, e)
    ensures Valid(StepAsWritten(s, e))
  {
    match e
    case Start(_) => TouchValid(s, e);
    case Move(_) => TouchValid(s, e);
    case End =>
    case Pause =>
      if s.phase.valid { RecordKeeps(s.found, s.score, s.currentWord); }
  }

  lemma {:induction false} StepValid(s: Puzzle, e: Event, pickStart: (nat, nat) -> nat, pickLetter: (nat, nat) -> nat)
    requires Valid(s) && Applicable(s, e)
    ensures Valid(Step(s, e, pickStart, pickLetter))
  {
    match e
    case Start(_) => TouchValid(s, e);
    case Move(_) => TouchValid(s, e);
    case End =>
    case Pause =>
      if s.phase.valid { RecordKeeps(s.found, s.score, s.currentWord); }
  }

  /**
   * As written, the level never advances: a valid word is a level word not
   * yet found, so the captured `foundWords` always lacks it.
   */
  lemma LevelNeverAdvances(s: Puzzle)
    requires Valid(s) && s.phase.Checking? && LevelFor(s.level).Some?
    ensures FinishValidateAsWritten(s).level == s.level
  {
  }

  /** Level 1 with every word but "TAR" found, and "TAR" just traced. */
  predicate OneWordLeft(s: Puzzle) {
    && s.level == 1
    && s.found == ["MASTER", "STEAM", "TEAM", "STEM", "MEAT", "SEA", "SAT"]
    && s.currentWord == "TAR"
    && s.phase == Checking(true)
  }

  /** Finding the last word of level 1: the code as written stays on level 1, the intended check moves on to level 2. */
  lemma LastWordOfLevelOne(s: Puzzle, pickStart: (nat, nat) -> nat, pickLetter: (nat, nat) -> nat)
    requires OneWordLeft(s)
    ensures FinishValidateAsWritten(s).level == 1
    ensures FinishValidate(s, pickStart, pickLetter).level == 2
  {
    var lv := LevelFor(1).value;
    assert !AllFound(lv, s.found) by { assert "TAR" in lv.validWords; }
    assert AllFound(lv, s.found + [s.currentWord]);
  }

  /** A word already found never scores again. */
  lemma FoundWordScoresOnce(s: Puzzle)
    requires Valid(s) && s.phase.Ready? && LevelFor(s.level).Some? && s.currentWord in s.found
    ensures BeginValidate(s).phase == Checking(false)
  {
  }
}
